=== FILE: README.md ===
# imx-oei EEPROM-driven DRAM adjustment, in Dafny

This project models three layers of the i.MX95 OEI (Optional Executable
Image) firmware that sit on top of each other, and proves properties of each:

- **The LPI2C transport** (`source/utils/lpi2c.c`). The controller's registers
  and the microsecond timer are an oracle `Hw`, indexed by a query counter
  (the "tick"). Every register read and every timer read consumes one tick.
  An operation returns a `Step`: its return code, the tick after its last
  query, and the events it caused, i.e. register writes and the internal
  routines it entered. Three projections read a trace:
  - `Queued`: the words written to the transmit FIFO (MTDR);
  - `Stored`: the bytes taken from the receive FIFO;
  - `Routines`: the bus re-initialisations and stops.

  Every poll loop ends, because the timer is required to increase strictly
  from query to query.
- **The clock-divider search** of `bus_i2c_set_bus_speed`. It has a
  declarative optimum, `Divider.Best`: the least error over all (prescaler,
  high-time) pairs, ties going to the earliest pair in search order. The
  search is proved to find it.
- **The chip-addressing layer** (`source/utils/i2c.c`). It turns a read or
  write of `len` bytes at `offset` in a chip into the I2C messages handed
  to the transport. The transport is a parameter here: the status of the
  k-th transfer of an operation.
- **The EEPROM record** (`include/eeprom.h`):
  - the packed 81-byte layout, with a serialiser and a parser that are
    mutual inverses;
  - the byte swap and the magic check;
  - the SOM revision fields.
- **The DRAM table adjustment** (`source/ddr/eeprom.c`):
  - the gates on the header: magic, format version, and the CRC-32 of the
    adjustment data;
  - the per-table sizes and the total byte count derived from the offset
    table;
  - the merge-join patch of each of the six DRAM configuration tables by
    its adjustment table;
  - the copy of the set-point rate and PLL-bypass bit.

  The EEPROM contents are an oracle `image`: the byte a one-byte read at an
  offset delivers. `var_eeprom_get_dev` is an oracle `getDev`: the return
  code of its k-th call during one adjustment.

Integer widths are explicit:
- `u16` offsets wrap modulo 2^16;
- the byte count and `size_t` differences wrap modulo 2^32;
- C `int` return codes are `bv32` two's-complement words;
- an unsigned length passed to an `int` parameter goes through
  `I2c.IntCount`.

Three behaviours of the code are easy to misread, and the model follows
the code in each:
- `lpi2c_xfer` (`source/utils/lpi2c.c:391-410`) returns `ret | ret_stop`
  (line 410), a bitwise OR of the last message's code and the stop's code.
  It does not return the first error. Only a failed write ends the message
  loop (lines 397-399); a failed read does not. A failed read followed by
  a successful message is therefore invisible in the result.
- The comment on `adjust_dram_table` (`source/ddr/eeprom.c:156-157`)
  assumes the adjustment rows follow the table's register order; under
  that assumption every row is applied (`DramAdjust.PatchAsIntended`). The
  inner loop (lines 187-194) does not check it. A row whose register is not
  found at or after the cursor runs the cursor to the end of the table, so
  no later row of that adjustment table changes anything
  (`DramAdjust.UnmatchedEndsPatch`).
- The comment on `fsp_bypass` (`include/eeprom.h:56`) gives byte 84. In the
  packed struct, `fsp_drate` holds one set point (`NUM_FSPS` is 1, line 38)
  and takes 2 bytes from byte 78, so the field lies at byte 80. The model
  follows the struct (`EepromRecord.Layout`).

## Model

| member | source | states |
|---|---|---|
| Lpi2cHw.ErrorCodeByPriority | source/utils/lpi2c.c:49-62 | the decoded status equals the first error flag set in priority order PLTF, ALF, NDF, FEF, read against an independent priority table |
| Lpi2cHw.ErrorCodeCases | source/utils/lpi2c.c:49-62 | the decode is success iff none of the four error flags is set; otherwise it is one of the four error codes |
| Lpi2cHw.StartWordFields | source/utils/lpi2c.c:198 | the start word carries command 4, the 7-bit address in bits 1-7 and the direction in bit 0 |
| Lpi2cHw.RecvCmdFields | source/utils/lpi2c.c:143 | the receive command carries command 1 and len-1 in its 8-bit data field; the stop command is command 2 with data 0 |
| Lpi2c.CheckClearError | source/utils/lpi2c.c:44-73 | one status read; on success no register is written; on an error the flags are cleared with 0x7f00 and both FIFOs are reset, keeping the other MCR bits |
| Lpi2c.CheckBusy | source/utils/lpi2c.c:31-42 | BUSY exactly when the bus-busy flag is set and the master-busy flag is clear, with no write |
| Lpi2c.WaitTxReady | source/utils/lpi2c.c:75-99 | the wait ends at its first pass that does not go on, and every earlier pass (one every three queries) saw a full FIFO, no error and time left; success only when that pass saw room, no error and time left; -1 only when it saw no error and more than 100000 microseconds had passed; any other code is the decoded error, whose clearing writes were made |
| Lpi2c.AwaitTx | source/utils/lpi2c.c:75-99 | the transmit wait as its callers use it: success leaves no events and its last pass saw room, no error and time left against the timer read when it began (TxReady); a failure is -1 past the timeout with no error flagged or the decoded error (FailedAt), and leaves only plain traffic |
| Lpi2c.TxPass | source/utils/lpi2c.c:83-95 | one pass of the transmit wait takes three queries and lets the wait go on exactly when it saw a full FIFO, no error and time left; when it ends the wait it is with success if the FIFO had room, with -1 if the timer was past TIMEOUT with no error, and otherwise with the decoded and cleared error |
| Lpi2c.Send | source/utils/lpi2c.c:101-120 | an empty send succeeds without touching the bus; otherwise the bytes queued are a prefix of the data, all of it exactly on success; a failure is that of the transmit wait begun at some tick w at or after the send began: -1 only when no error was flagged and the timer was past 100000 microseconds from the one read at w, otherwise the error decoded from that wait's last status read |
| Lpi2c.RxPoll | source/utils/lpi2c.c:147-162 | the poll ends at its first pass that does not go on, and every earlier pass saw no error, time left and an empty receive word; on success the byte stored is the low byte of the first non-empty word; -1 only when that pass saw no error and more than 100000 microseconds had passed; otherwise the decoded error |
| Lpi2c.RxNext | source/utils/lpi2c.c:147-162 | the byte poll as the byte loop uses it: success stores exactly the low byte of the MRDR word read on its last pass, which ended a poll that saw no error and time left (ByteAt); a failure is -1 past the timeout with no error flagged or the decoded error (FailedAt), and leaves only plain traffic |
| Lpi2c.RxPass | source/utils/lpi2c.c:148-161 | one pass of the byte poll lets the poll go on exactly when it saw no error, time left and an empty receive word; an error or a late timer reading ends it before MRDR is read, and a non-empty word ends it with that word's low byte stored |
| Lpi2c.RxBytes | source/utils/lpi2c.c:146-163 | the bytes stored are the low bytes of the receive words at which the successive byte polls ended, each poll beginning right after the read that ended the one before; exactly len of them on success and fewer on failure; nothing queued; a failure is -1 only when the failing poll saw no error and the timer was past 100000 microseconds from the receive's start, and otherwise the error decoded from that poll's status read |
| Lpi2c.RxDataAt | source/utils/lpi2c.c:160-162 | byte i of the data stored is the low byte of the receive word read for byte i |
| Lpi2c.Receive | source/utils/lpi2c.c:122-166 | an empty read succeeds with no bus activity; otherwise the receive command is queued exactly when the transmit wait begun after the timer read succeeded (its last pass saw room, no error and time left), and the bytes stored are those of the successive byte polls from the tick that wait ended: len on success, fewer on failure; a failure before the command is the wait's, one after it the failing byte poll's, timed from the receive's own timer read |
| Lpi2c.Collect | source/utils/lpi2c.c:140-165 | after the transmit wait the receive command for len bytes is queued exactly once and nothing else is; the bytes stored are those of the byte polls that follow, len of them on success and fewer on failure; a failure is that of the failing byte poll, -1 past the timeout with no error flagged and otherwise the decoded error |
| Lpi2c.Request | source/utils/lpi2c.c:134-165 | for a non-empty read the command is queued exactly when the transmit wait succeeds, the byte polls start where that wait ended, and a failure is the wait's (with nothing queued) or the failing byte poll's |
| Lpi2c.SetBusSpeed | source/utils/lpi2c.c:269-332 | always 0; master mode off, MCCR0 set to the timing word of the optimal divider, the prescale field set, and master mode back on exactly when it was on at entry |
| Lpi2c.PrescaleField | source/utils/lpi2c.c:323-324 | the MCFGR1 word written carries the prescale code in its prescale field |
| Lpi2c.Init | source/utils/lpi2c.c:334-367 | reset and configuration writes, the set-speed writes, then master mode on; no FIFO traffic |
| Lpi2c.Reclaim | source/utils/lpi2c.c:174-185 | on a stuck bus, re-initialises exactly once and reports BUSY iff the bus is still stuck; otherwise does nothing |
| Lpi2c.Start | source/utils/lpi2c.c:168-202 | BUSY exactly when the bus was stuck at the first busy check and again at the check after the one re-init (the last check is on entry when the bus was not stuck); otherwise the result is that of the transmit wait begun two ticks after the last check: success exactly when its last pass saw room, no error and time left, and then exactly the start word for (addr, dir) is queued, with auto-stop off |
| Lpi2c.Reinit | source/utils/lpi2c.c:179 | the re-init at the standard rate whose result start and probe ignore: it enters init once and queues and stores nothing |
| Lpi2c.Issue | source/utils/lpi2c.c:186-201 | after a passed busy check the flags are cleared and auto-stop is switched off; the transmit wait begins at the next tick; on its success (room, no error, time left in its last pass) the start word for (addr, dir) is queued, and on its failure (-1 past the timeout with no error, otherwise the decoded error) nothing is |
| Lpi2c.StopPass | source/utils/lpi2c.c:219-236 | one pass reads MSR, checks for errors and, unless the stop flag was set, the timer; it ends the poll with the decoded error when the flag was set, with -ETIMEDOUT when the reading is past 1000 microseconds, and otherwise lets the next pass begin after the timer read |
| Lpi2c.StopPoll | source/utils/lpi2c.c:219-236 | -ETIMEDOUT only past 1000 microseconds without the stop flag; otherwise the stop flag is cleared and the error decoded in the same pass is returned; every pass before the last read the timer within 1000 microseconds, so neither outcome follows a reading past the budget |
| Lpi2c.Stop | source/utils/lpi2c.c:204-239 | the stop command is queued exactly when the transmit wait succeeded, and otherwise the wait's failure is returned; after the command, the stop-flag poll is timed against the timer read just after it, every pass before the last had time left, -ETIMEDOUT only past 1000 microseconds of that reading with the flag clear, and otherwise the flag was seen and the code is the error decoded in that same pass, after which the flag's clearing write is the last event |
| Lpi2c.BusRead | source/utils/lpi2c.c:241-253 | success iff the start word and the receive command were queued and len bytes stored; otherwise a prefix of those words; BUSY exactly when the start found the bus stuck at both its checks; any other failure is that of the wait or byte poll whose timer was read at a named tick (FailedAt); the bytes stored are the low bytes of the MRDR words at the ticks where the byte polls ended, polls that began where the receive's transmit wait ended and were timed against the timer read when the start's wait ended (OnBus) |
| Lpi2c.ReadRest | source/utils/lpi2c.c:248-252 | after a start that succeeded, the receive, and then the promises of BusRead: the same success iff, prefix, BUSY iff, timed failure and stored bytes (OnBus) |
| Lpi2c.ReadTail | source/utils/lpi2c.c:248-250 | the receive as the read sees it: success iff the receive command (none for len 0) was queued and len bytes stored; a failure is that of the wait or byte poll whose timer was read at a named tick; the bytes stored are the low bytes of the MRDR words where the polls ended, polls that began where the transmit wait ended |
| Lpi2c.BusWrite | source/utils/lpi2c.c:255-267 | success iff the start word and every data byte were queued; otherwise a prefix of those words; nothing is stored; BUSY exactly when the start found the bus stuck at both its checks; any other failure is that of the transmit wait whose timer was read at a named tick, -1 past the timeout with no error flagged and otherwise the decoded error (OnBus) |
| Lpi2c.XferMessages | source/utils/lpi2c.c:391-401 | runs the messages in order, each by its direction, each from the tick the one before it ended; stops early exactly after a failed write, never after a failed read; each run's code and stored bytes are as the hardware says at the ticks of its Mark: BUSY iff stuck at both busy checks, other failures as their wait or poll found them, bytes from the MRDR reads of its polls (Marked) |
| Lpi2c.RunMsg | source/utils/lpi2c.c:393-397 | one message as bus_i2c_read or bus_i2c_write by its direction: its run keeps the read's or the write's promises (MsgDone) and is as the hardware says at the ticks of its Mark (OnBus) |
| Lpi2c.Xfer | source/utils/lpi2c.c:387-413 | the stop is always attempted once, at the tick the last run ended; each run is as the hardware says (Marked); the stop's code is as its wait and its flag poll found it (StopEnded); the result is the last message's code ORed with the stop's, 0 exactly when both are 0 |
| Lpi2c.XferTrace | source/utils/lpi2c.c:387-413 | the stop routine is entered once, after the messages; when all succeed, every message's words reach MTDR in order followed by the stop command, and every byte asked for is stored |
| Lpi2c.OrZero | source/utils/lpi2c.c:410 | the OR of two codes is 0 iff both are |
| Lpi2c.Probe | source/utils/lpi2c.c:369-385 | start with direction 0, then stop even when the start failed; the code is the start's when it failed and the stop's otherwise, each as the hardware says (Started, StopEnded); a re-init follows exactly when the probe fails; success queued the start word and the stop command |
| Lpi2c.ProbeEnd | source/utils/lpi2c.c:373-384 | the start's code when it failed, else the stop's; init entered after the stop exactly when that code is not 0; only a failed start gives BUSY |
| Divider.SearchOptimal | source/utils/lpi2c.c:287-305 | the search result has the least error of all prescaler/high-time pairs, and every earlier pair has a strictly larger error |
| Divider.SearchIsExhaustive | source/utils/lpi2c.c:287-305 | the nested loops with their early exits give the same result as visiting every pair in order |
| Divider.ExactStays | source/utils/lpi2c.c:301-302 | once an exact match is found, no later pair replaces it, so the early exit loses nothing |
| Divider.BestUnique | source/utils/lpi2c.c:297 | the strict comparison makes the optimum unique |
| Divider.Choose | source/utils/lpi2c.c:287-305 | returns the optimum |
| Divider.RateBounds | source/utils/lpi2c.c:291-293 | every candidate rate lies between 1 and the 24 MHz clock |
| Divider.TimingWordFields | source/utils/lpi2c.c:308-314 | CLKHI is the chosen high time; below 2, CLKLO=3, SETHOLD=2, DATAVD=1; otherwise CLKLO=2·clkhi, SETHOLD=clkhi, DATAVD=clkhi/2 |
| Divider.PrescaleCodeExp | source/utils/lpi2c.c:316-321 | the prescale code of 2^e is e |
| I2c.OffsetRoundTrip | source/utils/i2c.c:56-57 | the offset_len bytes, read big-endian, give the offset modulo 2^(8·offset_len) |
| I2c.SetupOffset | source/utils/i2c.c:41-60 | -1 iff offset_len is 0, the message still set up; the address folds the high offset bits under the mask; the TEN flag iff the chip is 10-bit; the length is offset_len |
| I2c.EepromAddressing | source/ddr/eeprom.c:26-33 | for the EEPROM chip (0x52, one offset byte, mask 1) the setup succeeds, and the address (0x52 or 0x53) together with the one offset byte names the offset modulo 512 |
| I2c.IntCount | source/utils/i2c.c:62-63 | the iteration count of a bytewise loop never exceeds the 32-bit length, and equals it iff the length is at most INT_MAX as a C int |
| I2c.Transfers | source/utils/i2c.c:70-83 | transfers are issued in order and stop at the first that fails; success iff all were issued and all succeeded |
| I2c.ReadBytewise | source/utils/i2c.c:62-86 | -1 with nothing sent when offset_len is 0; otherwise one transfer per byte, addressed at offset+i, stopping at the first failure |
| I2c.WriteBytewise | source/utils/i2c.c:88-107 | -1 with nothing sent when offset_len is 0; otherwise one message per byte, at offset+i, of length offset_len+1 |
| I2c.ReadMsgs | source/utils/i2c.c:125-137 | exactly (offset_len≠0)+(len≠0) messages at the folded address; the offset message first, a write of length offset_len carrying the offset; the read message last, marked as a read, of length len |
| I2c.Read | source/utils/i2c.c:117-140 | bytewise for a chip that needs an address per read byte: -1 with nothing sent when offset_len is 0, otherwise one transfer per byte at offset+k, at most the C-int count of them, success iff all were made and succeeded, stopping at the first failure; otherwise exactly one transfer of ReadMsgs |
| I2c.WriteMsg | source/utils/i2c.c:180-187 | one write message: the big-endian offset bytes followed by the payload, of length offset_len+len |
| I2c.Write | source/utils/i2c.c:142-195 | bytewise for a chip that needs an address per write byte: -1 with nothing sent when offset_len is 0, otherwise one transfer per byte at offset+k, at most the C-int count of them, success iff all were made and succeeded, stopping at the first failure; otherwise -1 with nothing sent above 64 payload bytes, else exactly one transfer of WriteMsg |
| I2c.Init | source/utils/i2c.c:109-115 | the speed is stored before the lower-layer init, whose code is returned |
| I2c.SetBusSpeed | source/utils/i2c.c:221-236 | the stored speed changes only when the lower layer returns 0 |
| I2c.SpeedKept | source/utils/i2c.c:221-236 | after i2c_init the stored speed is the init's until a speed change is accepted by the controller, and re-setting the stored speed never changes it |
| EepromRecord.Layout | include/eeprom.h:40-57 | version at 36, ddr_crc32 at 44, ddr_vic at 48, off[] at 50, fsp_drate at 78, fsp_bypass at 80; the record is 81 bytes |
| EepromRecord.SerializeParse | include/eeprom.h:40-57 | parsing the bytes of a record gives the record back |
| EepromRecord.ParseSerialize | include/eeprom.h:40-57 | serialising the record parsed from 81 bytes gives the bytes back |
| EepromRecord.ParseHeader | include/eeprom.h:42-52 | magic and ddr_crc32 are the little-endian words at bytes 0 and 44; version is byte 36 |
| EepromRecord.ParseOffsets | include/eeprom.h:54 | off[i] is the little-endian word at byte 50+2i, used raw |
| EepromRecord.ParseFsp | include/eeprom.h:55-56 | fsp_drate[0] is the little-endian word at byte 78; fsp_bypass is byte 80 |
| EepromRecord.Htons | include/eeprom.h:61-64 | swaps the two bytes of a 16-bit word |
| EepromRecord.HtonsInvolution | include/eeprom.h:61-64 | swapping twice gives the word back |
| EepromRecord.ValidBytes | include/eeprom.h:66-73 | a record is valid iff its first two bytes are 'D' (0x44) then 'T' (0x54) |
| EepromRecord.SomrevMinor | include/eeprom.h:26 | the minor revision lies in [0,31] |
| EepromRecord.SomrevMajor | include/eeprom.h:27 | the major revision lies in [1,8] |
| EepromRecord.SomrevRoundTrip | include/eeprom.h:26-27 | the two fields together determine the revision byte, and any major in [1,8] with minor in [0,31] is recovered |
| Crc32.Incremental | source/ddr/eeprom.c:133-137 | feeding the bytes one at a time gives the CRC of the whole run |
| Crc32.CheckValue | source/ddr/eeprom.c:133-137 | the CRC is the standard reflected CRC-32: "123456789" gives 0xCBF43926 |
| DramAdjust.AdjRowsAt | source/ddr/eeprom.c:181-197 | adjustment row k is read at offset + 8k, wrapping at 2^16 like the u16 offset |
| DramAdjust.Scan | source/ddr/eeprom.c:187-194 | finds the first row at or after the cursor with the register, or the table end when none has it |
| DramAdjust.Apply | source/ddr/eeprom.c:181-197 | the cursor never moves back; the length and every register are unchanged; rows before the cursor and past the table size are never modified |
| DramAdjust.ApplyAtEnd | source/ddr/eeprom.c:187 | once the cursor is at the end, later adjustment rows change nothing |
| DramAdjust.UnmatchedEndsPatch | source/ddr/eeprom.c:187-194 | an adjustment row with no match at or after the cursor makes every later row of that table irrelevant |
| DramAdjust.ApplyValues | source/ddr/eeprom.c:188-191 | every changed row holds the value of an adjustment row naming the same register |
| DramAdjust.PatchAsIntended | source/ddr/eeprom.c:153-163 | when the adjustment rows follow the table's register order over distinct registers, as the documented assumption says, each row ends with the value of the last adjustment row naming its register |
| DramAdjust.WorkedExample | source/ddr/eeprom.c:164-198 | [(0x10,A),(0x20,B),(0x30,C)] patched by [(0x20,X)] becomes [(0x10,A),(0x20,X),(0x30,C)] |
| DramAdjust.ScanRow | source/ddr/eeprom.c:187-194 | the inner loop performs one adjustment row's step of the patch |
| DramAdjust.AdjustTable | source/ddr/eeprom.c:164-198 | the table is unchanged when the device lookup fails; otherwise it is patched by the rows read from the EEPROM, over the first table_size mod 2^16 rows |
| DramAdjust.TableCountEnds | source/ddr/eeprom.c:239 | the size loop stops at the first zero off[i+1], after at most 13 tables |
| DramAdjust.SizeOfRows | source/ddr/eeprom.c:240-241 | for increasing offsets, the size is their difference divided by the 8-byte row |
| DramAdjust.TableSizes | source/ddr/eeprom.c:238-245 | each computed size is (off[i+1]-off[i])/8 in 32-bit arithmetic truncated to 16 bits; the sizes not reached keep their earlier contents; the total byte count telescopes to off[k]-off[0] modulo 2^32 |
| DramAdjust.SpanSumTelescopes | source/ddr/eeprom.c:244 | the running sum of offset differences equals the last offset minus the first, modulo 2^32 |
| DramAdjust.EepromCrc | source/ddr/eeprom.c:116-150 | disabled: 0 and success; enabled: -1 on an invalid record, the device error if the lookup fails, otherwise the CRC-32 of the len bytes from the offset, read one at a time from a zero seed |
| DramAdjust.CheckCrc | source/ddr/eeprom.c:251-263 | the checksum gate passes iff the computation succeeds and equals the stored ddr_crc32 |
| DramAdjust.Gates | source/ddr/eeprom.c:225-263 | admits the header iff its magic is valid, its version is at least 2 and the checksum gate passes; the sizes handed on are those of the size loop |
| DramAdjust.AdjustTables | source/ddr/eeprom.c:266-273 | the six tables are patched in the fixed order, table i from off[i] with size i, each with its own device lookup |
| DramAdjust.CopyFsp | source/ddr/eeprom.c:275-292 | rate i goes to fsp_msg[i].drate and fsp_table[i]; rate 0 also goes to fsp_table[NUM_FSPS]; bypass i is bit i of fsp_bypass, as 0 or 1; nothing else changes |
| DramAdjust.AdjustDram | source/ddr/eeprom.c:206-293 | when any gate refuses the header the timing data is left exactly as it was; otherwise every table is adjusted, the set points copied, and the entries of fsp_table past NUM_FSPS left alone |

## Left out

- `source/ddr/main.c` and `source/utils/pinmux.c`: boot sequencing, console output, the demonstration EEPROM write and read-back, and pad programming. None of these has logic of its own.
- `var_eeprom_read_header`, `var_eeprom_print_prod_info` and `i2c_dump_msgs`: I/O and printing only.
- `i2c_xfer` and `i2c_probe_chip`: pass-throughs to the transport. The addressing layer takes the transport's result as its `Xfer` parameter instead.
- `lpi2c_init` and `lpi2c_set_bus_speed` as called by `i2c_init` and `i2c_set_bus_speed`: their results are parameters of `I2c.Init` and `I2c.SetBusSpeed`. The transport's own init and set-speed are modelled in `Lpi2c`.
- The `IC2_USE_MALLOC` path of `i2c_write` is not modelled; the model takes the configuration in which it is off.
- Buffers are left out: the bytes a read returns are the oracle's. So is the content of an earlier row left in `adj_table_row` or `data` when an `i2c_read` fails, since `var_eeprom_crc32` and `adjust_dram_table` ignore the read status. The model takes the oracle's byte at that offset instead.
- The `crc32` implementation (`crc.h`) is not part of this model. `Crc32.Crc` is the bitwise reflected CRC-32 of ISO 3309 / ITU-T V.42, used in section 8 of RFC 1952, and the only property the source relies on is its incremental form.
- Uninitialised `adj_table_size` entries: the tables past the first zero offset use whatever the array held. They are modelled by a `stale` parameter, not by any particular value.
- Register volatility, interrupts and concurrency: every register read is an independent oracle value.
- Wrap-around of the 32-bit microsecond timer: the clock is an unbounded, strictly increasing function of the query index.
- Register bit positions: `lpi2c.h` is not part of this model. The positions are taken from the LPI2C block's register description.
- I2c.ReadBytewise: a length above INT_MAX turns negative as a C `int`, so the loop runs no iteration. `IntCount` models that, and the contracts are stated over the count.
- DramAdjust.TableSizes: `size_t` is taken to be 32 bits wide, as on the 32-bit core the image runs on, so a negative offset difference wraps modulo 2^32 before the division.
- Lpi2c.Receive: requires `len` to be at most INT_MAX. `bus_i2c_receive` takes an `int len` (`source/utils/lpi2c.c:122`); a larger count turns negative, and neither `LPI2C_MTDR_DATA(len - 1)` nor `while (len--)` is modelled for a negative count.
- Lpi2c.Collect: requires `0 < len <= INT_MAX`. It is the part of `bus_i2c_receive` after the empty-read return (`source/utils/lpi2c.c:131-132`), so `len` is never 0 there, and the bound is the one Receive carries.
- Lpi2c.Request: requires `0 < len <= INT_MAX` for the same reason: it is `bus_i2c_receive` after the empty-read return.
- Lpi2c.BusRead: requires `len` to be at most INT_MAX, for the same reason: `bus_i2c_read` takes an `int len` (`source/utils/lpi2c.c:241`) while `i2c_msg.len` is a `u32` (`include/i2c.h:127`).
- Lpi2c.Xfer: requires, through `Sendable`, every message length to be at most INT_MAX, since each read message's `u32` length reaches `bus_i2c_read` as an `int`.
- Lpi2c.XferMessages: the same INT_MAX bound through `Sendable`.
- Lpi2c.RunMsg: requires the message's length to be at most INT_MAX and a write to carry its bytes, the same bounds through one message.
- Lpi2c.ReadRest: requires `len` to be at most INT_MAX, as BusRead does, and the facts Start promises of a start that succeeded.
- Lpi2c.ReadTail: requires `len` to be at most INT_MAX, as BusRead does.
- I2c.SetupOffset: requires `Chip.Valid()`, as do the other `I2c` operations. A chip with offset_len above 4 overflows the 4-byte offset buffer, and one with offset_len 4 and a non-zero mask shifts the 32-bit offset by 32 (`source/utils/i2c.c:48`, `56-57`), which is undefined in C; neither is modelled.

=== FILE: bits.dfy ===
/** Fixed-width integer ranges of the C source, byte-string values and the
    small pieces of division arithmetic the proofs about them need. */
module Bits {

  /** C `u8`, `u16` and `u32` as ranges of unbounded integers. */
  type u8 = x: int | 0 <= x < 0x100
  type u16 = x: int | 0 <= x < 0x1_0000
  type u32 = x: int | 0 <= x < 0x1_0000_0000

  const U16_MOD: nat := 0x1_0000
  const U32_MOD: nat := 0x1_0000_0000

  /** 256^n: how many values an n-byte field holds. */
  function Pow256(n: nat): (r: nat)
    ensures r >= 1
  {
    if n == 0 then 1 else 256 * Pow256(n - 1)
  }

  /** 2^n. */
  function Pow2(n: nat): (r: nat)
    ensures r >= 1
  {
    if n == 0 then 1 else 2 * Pow2(n - 1)
  }

  /** Value of a byte string stored least significant byte first (the host
      order of the little-endian target). */
  function LeValue(bytes: seq<u8>): (r: nat)
    ensures r < Pow256(|bytes|)
  {
    if |bytes| == 0 then 0 else bytes[0] + 256 * LeValue(bytes[1..])
  }

  /** The n bytes that store v least significant byte first; bits of v above
      the n bytes are dropped, as a narrowing store does. */
  function LeBytes(v: nat, n: nat): (r: seq<u8>)
    ensures |r| == n
  {
    if n == 0 then [] else [v % 256] + LeBytes(v / 256, n - 1)
  }

  /** Storing a value that fits and loading it back gives the value. */
  lemma {:induction false} LeValueOfBytes(v: nat, n: nat)
    requires v < Pow256(n)
    ensures LeValue(LeBytes(v, n)) == v
    decreases n
  {
    if n > 0 {
      var b := LeBytes(v, n);
      assert b[1..] == LeBytes(v / 256, n - 1);
      assert v / 256 < Pow256(n - 1);
      LeValueOfBytes(v / 256, n - 1);
    }
  }

  /** Loading a byte string and storing it back gives the same bytes. */
  lemma {:induction false} LeBytesOfValue(bytes: seq<u8>)
    ensures LeBytes(LeValue(bytes), |bytes|) == bytes
    decreases |bytes|
  {
    if |bytes| > 0 {
      var v := LeValue(bytes);
      DivUnique(v, 256, LeValue(bytes[1..]), bytes[0]);
      LeBytesOfValue(bytes[1..]);
    }
  }

  /** Value of a byte string sent most significant byte first. */
  function BeValue(bytes: seq<u8>): nat
  {
    if |bytes| == 0 then 0 else BeValue(bytes[..|bytes| - 1]) * 256 + bytes[|bytes| - 1]
  }

  /** Dividing by a and then by b is dividing by a * b. */
  lemma DivDiv(x: nat, a: nat, b: nat)
    requires a > 0 && b > 0
    ensures x / a / b == x / (a * b)
  {
    Recombine(x, a, b, x / a, x % a, x / a / b, x / a % b);
    DivUnique(x, a * b, x / a / b, a * (x / a % b) + x % a);
  }

  lemma Recombine(x: nat, a: nat, b: nat, q: nat, r: nat, q2: nat, r2: nat)
    requires r < a && r2 < b
    requires x == a * q + r && q == b * q2 + r2
    ensures x == (a * b) * q2 + (a * r2 + r)
    ensures a * r2 + r < a * b
  {
    Distribute(a, b * q2, r2);
    assert a * (b * q2) == (a * b) * q2;
    MulLe(a, r2, b - 1);
    Distribute(a, b - 1, 1);
  }

  lemma Distribute(a: int, b: int, c: int)
    ensures a * (b + c) == a * b + a * c
  {
  }

  lemma MulLe(a: nat, b: int, c: int)
    requires b <= c
    ensures a * b <= a * c
  {
    Distribute(a, b, c - b);
  }

  /** A multiple of d strictly between -d and d is zero. */
  lemma SmallMultiple(d: int, k: int)
    requires d > 0 && -d < d * k < d
    ensures k == 0
  {
    if k >= 1 {
      MulLe(d, 1, k);
    } else if k <= -1 {
      MulLe(d, k, -1);
    }
  }

  /** The quotient is determined by any decomposition x == d * q + r with 0 <= r < d. */
  lemma DivUnique(x: int, d: nat, q: int, r: nat)
    requires d > 0 && r < d && x == d * q + r
    ensures x / d == q && x % d == r
  {
    var q0 := x / d;
    var r0 := x % d;
    Distribute(d, q - q0, q0);
    SmallMultiple(d, q - q0);
  }

  /** Dividing by a positive number does not increase. */
  lemma DivLe(x: nat, d: nat)
    requires d >= 1
    ensures x / d <= x
  {
    DivUnique(x, d, x / d, x % d);
    MulLe(x / d, 1, d);
  }

  /** A number below 32 as a 32-bit word. */
  function Small(n: nat): (w: bv32)
    requires n < 32
    ensures w < 32 && (n >= 1 ==> w >= 1) && (n < 8 ==> w < 8)
  {
    n as bv32
  }

  /** x / d, with the bound a caller storing it back in x's type needs. */
  function Quot(x: nat, d: nat): (q: nat)
    requires d >= 1
    ensures q <= x
  {
    DivLe(x, d);
    x / d
  }

  /** Reducing modulo 256 * m splits into the low byte and the reduced rest. */
  lemma ModSplit(x: nat, m: nat)
    requires m > 0
    ensures x % (256 * m) == (x / 256 % m) * 256 + x % 256
  {
    var q := x / 256;
    var b := x % 256;
    var hi := q / m;
    var lo := q % m;
    assert x == 256 * q + b;
    assert q == m * hi + lo;
    assert x == (256 * m) * hi + (lo * 256 + b) by {
      assert 256 * q == 256 * (m * hi) + 256 * lo;
      assert 256 * (m * hi) == (256 * m) * hi;
    }
    assert lo * 256 + b < 256 * m by {
      assert lo <= m - 1;
      assert lo * 256 <= (m - 1) * 256;
    }
    DivUnique(x, 256 * m, hi, lo * 256 + b);
  }
}

=== FILE: crc32.dfy ===
/** CRC-32 of ISO 3309 / ITU-T V.42 (the checksum of section 8 of RFC 1952),
    in the zlib calling convention `crc32(crc, buf, len)`: the running value is
    passed in and out in its final, complemented form, so that a checksum can
    be computed piece by piece. */
module Crc32 {

  /** The reflected generator polynomial. */
  const POLY: bv32 := 0xedb8_8320

  /** One bit of polynomial division on the reflected register: shift right,
      and subtract (xor) the polynomial when the bit shifted out was set. */
  function Shift(c: bv32): bv32
  {
    (c >> 1) ^ (POLY & (0 - (c & 1)))
  }

  /** n bits of division. */
  function Shifts(c: bv32, n: nat): bv32
    decreases n
  {
    if n == 0 then c else Shifts(Shift(c), n - 1)
  }

  /** Folds one byte into the (uncomplemented) register: the byte enters the
      low end of the reflected register and eight bits are divided out. */
  function FoldByte(c: bv32, b: bv8): bv32
  {
    Shifts(c ^ (b as bv32), 8)
  }

  /** crc32(crc, data): the checksum of `data` continuing from the checksum
      `crc`. Each byte uncomplements the running value, folds the byte in and
      complements again, which is what zlib does once around a whole buffer. */
  function Crc(crc: bv32, data: seq<bv8>): bv32
    decreases |data|
  {
    if |data| == 0 then crc else Crc(!FoldByte(!crc, data[0]), data[1..])
  }

  /** The incremental property: checksumming b after a, starting from the
      checksum of a, gives the checksum of a + b. */
  lemma {:induction false} Incremental(c: bv32, a: seq<bv8>, b: seq<bv8>)
    ensures Crc(Crc(c, a), b) == Crc(c, a + b)
    decreases |a|
  {
    if |a| == 0 {
      assert a + b == b;
    } else {
      assert (a + b)[1..] == a[1..] + b;
      Incremental(!FoldByte(!c, a[0]), a[1..], b);
    }
  }

  /** The standard check value: the checksum of the nine ASCII digits
      "123456789" from a zero start is 0xcbf43926. */
  lemma CheckValue()
    ensures Crc(0, [0x31, 0x32, 0x33, 0x34, 0x35, 0x36, 0x37, 0x38, 0x39]) == 0xcbf4_3926
  {
    assert Crc(0, [0x31]) == 0x83dc_efb7;
    assert Crc(0x83dc_efb7, [0x32]) == 0x4f53_44cd;
    assert Crc(0x4f53_44cd, [0x33]) == 0x8848_63d2;
    assert Crc(0x8848_63d2, [0x34]) == 0x9be3_e0a3;
    assert Crc(0x9be3_e0a3, [0x35]) == 0xcbf5_3a1c;
    assert Crc(0xcbf5_3a1c, [0x36]) == 0x0972_d361;
    assert Crc(0x0972_d361, [0x37]) == 0x5003_699f;
    assert Crc(0x5003_699f, [0x38]) == 0x9ae0_daaf;
    assert Crc(0x9ae0_daaf, [0x39]) == 0xcbf4_3926;
  }
}

=== FILE: divider.dfy ===
/** The LPI2C clock-divider choice of bus_i2c_set_bus_speed
    (source/utils/lpi2c.c): the search for the prescaler and SCL high time
    whose bus rate is closest to the requested speed, the MCCR0 timing word
    derived from the chosen high time, and the MCFGR1 prescale code. */
module Divider {
  import opened Bits

  /** The functional clock of the controller, 24 MHz. */
  const CLOCK_RATE: nat := 24_000_000

  /** Largest prescale exponent: prescalers 1, 2, 4, ..., 128. */
  const MAX_EXP: nat := 7

  /** SCL high time counts tried: 1 .. 31. */
  const MAX_CLKHI: nat := 31

  /** The error value the search starts from (0xffffffff). */
  const NO_ERROR_YET: nat := 0xffff_ffff

  /** Bus rate of prescaler `pre` and high time `clkhi`, in the integer
      arithmetic of the source (all divisions truncate). A high time of 1
      uses the fixed low time of the short timing set. */
  function Rate(pre: nat, clkhi: nat): nat
    requires pre >= 1
  {
    if clkhi == 1 then Quot(Quot(CLOCK_RATE, pre), 1 + 3 + 2 + Quot(2, pre))
    else Quot(Quot(CLOCK_RATE, pre), 3 * clkhi + 2 + Quot(2, pre))
  }

  /** |speed - rate| as the unsigned comparison of the source computes it. */
  function AbsDiff(speed: nat, rate: nat): nat
  {
    if speed > rate then speed - rate else rate - speed
  }

  /** The error of the pair (prescaler 2^e, high time c). */
  function PairErr(speed: u32, e: nat, c: nat): nat
  {
    AbsDiff(speed, Rate(Pow2(e), c))
  }

  /** Position of a pair in the search order: prescalers outer, high times
      inner. */
  function Idx(e: nat, c: nat): int
  {
    e * 31 + c - 1
  }

  predicate InRange(e: nat, c: nat)
  {
    e <= MAX_EXP && 1 <= c <= MAX_CLKHI
  }

  /** The chosen divider: prescaler value `pre` = 2^`exp`, high time
      `clkhi`, and its error. */
  datatype Choice = Choice(pre: nat, exp: nat, clkhi: nat, err: nat)

  /** `b` is the first minimum over the pairs before position n in the search
      order: no visited pair is better, and every visited pair before it is
      strictly worse. Before any pair is visited, nothing is chosen yet. */
  ghost predicate FirstMin(speed: u32, n: int, b: Choice)
  {
    (n <= 0 ==> b.err == NO_ERROR_YET)
    && (n > 0 ==>
          InRange(b.exp, b.clkhi) && b.pre == Pow2(b.exp) && Idx(b.exp, b.clkhi) < n
          && b.err == PairErr(speed, b.exp, b.clkhi))
    && (forall e: nat, c: nat {:trigger Idx(e, c)} :: InRange(e, c) && Idx(e, c) < n ==>
          b.err <= PairErr(speed, e, c))
    && (forall e: nat, c: nat {:trigger Idx(e, c)} :: InRange(e, c) && Idx(e, c) < Idx(b.exp, b.clkhi) ==>
          b.err < PairErr(speed, e, c))
  }

  /** Every pair's error is below the starting value, so the first pair
      visited is always taken. */
  lemma ErrBelowStart(speed: u32, e: nat, c: nat)
    requires InRange(e, c)
    ensures PairErr(speed, e, c) < NO_ERROR_YET
  {
    PowBound(e);
    RateBounds(Pow2(e), c);
  }

  lemma PowBound(e: nat)
    requires e <= MAX_EXP
    ensures 1 <= Pow2(e) <= 128
  {
    assert Pow2(MAX_EXP) == 128;
    if e < MAX_EXP {
      PowStrict(e, MAX_EXP);
    }
  }

  /** Every pair runs at a positive rate no faster than the clock. */
  lemma RateBounds(p: nat, c: nat)
    requires 1 <= p <= 128 && 1 <= c <= MAX_CLKHI
    ensures 1 <= Rate(p, c) <= CLOCK_RATE
  {
    var q := CLOCK_RATE / p;
    ScaledClockBound(p);
    DivLe(CLOCK_RATE, p);
    DivLe(2, p);
    assert Quot(2, p) == 2 / p <= 2;
    assert Quot(CLOCK_RATE, p) == q;
    var d := if c == 1 then 1 + 3 + 2 + 2 / p else 3 * c + 2 + 2 / p;
    assert 1 <= d <= 97;
    assert Rate(p, c) == Quot(q, d) == q / d;
    DivAtLeastOne(q, d);
    DivLe(q, d);
  }

  /** The prescaled clock is at least 24 MHz / 128. */
  lemma ScaledClockBound(p: nat)
    requires 1 <= p <= 128
    ensures CLOCK_RATE / p >= 187_500
  {
    var q := CLOCK_RATE / p;
    var r := CLOCK_RATE % p;
    DivUnique(CLOCK_RATE, p, q, r);
    MulLe(q, p, 128);
  }

  lemma DivAtLeastOne(x: nat, d: nat)
    requires 1 <= d <= x
    ensures x / d >= 1
  {
    DivUnique(x, d, x / d, x % d);
  }

  /** Visiting one more pair keeps the first minimum: the pair replaces the
      choice exactly when it is strictly better. */
  lemma FirstMinStep(speed: u32, e: nat, c: nat, b: Choice)
    requires InRange(e, c) && FirstMin(speed, Idx(e, c), b)
    ensures FirstMin(speed, Idx(e, c) + 1, Visit(speed, b, e, c))
  {
    ErrBelowStart(speed, e, c);
    IdxInjective(e, c);
  }

  /** Distinct pairs sit at distinct positions. */
  lemma IdxInjective(e: nat, c: nat)
    requires InRange(e, c)
    ensures forall e2: nat, c2: nat :: InRange(e2, c2) && Idx(e2, c2) == Idx(e, c) ==> e2 == e && c2 == c
  {

  }

  /** The divider search of bus_i2c_set_bus_speed: prescalers 1 .. 128 in
      turn while no exact match is found, high times 1 .. 31 for each, a
      pair replacing the best so far only when strictly better. */
  function Search(speed: u32): Choice
  {
    ScanPrescalers(speed, 1, 0, START)
  }

  /** `b` is the divider bus_i2c_set_bus_speed settles on for `speed`: a
      candidate pair with its own error, no candidate better, and every
      candidate before it in search order strictly worse. */
  ghost predicate Best(speed: u32, b: Choice)
  {
    InRange(b.exp, b.clkhi) && b.pre == Pow2(b.exp) && b.err == PairErr(speed, b.exp, b.clkhi)
    && (forall e: nat, c: nat :: InRange(e, c) ==> b.err <= PairErr(speed, e, c))
    && (forall e: nat, c: nat :: InRange(e, c) && Idx(e, c) < Idx(b.exp, b.clkhi) ==>
          b.err < PairErr(speed, e, c))
  }

  /** At most one divider is the best for a speed. */
  lemma BestUnique(speed: u32, a: Choice, b: Choice)
    requires Best(speed, a) && Best(speed, b)
    ensures a == b
  {
    assert a.err <= PairErr(speed, b.exp, b.clkhi) && b.err <= PairErr(speed, a.exp, a.clkhi);
    assert Idx(a.exp, a.clkhi) == Idx(b.exp, b.clkhi);
    IdxInjective(a.exp, a.clkhi);
  }

  /** The divider choice of bus_i2c_set_bus_speed: the search's result,
      which is the best divider for the speed. */
  method Choose(speed: u32) returns (b: Choice)
    ensures Best(speed, b)
  {
    b := Search(speed);
    SearchOptimal(speed);
  }

  /** The MCCR0 word programmed for a chosen divider. */
  function TimingOf(b: Choice): bv32
    requires InRange(b.exp, b.clkhi)
  {
    TimingWord(Small(b.clkhi))
  }

  /** The MCFGR1 prescale code programmed for a chosen divider: the
      encoding of its prescaler, which is the exponent, a value below 8. */
  function PrescaleOf(b: Choice): (code: bv32)
    requires InRange(b.exp, b.clkhi) && b.pre == Pow2(b.exp)
    ensures code < 8
  {
    PrescaleCodeExp(b.exp);
    Small(PrescaleCode(b.pre))
  }

  /** Nothing chosen yet. */
  const START := Choice(0, 0, 0, NO_ERROR_YET)

  /** The outer loop, from prescaler pre = 2^e on. */
  function ScanPrescalers(speed: u32, pre: nat, e: nat, b: Choice): Choice
    requires e <= MAX_EXP + 1 && pre == Pow2(e)
    decreases MAX_EXP + 1 - e
  {
    if pre <= 128 && b.err != 0 then
      PowLimit(e);
      ScanPrescalers(speed, 2 * pre, e + 1, ScanHighTimes(speed, pre, e, 1, b))
    else
      b
  }

  /** The inner loop over high times c .. 31 for prescaler pre = 2^e, left
      early on an exact match. */
  function ScanHighTimes(speed: u32, pre: nat, e: nat, c: nat, b: Choice): Choice
    requires e <= MAX_EXP && pre == Pow2(e) && 1 <= c <= MAX_CLKHI + 1
    decreases MAX_CLKHI + 1 - c
  {
    if c > MAX_CLKHI then b
    else
      var absError := AbsDiff(speed, Rate(pre, c));
      if absError < b.err then
        var nb := Choice(pre, e, c, absError);
        if absError == 0 then nb
        else ScanHighTimes(speed, pre, e, c + 1, nb)
      else
        ScanHighTimes(speed, pre, e, c + 1, b)
  }

  /** One pair visited: it replaces the choice when strictly better. */
  function Visit(speed: u32, b: Choice, e: nat, c: nat): Choice
  {
    var a := PairErr(speed, e, c);
    if a < b.err then Choice(Pow2(e), e, c, a) else b
  }

  /** The reference search without early exits: the choice after visiting,
      in order, every pair of the prescalers below 2^e and the high times
      below c of prescaler 2^e. */
  function Visited(speed: u32, e: nat, c: nat): Choice
    requires e <= MAX_EXP && 1 <= c <= MAX_CLKHI + 1
    decreases e, c
  {
    if c > 1 then Visit(speed, Visited(speed, e, c - 1), e, c - 1)
    else if e > 0 then Visited(speed, e - 1, MAX_CLKHI + 1)
    else START
  }

  /** The search with its early exits chooses what visiting every pair
      chooses. */
  lemma SearchIsExhaustive(speed: u32)
    ensures Search(speed) == Visited(speed, MAX_EXP, MAX_CLKHI + 1)
  {
    ScanPrescalersVisited(speed, 1, 0, START);
  }

  /** The choice is optimal over all 8 * 31 pairs, and among equally good
      pairs it is the first in search order. */
  lemma SearchOptimal(speed: u32)
    ensures Best(speed, Search(speed))
  {
    SearchIsExhaustive(speed);
    VisitedFirstMin(speed, MAX_EXP, MAX_CLKHI + 1);
    var b := Search(speed);
    forall e: nat, c: nat | InRange(e, c)
      ensures b.err <= PairErr(speed, e, c)
    {
      assert Idx(e, c) < Idx(MAX_EXP, MAX_CLKHI + 1);
    }
    forall e: nat, c: nat | InRange(e, c) && Idx(e, c) < Idx(b.exp, b.clkhi)
      ensures b.err < PairErr(speed, e, c)
    {
    }
  }

  /** The reference search keeps the first minimum over what it visited. */
  lemma {:induction false} VisitedFirstMin(speed: u32, e: nat, c: nat)
    requires e <= MAX_EXP && 1 <= c <= MAX_CLKHI + 1
    ensures FirstMin(speed, Idx(e, c), Visited(speed, e, c))
    decreases e, c
  {
    if c > 1 {
      VisitedFirstMin(speed, e, c - 1);
      VisitNext(speed, e, c);
    } else if e > 0 {
      VisitedFirstMin(speed, e - 1, MAX_CLKHI + 1);
      VisitWrap(speed, e);
    }
  }

  /** The step of VisitedFirstMin within one prescaler. */
  lemma VisitNext(speed: u32, e: nat, c: nat)
    requires e <= MAX_EXP && 1 < c <= MAX_CLKHI + 1
    requires FirstMin(speed, Idx(e, c - 1), Visited(speed, e, c - 1))
    ensures FirstMin(speed, Idx(e, c), Visited(speed, e, c))
  {
    var b := Visited(speed, e, c - 1);
    FirstMinStep(speed, e, c - 1, b);
    FirstMinSame(speed, Idx(e, c - 1) + 1, Idx(e, c), Visit(speed, b, e, c - 1), Visited(speed, e, c));
  }

  /** The step of VisitedFirstMin from one prescaler to the next. */
  lemma VisitWrap(speed: u32, e: nat)
    requires 0 < e <= MAX_EXP
    requires FirstMin(speed, Idx(e - 1, MAX_CLKHI + 1), Visited(speed, e - 1, MAX_CLKHI + 1))
    ensures FirstMin(speed, Idx(e, 1), Visited(speed, e, 1))
  {
    var b := Visited(speed, e - 1, MAX_CLKHI + 1);
    FirstMinSame(speed, Idx(e - 1, MAX_CLKHI + 1), Idx(e, 1), b, Visited(speed, e, 1));
  }

  /** FirstMin of equal arguments. */
  lemma FirstMinSame(speed: u32, n: int, m: int, b: Choice, b2: Choice)
    requires n == m && b == b2 && FirstMin(speed, n, b)
    ensures FirstMin(speed, m, b2)
  {
  }

  /** A choice with no error is never replaced. */
  lemma {:induction false} ExactStays(speed: u32, e: nat, c: nat, e2: nat, c2: nat)
    requires e <= MAX_EXP && 1 <= c <= MAX_CLKHI + 1
    requires e2 <= MAX_EXP && 1 <= c2 <= MAX_CLKHI + 1
    requires e < e2 || (e == e2 && c <= c2)
    requires Visited(speed, e, c).err == 0
    ensures Visited(speed, e2, c2) == Visited(speed, e, c)
    decreases e2, c2
  {
    if e == e2 && c == c2 {
    } else if c2 > 1 {
      ExactStays(speed, e, c, e2, c2 - 1);
    } else {
      ExactStays(speed, e, c, e2 - 1, MAX_CLKHI + 1);
    }
  }

  /** The inner loop from high time c on ends where the reference search
      finishes prescaler 2^e. */
  lemma {:induction false} ScanHighTimesVisited(speed: u32, pre: nat, e: nat, c: nat, b: Choice)
    requires e <= MAX_EXP && pre == Pow2(e) && 1 <= c <= MAX_CLKHI + 1
    requires b == Visited(speed, e, c)
    ensures ScanHighTimes(speed, pre, e, c, b) == Visited(speed, e, MAX_CLKHI + 1)
    decreases MAX_CLKHI + 1 - c
  {
    if c <= MAX_CLKHI {
      var nb := Visited(speed, e, c + 1);
      if PairErr(speed, e, c) < b.err && PairErr(speed, e, c) == 0 {
        assert ScanHighTimes(speed, pre, e, c, b) == nb;
        ExactStays(speed, e, c + 1, e, MAX_CLKHI + 1);
      } else {
        assert ScanHighTimes(speed, pre, e, c, b) == ScanHighTimes(speed, pre, e, c + 1, nb);
        ScanHighTimesVisited(speed, pre, e, c + 1, nb);
      }
    }
  }

  /** The outer loop from prescaler 2^e on ends where the reference search
      ends. */
  lemma {:induction false} ScanPrescalersVisited(speed: u32, pre: nat, e: nat, b: Choice)
    requires e <= MAX_EXP + 1 && pre == Pow2(e)
    requires b == if e == 0 then START else Visited(speed, e - 1, MAX_CLKHI + 1)
    ensures ScanPrescalers(speed, pre, e, b) == Visited(speed, MAX_EXP, MAX_CLKHI + 1)
    decreases MAX_EXP + 1 - e
  {
    PowLimit(e);
    if pre <= 128 && b.err != 0 {
      var nb := ScanHighTimes(speed, pre, e, 1, b);
      PrescalerVisited(speed, pre, e, b);
      ScanPrescalersVisited(speed, 2 * pre, e + 1, nb);
    } else if e <= MAX_EXP {
      ExactStays(speed, e - 1, MAX_CLKHI + 1, MAX_EXP, MAX_CLKHI + 1);
    }
  }

  /** One pass of the outer loop ends where the reference search finishes
      prescaler 2^e. */
  lemma PrescalerVisited(speed: u32, pre: nat, e: nat, b: Choice)
    requires e <= MAX_EXP && pre == Pow2(e)
    requires b == if e == 0 then START else Visited(speed, e - 1, MAX_CLKHI + 1)
    ensures ScanHighTimes(speed, pre, e, 1, b) == Visited(speed, e, MAX_CLKHI + 1)
  {
    assert b == Visited(speed, e, 1);
    ScanHighTimesVisited(speed, pre, e, 1, b);
  }

  /** The loop guard `pre <= 128` on pre = 2^e holds exactly for the
      exponents 0 .. 7. */
  lemma PowLimit(e: nat)
    requires e <= MAX_EXP + 1
    ensures Pow2(e) <= 128 <==> e <= MAX_EXP
    ensures Pow2(e + 1) == 2 * Pow2(e)
  {
    if e <= MAX_EXP {
      PowBound(e);
    } else {
      assert Pow2(e) == 2 * Pow2(MAX_EXP);
      assert Pow2(MAX_EXP) == 128;
    }
  }

  /** An MCCR0 timing field: six bits at `shift`. */
  function Field(x: bv32, shift: bv32): bv32
    requires shift <= 24
  {
    (x << shift) & (0x3f << shift)
  }

  /** The six-bit field at `shift` of a register word. */
  function GetField(w: bv32, shift: bv32): bv32
    requires shift <= 24
  {
    (w >> shift) & 0x3f
  }

  const CLKLO_SHIFT: bv32 := 0
  const CLKHI_SHIFT: bv32 := 8
  const SETHOLD_SHIFT: bv32 := 16
  const DATAVD_SHIFT: bv32 := 24

  /** The MCCR0 word for high time `clkhi`: the short timing set (low 3,
      setup/hold 2, data valid 1) when the high time is below 2, otherwise
      low time twice the high time, setup/hold equal to it and data valid
      half of it. */
  function TimingWord(clkhi: bv32): bv32
    requires 1 <= clkhi <= 31
  {
    var v := Field(clkhi, CLKHI_SHIFT);
    if clkhi < 2 then
      v | Field(3, CLKLO_SHIFT) | Field(2, SETHOLD_SHIFT) | Field(1, DATAVD_SHIFT)
    else
      v | Field(2 * clkhi, CLKLO_SHIFT) | Field(clkhi, SETHOLD_SHIFT) | Field(clkhi / 2, DATAVD_SHIFT)
  }

  /** The fields of a timing word read back as programmed, and the bits
      between the six-bit fields stay clear. */
  lemma TimingWordFields(clkhi: bv32)
    requires 1 <= clkhi <= 31
    ensures GetField(TimingWord(clkhi), CLKHI_SHIFT) == clkhi
    ensures clkhi < 2 ==>
      GetField(TimingWord(clkhi), CLKLO_SHIFT) == 3 && GetField(TimingWord(clkhi), SETHOLD_SHIFT) == 2
      && GetField(TimingWord(clkhi), DATAVD_SHIFT) == 1
    ensures clkhi >= 2 ==>
      GetField(TimingWord(clkhi), CLKLO_SHIFT) == 2 * clkhi && GetField(TimingWord(clkhi), SETHOLD_SHIFT) == clkhi
      && GetField(TimingWord(clkhi), DATAVD_SHIFT) == clkhi / 2
    ensures TimingWord(clkhi) & 0xc0c0_c0c0 == 0
  {
  }

  /** The prescale encoding loop: the first i in 0 .. 7 with pre == 1 << i,
      and pre itself unchanged when there is none. */
  function PrescaleCode(pre: nat): nat
  {
    CodeFrom(pre, 0)
  }

  function CodeFrom(pre: nat, i: nat): nat
    decreases MAX_EXP + 1 - i
  {
    if i > MAX_EXP then pre
    else if pre == Pow2(i) then i
    else CodeFrom(pre, i + 1)
  }

  /** The code of a chosen prescaler is its exponent, a value in 0 .. 7. */
  lemma {:induction false} PrescaleCodeExp(e: nat)
    requires e <= MAX_EXP
    ensures PrescaleCode(Pow2(e)) == e
  {
    CodeFromExp(e, 0);
  }

  lemma {:induction false} CodeFromExp(e: nat, i: nat)
    requires i <= e <= MAX_EXP
    ensures CodeFrom(Pow2(e), i) == e
    decreases e - i
  {
    if i < e {
      PowStrict(i, e);
      CodeFromExp(e, i + 1);
    }
  }

  lemma {:induction false} PowStrict(i: nat, e: nat)
    requires i < e
    ensures Pow2(i) < Pow2(e)
    decreases e
  {
    if i < e - 1 {
      PowStrict(i, e - 1);
    }
  }
}

=== FILE: dram_adjust.dfy ===
/** The DRAM table adjustment of source/ddr/eeprom.c: the gates on the
    EEPROM header (magic, format version, CRC-32 of the adjustment data),
    the table sizes derived from the offset table, the merge-join patch of
    each DRAM configuration table by its adjustment table, and the copy of
    the set-point rates and PLL bypass bits.

    The EEPROM is an oracle `image`: the byte a read at an offset delivers.
    var_eeprom_get_dev (bus init and chip probe) is an oracle `getDev`: the
    return code of its k-th call within one adjustment, 0 on success. */
module DramAdjust {
  import opened Bits
  import opened I2cTypes
  import opened EepromRecord
  import Crc32

  /** sizeof(struct ddrc_cfg_param): two 32-bit words. */
  const ROW_SIZE: nat := 8

  /** The tables patched, in order: DDRC, DDR PHY, PIE,
      FSP_CFG[0].ddrc_cfg, FSP_CFG[0].mr_cfg, FSP0. */
  const TABLE_COUNT: nat := 6

  /** Only format version 2 and later carries adjustment tables. */
  const MIN_VERSION: nat := 2

  /** One row of a DRAM configuration table: a register address and the
      value programmed into it. */
  datatype Row = Row(reg: u32, val: u32)

  /** The part of struct dram_timing_info the adjustment touches: the six
      tables in patch order, fsp_msg[i].drate, fsp_table and
      fsp_cfg[i].bypass. */
  datatype DramTiming = DramTiming(
    tables: seq<seq<Row>>,
    drate: seq<u32>,
    fspTable: seq<u32>,
    bypass: seq<u32>)
  {
    predicate Shaped()
    {
      |tables| == TABLE_COUNT && |drate| == NUM_FSPS && |fspTable| > NUM_FSPS
      && |bypass| == NUM_FSPS
    }
  }

  /** A 32-bit word stored least significant byte first at `at`. */
  function WordAt(image: nat -> u8, at: nat): u32
  {
    image(at) + 0x100 * image(at + 1) + 0x1_0000 * image(at + 2) + 0x100_0000 * image(at + 3)
  }

  /** The row an 8-byte read at `at` overlays on struct ddrc_cfg_param. */
  function RowAt(image: nat -> u8, at: nat): Row
  {
    Row(WordAt(image, at), WordAt(image, at + 4))
  }

  /** The `count` adjustment rows read one after the other from `off`,
      the offset stepped by one row in its 16-bit variable after each. */
  function AdjRows(image: nat -> u8, off: u16, count: nat): (rows: seq<Row>)
    ensures |rows| == count
    decreases count
  {
    if count == 0 then [] else [RowAt(image, off)] + AdjRows(image, (off + ROW_SIZE) % U16_MOD, count - 1)
  }

  /** Row k of the adjustment table at `start`: read at start + 8k,
      wrapped to 16 bits. */
  function AdjRow(image: nat -> u8, start: u16, k: nat): Row
  {
    RowAt(image, (start + ROW_SIZE * k) % U16_MOD)
  }

  /** The rows read by stepping the offset are the rows at the wrapped
      closed-form addresses. */
  lemma {:induction false} AdjRowsAt(image: nat -> u8, start: u16, count: nat, k: nat)
    requires k < count
    ensures AdjRows(image, start, count)[k] == AdjRow(image, start, k)
    decreases k
  {
    if k == 0 {
      FirstRow(image, start, count);
    } else {
      var next: u16 := (start + ROW_SIZE) % U16_MOD;
      AdjRowsAt(image, next, count - 1, k - 1);
      LaterRow(image, start, count, k);
    }
  }

  /** The first row read is the one at `start`. */
  lemma FirstRow(image: nat -> u8, start: u16, count: nat)
    requires 0 < count
    ensures AdjRows(image, start, count)[0] == AdjRow(image, start, 0)
  {
    assert (start + ROW_SIZE * 0) % U16_MOD == start;
  }

  /** Row k from `start` is row k - 1 from the next offset, which is at
      the closed-form address of row k. */
  lemma LaterRow(image: nat -> u8, start: u16, count: nat, k: nat)
    requires 0 < k < count
    requires AdjRows(image, (start + ROW_SIZE) % U16_MOD, count - 1)[k - 1]
      == AdjRow(image, (start + ROW_SIZE) % U16_MOD, k - 1)
    ensures AdjRows(image, start, count)[k] == AdjRow(image, start, k)
  {
    var next: u16 := (start + ROW_SIZE) % U16_MOD;
    assert AdjRows(image, start, count)[k] == AdjRows(image, next, count - 1)[k - 1];
    NextAddress(start, k);
  }

  /** Row k - 1 from the next offset and row k from `start` are read at the
      same 16-bit address. */
  lemma NextAddress(start: u16, k: nat)
    requires 0 < k
    ensures ((start + ROW_SIZE) % U16_MOD + ROW_SIZE * (k - 1)) % U16_MOD == (start + ROW_SIZE * k) % U16_MOD
  {
    ModAdd(start + ROW_SIZE, ROW_SIZE * (k - 1), U16_MOD);
    assert start + ROW_SIZE + ROW_SIZE * (k - 1) == start + ROW_SIZE * k;
  }

  // ---------------------------------------------------------------------
  // The merge-join patch

  /** The scan of one adjustment row: from cursor j, the first of the first
      n table rows whose register is `reg`, or n when there is none. */
  function Scan(table: seq<Row>, n: nat, j: nat, reg: u32): (k: nat)
    requires j <= n <= |table|
    ensures j <= k <= n
    ensures k < n ==> table[k].reg == reg
    ensures forall m :: j <= m < k ==> table[m].reg != reg
    decreases n - j
  {
    if j == n then n
    else if table[j].reg == reg then j
    else Scan(table, n, j + 1, reg)
  }

  /** The table between adjustment rows, and the scan cursor. */
  datatype Pass = Pass(table: seq<Row>, cursor: nat)

  /** Equal length and the same register in every row. */
  predicate SameRegs(a: seq<Row>, b: seq<Row>)
  {
    |a| == |b| && forall m :: 0 <= m < |a| ==> a[m].reg == b[m].reg
  }

  /** One adjustment row applied: the first matching row at or after the
      cursor takes its value and the cursor stays on it; with no match the
      cursor has run to the end. */
  function ApplyRow(p: Pass, n: nat, row: Row): (r: Pass)
    requires p.cursor <= n <= |p.table|
    ensures p.cursor <= r.cursor <= n
  {
    var k := Scan(p.table, n, p.cursor, row.reg);
    if k < n then Pass(p.table[k := Row(p.table[k].reg, row.val)], k)
    else Pass(p.table, n)
  }

  /** adjust_dram_table's loop over the adjustment rows, from pass p. Only
      values change; the cursor never moves back; rows before the starting
      cursor and rows at or beyond n are left alone. */
  function Apply(p: Pass, n: nat, adj: seq<Row>): (r: Pass)
    requires p.cursor <= n <= |p.table|
    ensures p.cursor <= r.cursor <= n
    ensures SameRegs(p.table, r.table)
    ensures forall m :: 0 <= m < p.cursor ==> r.table[m] == p.table[m]
    ensures forall m :: n <= m < |p.table| ==> r.table[m] == p.table[m]
    decreases |adj|
  {
    if |adj| == 0 then p
    else Apply(ApplyRow(p, n, adj[0]), n, adj[1..])
  }

  /** The patched table: the adjustment rows applied from cursor 0 to the
      first n rows. */
  function Patch(table: seq<Row>, n: nat, adj: seq<Row>): seq<Row>
    requires n <= |table|
  {
    Apply(Pass(table, 0), n, adj).table
  }

  /** Once the cursor has reached the end, nothing changes any more. */
  lemma {:induction false} ApplyAtEnd(table: seq<Row>, n: nat, adj: seq<Row>)
    requires n <= |table|
    ensures Apply(Pass(table, n), n, adj) == Pass(table, n)
    decreases |adj|
  {
    if |adj| > 0 {
      ApplyAtEnd(table, n, adj[1..]);
    }
  }

  /** Applying a + b is applying a, then b from where a left the cursor. */
  lemma {:induction false} ApplyAppend(p: Pass, n: nat, a: seq<Row>, b: seq<Row>)
    requires p.cursor <= n <= |p.table|
    ensures Apply(p, n, a + b) == Apply(Apply(p, n, a), n, b)
    decreases |a|
  {
    if |a| == 0 {
      assert a + b == b;
    } else {
      assert (a + b)[1..] == a[1..] + b;
      ApplyAppend(ApplyRow(p, n, a[0]), n, a[1..], b);
    }
  }

  /** An adjustment row with no matching register at or after the cursor
      ends the patch: no adjustment row after it changes anything. */
  lemma UnmatchedEndsPatch(table: seq<Row>, n: nat, a: seq<Row>, row: Row, b: seq<Row>)
    requires n <= |table|
    requires var p := Apply(Pass(table, 0), n, a); Scan(p.table, n, p.cursor, row.reg) == n
    ensures Patch(table, n, a + [row] + b) == Patch(table, n, a)
  {
    var p := Apply(Pass(table, 0), n, a);
    ApplyAppend(Pass(table, 0), n, a, [row] + b);
    assert a + [row] + b == a + ([row] + b);
    assert ([row] + b)[0] == row && ([row] + b)[1..] == b;
    ApplyAtEnd(p.table, n, b);
  }

  /** Every row the patch changed holds the value of an adjustment row
      naming the same register. */
  lemma {:induction false} ApplyValues(p: Pass, n: nat, adj: seq<Row>)
    requires p.cursor <= n <= |p.table|
    ensures forall m :: 0 <= m < |p.table| ==>
      Apply(p, n, adj).table[m] == p.table[m]
      || exists i :: 0 <= i < |adj| && adj[i].reg == p.table[m].reg
           && Apply(p, n, adj).table[m].val == adj[i].val
    decreases |adj|
  {
    if |adj| > 0 {
      var q := ApplyRow(p, n, adj[0]);
      ApplyValues(q, n, adj[1..]);
      forall m | 0 <= m < |p.table|
        ensures Apply(p, n, adj).table[m] == p.table[m]
          || exists i :: 0 <= i < |adj| && adj[i].reg == p.table[m].reg
               && Apply(p, n, adj).table[m].val == adj[i].val
      {
        var r := Apply(p, n, adj).table;
        assert r == Apply(q, n, adj[1..]).table;
        assert q.table[m].reg == p.table[m].reg;
        if r[m] != q.table[m] {
          var i :| 0 <= i < |adj[1..]| && adj[1..][i].reg == q.table[m].reg && r[m].val == adj[1..][i].val;
          assert adj[i + 1] == adj[1..][i];
        } else if q.table[m] != p.table[m] {
          assert adj[0].reg == p.table[m].reg && r[m].val == adj[0].val;
        }
      }
    }
  }

  /** The value the last adjustment row naming `reg` gives it, `v` when no
      row does. */
  function LastVal(adj: seq<Row>, reg: u32, v: u32): u32
    decreases |adj|
  {
    if |adj| == 0 then v
    else LastVal(adj[1..], reg, if adj[0].reg == reg then adj[0].val else v)
  }

  /** The table as the documented assumption intends the patch: each of the
      first n rows takes the value of the last adjustment row naming its
      register, and keeps its own when none does. */
  function Intended(table: seq<Row>, n: nat, adj: seq<Row>): (r: seq<Row>)
    requires n <= |table|
    ensures |r| == |table|
  {
    seq(|table|, m requires 0 <= m < |table| =>
      if m < n then Row(table[m].reg, LastVal(adj, table[m].reg, table[m].val)) else table[m])
  }

  /** No register occurs twice among the first n rows. */
  predicate Distinct(table: seq<Row>, n: nat)
    requires n <= |table|
  {
    forall a, b :: 0 <= a < b < n ==> table[a].reg != table[b].reg
  }

  /** Every adjustment row names a register among the first n rows, at or
      after `from`, and in the order of the table (the assumption stated at
      adjust_dram_table). */
  predicate InTableOrder(table: seq<Row>, n: nat, from: nat, adj: seq<Row>)
    requires from <= n <= |table|
  {
    && (forall i :: 0 <= i < |adj| ==> Scan(table, n, from, adj[i].reg) < n)
    && (forall i, i2 :: 0 <= i < i2 < |adj| ==>
          Scan(table, n, from, adj[i].reg) <= Scan(table, n, from, adj[i2].reg))
  }

  /** When the adjustment rows follow the table's order over distinct
      registers, the cursor patch is the intended one. */
  lemma {:induction false} PatchAsIntended(table: seq<Row>, n: nat, j: nat, adj: seq<Row>)
    requires j <= n <= |table| && Distinct(table, n) && InTableOrder(table, n, j, adj)
    ensures Apply(Pass(table, j), n, adj).table == Intended(table, n, adj)
    decreases |adj|
  {
    if |adj| == 0 {
      assert Intended(table, n, adj) == table;
    } else {
      var k := Scan(table, n, j, adj[0].reg);
      var t2 := table[k := Row(table[k].reg, adj[0].val)];
      assert ApplyRow(Pass(table, j), n, adj[0]) == Pass(t2, k);
      OrderStep(table, t2, n, j, k, adj);
      PatchAsIntended(t2, n, k, adj[1..]);
      IntendedStep(table, n, k, adj);
    }
  }

  /** The order assumption carries over to the rest of the rows, from the
      row the first one patched. */
  lemma OrderStep(table: seq<Row>, t2: seq<Row>, n: nat, j: nat, k: nat, adj: seq<Row>)
    requires j <= n <= |table| && InTableOrder(table, n, j, adj) && |adj| > 0
    requires k == Scan(table, n, j, adj[0].reg) && k < n
    requires t2 == table[k := Row(table[k].reg, adj[0].val)]
    requires Distinct(table, n)
    ensures Distinct(t2, n) && InTableOrder(t2, n, k, adj[1..])
  {
    forall i | 0 <= i < |adj[1..]|
      ensures Scan(t2, n, k, adj[1..][i].reg) == Scan(table, n, j, adj[1..][i].reg)
    {
      assert adj[1..][i] == adj[i + 1];
      ScanLater(table, n, j, k, adj[i + 1].reg);
      ScanSameRegs(table, t2, n, k, adj[i + 1].reg);
    }
  }

  /** A scan from a later cursor that has not passed the first match finds
      the same row. */
  lemma {:induction false} ScanLater(table: seq<Row>, n: nat, j: nat, k: nat, reg: u32)
    requires j <= k <= n <= |table| && k <= Scan(table, n, j, reg)
    ensures Scan(table, n, k, reg) == Scan(table, n, j, reg)
    decreases k - j
  {
    if j < k {
      ScanLater(table, n, j + 1, k, reg);
    }
  }

  /** A scan looks only at registers. */
  lemma {:induction false} ScanSameRegs(a: seq<Row>, b: seq<Row>, n: nat, j: nat, reg: u32)
    requires j <= n <= |a| && SameRegs(a, b)
    ensures Scan(a, n, j, reg) == Scan(b, n, j, reg)
    decreases n - j
  {
    if j < n {
      ScanSameRegs(a, b, n, j + 1, reg);
    }
  }

  /** Patching row k with the first adjustment row, then intending the
      rest, is intending all of them. */
  lemma IntendedStep(table: seq<Row>, n: nat, k: nat, adj: seq<Row>)
    requires k < n <= |table| && Distinct(table, n) && |adj| > 0 && table[k].reg == adj[0].reg
    ensures Intended(table[k := Row(table[k].reg, adj[0].val)], n, adj[1..]) == Intended(table, n, adj)
  {
    var t2 := table[k := Row(table[k].reg, adj[0].val)];
    forall m | 0 <= m < |table|
      ensures Intended(t2, n, adj[1..])[m] == Intended(table, n, adj)[m]
    {
      if m < n && m != k {
        assert table[m].reg != adj[0].reg by {
          if m < k {
            assert table[m].reg != table[k].reg;
          } else {
            assert table[k].reg != table[m].reg;
          }
        }
      }
    }
  }

  /** The example of the adjustment format: base rows 0x10, 0x20, 0x30 and
      one adjustment row for 0x20. */
  lemma WorkedExample(a: u32, b: u32, c: u32, x: u32)
    ensures Patch([Row(0x10, a), Row(0x20, b), Row(0x30, c)], 3, [Row(0x20, x)])
         == [Row(0x10, a), Row(0x20, x), Row(0x30, c)]
  {
    var table := [Row(0x10, a), Row(0x20, b), Row(0x30, c)];
    var adj := [Row(0x20, x)];
    assert Scan(table, 3, 0, 0x20) == 1;
    var p := ApplyRow(Pass(table, 0), 3, adj[0]);
    assert p == Pass(table[1 := Row(0x20, x)], 1);
    assert adj[1..] == [];
    assert Apply(Pass(table, 0), 3, adj) == Apply(p, 3, []) == p;
  }

  /** adjust_dram_table: when the EEPROM device is attached, reads the
      `count` adjustment rows at `start` one after the other and patches
      the table in place, the number of rows scanned being the table's
      length narrowed to the u16 parameter. When it is not, the table is
      left as it is. */
  method AdjustTable(image: nat -> u8, attached: bool, start: u16, count: u16, table: seq<Row>)
    returns (t: seq<Row>)
    ensures !attached ==> t == table
    ensures attached ==> t == Patch(table, |table| % U16_MOD, AdjRows(image, start, count))
  {
    t := table;
    if !attached {
      return;
    }
    var n := |table| % U16_MOD;
    ModBelow(|table|, U16_MOD);
    var j: nat := 0;
    var off: u16 := start;
    var i := 0;
    while i < count
      invariant i <= count && j <= n <= |t| && |t| == |table|
      invariant Apply(Pass(t, j), n, AdjRows(image, off, count - i)) == Apply(Pass(table, 0), n, AdjRows(image, start, count))
    {
      var row := RowAt(image, off);
      ApplyFirst(Pass(t, j), n, row, AdjRows(image, (off + ROW_SIZE) % U16_MOD, count - i - 1));
      t, j := ScanRow(t, n, j, row);
      off := (off + ROW_SIZE) % U16_MOD;
      i := i + 1;
    }
  }

  /** Applying a row and then the rest is applying them together. */
  lemma ApplyFirst(p: Pass, n: nat, row: Row, rest: seq<Row>)
    requires p.cursor <= n <= |p.table|
    ensures Apply(p, n, [row] + rest) == Apply(ApplyRow(p, n, row), n, rest)
  {
    assert ([row] + rest)[1..] == rest;
  }

  /** Reducing a natural number does not increase it. */
  lemma ModBelow(x: nat, m: nat)
    requires m > 0
    ensures x % m <= x
  {
    DivUnique(x, m, x / m, x % m);
  }

  /** The inner loop of adjust_dram_table for one adjustment row: the
      cursor advances to the first row at or after it with the row's
      register, which takes the row's value, or runs to n. */
  method ScanRow(table: seq<Row>, n: nat, j0: nat, row: Row) returns (t: seq<Row>, j: nat)
    requires j0 <= n <= |table|
    ensures Pass(t, j) == ApplyRow(Pass(table, j0), n, row)
  {
    t := table;
    j := j0;
    while j < n
      invariant j0 <= j <= n
      invariant Scan(table, n, j0, row.reg) == Scan(table, n, j, row.reg)
    {
      if table[j].reg == row.reg {
        t := table[j := Row(table[j].reg, row.val)];
        return;
      }
      j := j + 1;
    }
  }

  // ---------------------------------------------------------------------
  // Table sizes

  /** How many tables the offset table describes: the entries before the
      first zero among off[1 ..], at most DRAM_TABLE_NUM. */
  function TableCount(off: seq<u16>): (c: nat)
    requires |off| == DRAM_TABLE_NUM + 1
    ensures c <= DRAM_TABLE_NUM
  {
    CountFrom(off, 0)
  }

  function CountFrom(off: seq<u16>, i: nat): (c: nat)
    requires |off| == DRAM_TABLE_NUM + 1 && i <= DRAM_TABLE_NUM
    ensures i <= c <= DRAM_TABLE_NUM
    decreases DRAM_TABLE_NUM - i
  {
    if i < DRAM_TABLE_NUM && off[i + 1] != 0 then CountFrom(off, i + 1) else i
  }

  /** The table count stops exactly at the first zero end offset: every
      table it counts has a nonzero end offset, and the next end offset,
      if there is one, is zero. */
  lemma TableCountEnds(off: seq<u16>)
    requires |off| == DRAM_TABLE_NUM + 1
    ensures forall i :: 1 <= i <= TableCount(off) ==> off[i] != 0
    ensures TableCount(off) < DRAM_TABLE_NUM ==> off[TableCount(off) + 1] == 0
  {
    CountFromEnds(off, 0);
  }

  lemma {:induction false} CountFromEnds(off: seq<u16>, i: nat)
    requires |off| == DRAM_TABLE_NUM + 1 && i <= DRAM_TABLE_NUM
    ensures forall m :: i < m <= CountFrom(off, i) ==> off[m] != 0
    ensures CountFrom(off, i) < DRAM_TABLE_NUM ==> off[CountFrom(off, i) + 1] == 0
    decreases DRAM_TABLE_NUM - i
  {
    if i < DRAM_TABLE_NUM && off[i + 1] != 0 {
      CountFromEnds(off, i + 1);
    }
  }

  /** The row count of a table from its start and end offsets. The
      difference is an `int`; dividing by the `size_t` row size converts it
      to the 32-bit unsigned type, so a negative difference wraps; the
      quotient is stored in a u16. */
  function SizeOf(a: u16, b: u16): u16
  {
    ((b as int - a as int) % U32_MOD / ROW_SIZE) % U16_MOD
  }

  /** Tables whose offsets do not go backwards get their number of whole
      rows. */
  lemma SizeOfRows(a: u16, b: u16)
    requires a <= b
    ensures SizeOf(a, b) == (b as int - a as int) / ROW_SIZE
  {
  }

  /** The sizes table of var_eeprom_adjust_dram and the byte count of the
      adjustment data: entries below the table count get their row counts,
      the others keep what the uninitialised array held (`stale`); the byte
      count, summed in a u32, telescopes to the distance from the first
      offset to the end of the last table. */
  method TableSizes(off: seq<u16>, stale: seq<u16>) returns (sizes: seq<u16>, bytes: u32)
    requires |off| == DRAM_TABLE_NUM + 1 && |stale| == DRAM_TABLE_NUM
    ensures |sizes| == DRAM_TABLE_NUM
    ensures forall i :: 0 <= i < TableCount(off) ==> sizes[i] == SizeOf(off[i], off[i + 1])
    ensures forall i :: TableCount(off) <= i < DRAM_TABLE_NUM ==> sizes[i] == stale[i]
    ensures bytes == (off[TableCount(off)] as int - off[0] as int) % U32_MOD
  {
    var c;
    sizes, bytes, c := SizeLoop(off, stale);
    SpanSumTelescopes(off, c);
  }

  /** The loop of the sizes computation: it runs for exactly the counted
      tables. */
  method SizeLoop(off: seq<u16>, stale: seq<u16>) returns (sizes: seq<u16>, bytes: u32, c: nat)
    requires |off| == DRAM_TABLE_NUM + 1 && |stale| == DRAM_TABLE_NUM
    ensures c == TableCount(off) && c <= DRAM_TABLE_NUM
    ensures sizes == SizesUpTo(off, stale, c) && bytes == SpanSum(off, c)
  {
    sizes := stale;
    bytes := 0;
    c := 0;
    while c < DRAM_TABLE_NUM && off[c + 1] != 0
      invariant c <= DRAM_TABLE_NUM
      invariant TableCount(off) == CountFrom(off, c)
      invariant sizes == SizesUpTo(off, stale, c)
      invariant bytes == SpanSum(off, c)
    {
      sizes, bytes := SizeTable(off, stale, sizes, bytes, c);
      c := c + 1;
    }
  }

  /** One iteration of the sizes loop: table i gets its row count and its
      span is added to the byte count. */
  method SizeTable(off: seq<u16>, stale: seq<u16>, sizes: seq<u16>, bytes: u32, i: nat)
    returns (sizes': seq<u16>, bytes': u32)
    requires |off| == DRAM_TABLE_NUM + 1 && |stale| == DRAM_TABLE_NUM && i < DRAM_TABLE_NUM
    requires sizes == SizesUpTo(off, stale, i) && bytes == SpanSum(off, i)
    ensures sizes' == SizesUpTo(off, stale, i + 1) && bytes' == SpanSum(off, i + 1)
  {
    sizes' := sizes[i := SizeOf(off[i], off[i + 1])];
    bytes' := (bytes + (off[i + 1] as int - off[i] as int)) % U32_MOD;
  }

  /** The byte count after c tables: each table's span off[i + 1] - off[i]
      added to the running u32 sum. */
  function SpanSum(off: seq<u16>, c: nat): u32
    requires |off| == DRAM_TABLE_NUM + 1 && c <= DRAM_TABLE_NUM
  {
    if c == 0 then 0 else (SpanSum(off, c - 1) + (off[c] as int - off[c - 1] as int)) % U32_MOD
  }

  /** The running sum telescopes: after c tables it is the distance from
      the first offset to off[c], wrapped to 32 bits. */
  lemma {:induction false} SpanSumTelescopes(off: seq<u16>, c: nat)
    requires |off| == DRAM_TABLE_NUM + 1 && c <= DRAM_TABLE_NUM
    ensures SpanSum(off, c) == (off[c] as int - off[0] as int) % U32_MOD
  {
    if c > 0 {
      SpanSumTelescopes(off, c - 1);
      ModAdd(off[c - 1] as int - off[0] as int, off[c] as int - off[c - 1] as int, U32_MOD);
    }
  }

  /** The sizes table once the first c entries are filled in, one entry
      after the other. */
  function SizesUpTo(off: seq<u16>, stale: seq<u16>, c: nat): (sizes: seq<u16>)
    requires |off| == DRAM_TABLE_NUM + 1 && |stale| == DRAM_TABLE_NUM && c <= DRAM_TABLE_NUM
    ensures |sizes| == DRAM_TABLE_NUM
    ensures forall i :: 0 <= i < c ==> sizes[i] == SizeOf(off[i], off[i + 1])
    ensures forall i :: c <= i < DRAM_TABLE_NUM ==> sizes[i] == stale[i]
  {
    if c == 0 then stale else SizesUpTo(off, stale, c - 1)[c - 1 := SizeOf(off[c - 1], off[c])]
  }

  /** Adding to a value reduced mod m and reducing again is reducing the
      sum. */
  lemma ModAdd(x: int, d: int, m: nat)
    requires m > 0
    ensures (x % m + d) % m == (x + d) % m
  {
    var q := x / m;
    var y := x % m + d;
    assert x + d == y + q * m;
    var a := y / m;
    var r := y % m;
    assert y + q * m == m * (a + q) + r;
    DivUnique(y + q * m, m, a + q, r);
  }

  // ---------------------------------------------------------------------
  // CRC of the adjustment data

  /** The first `len` bytes of the adjustment data from `start`, each read
      at start + i computed in 32 bits. */
  function DataBytes(image: nat -> u8, start: u32, len: nat): (bytes: seq<bv8>)
    ensures |bytes| == len
  {
    if len == 0 then [] else DataBytes(image, start, len - 1) + [ByteAt(image, start, len - 1)]
  }

  /** The data byte i places after `start`, its address computed in 32 bits. */
  function ByteAt(image: nat -> u8, start: u32, i: nat): bv8
  {
    image((start + i) % U32_MOD) as bv8
  }

  /** var_eeprom_crc32, for both settings of CONFIG_EEPROM_CRC32 (`enabled`).
      Enabled, it refuses an invalid header with -1 and passes on a failed
      device lookup (`dev`, the var_eeprom_get_dev return code); otherwise
      it reads the bytes one at a time, folding each into a checksum seeded
      with the checksum of nothing. Disabled, the checksum is 0. */
  method EepromCrc(ep: Record, image: nat -> u8, dev: bv32, enabled: bool, start: u32, len: u32)
    returns (ret: bv32, crc: bv32)
    ensures !enabled ==> ret == SUCCESS && crc == 0
    ensures enabled && !IsValid(ep) ==> ret == NEG_ONE
    ensures enabled && IsValid(ep) ==> ret == dev
    ensures enabled && ret == SUCCESS ==> crc == Crc32.Crc(0, DataBytes(image, start, len))
  {
    if !enabled {
      return SUCCESS, 0;
    }
    if !IsValid(ep) {
      return NEG_ONE, 0;
    }
    if dev != SUCCESS {
      return dev, 0;
    }
    crc := Crc32.Crc(0, []);
    var i := 0;
    while i < len
      invariant i <= len
      invariant crc == Crc32.Crc(0, DataBytes(image, start, i))
    {
      var data := ByteAt(image, start, i);
      Crc32.Incremental(0, DataBytes(image, start, i), [data]);
      assert DataBytes(image, start, i + 1) == DataBytes(image, start, i) + [data];
      crc := Crc32.Crc(crc, [data]);
      i := i + 1;
    }
    ret := SUCCESS;
  }

  // ---------------------------------------------------------------------
  // The whole adjustment

  /** How many var_eeprom_get_dev calls precede the one of table i: the
      checksum makes one when it is enabled. */
  function DevCall(enabled: bool, i: nat): nat
  {
    (if enabled then 1 else 0) + i
  }

  /** The header passes every gate: valid magic, version 2 or later, the
      checksum computed (when enabled, the device was found) and equal to
      the stored one. */
  predicate Admitted(ep: Record, image: nat -> u8, getDev: nat -> bv32, enabled: bool)
    requires ep.WellShaped()
  {
    && IsValid(ep)
    && ep.version >= MIN_VERSION
    && CrcMatches(ep, image, getDev, enabled)
  }

  /** The checksum gate: with the checksum enabled, the device is found and
      the CRC-32 of the adjustment data, from off[0] to the end of the last
      table, equals the stored one; disabled, the stored checksum must be 0,
      the value the disabled computation yields. */
  predicate CrcMatches(ep: Record, image: nat -> u8, getDev: nat -> bv32, enabled: bool)
    requires ep.WellShaped()
  {
    if enabled then getDev(0) == SUCCESS && ComputedCrc(ep, image) == ep.ddrCrc32
    else ep.ddrCrc32 == 0
  }

  /** The length of the adjustment data: from off[0] to the end of the
      last counted table, wrapped to 32 bits. */
  function SpanBytes(off: seq<u16>): u32
    requires |off| == DRAM_TABLE_NUM + 1
  {
    (off[TableCount(off)] as int - off[0] as int) % U32_MOD
  }

  /** The CRC-32 of the adjustment data, as the u32 it is compared as. */
  function ComputedCrc(ep: Record, image: nat -> u8): u32
    requires ep.WellShaped()
  {
    Crc32.Crc(0, DataBytes(image, ep.off[0], SpanBytes(ep.off))) as int
  }

  /** The adjustment table size used for table i. */
  function SizeUsed(ep: Record, stale: seq<u16>, i: nat): u16
    requires ep.WellShaped() && |stale| == DRAM_TABLE_NUM && i < DRAM_TABLE_NUM
  {
    if i < TableCount(ep.off) then SizeOf(ep.off[i], ep.off[i + 1]) else stale[i]
  }

  /** Table i after its adjustment: patched by its adjustment rows when its
      device lookup succeeds, as it was otherwise. */
  function TableAfter(ep: Record, d: DramTiming, image: nat -> u8, getDev: nat -> bv32,
                      enabled: bool, stale: seq<u16>, i: nat): seq<Row>
    requires ep.WellShaped() && d.Shaped() && |stale| == DRAM_TABLE_NUM && i < TABLE_COUNT
  {
    var table := d.tables[i];
    if getDev(DevCall(enabled, i)) == SUCCESS then
      Patch(table, |table| % U16_MOD, AdjRows(image, ep.off[i], SizeUsed(ep, stale, i)))
    else table
  }

  /** Bit i of the bypass field, as 0 or 1. */
  function BypassBit(field: u8, i: nat): u32
  {
    if (field / Pow2(i)) % 2 == 1 then 1 else 0
  }

  /** The set-point loop: each rate copied to fsp_msg[i].drate and
      fsp_table[i], the first also to the entry after the last set point,
      and each bypass flag set from its bit of fsp_bypass. */
  method CopyFsp(ep: Record, d: DramTiming) returns (r: DramTiming)
    requires ep.WellShaped() && d.Shaped()
    ensures r.Shaped() && r.tables == d.tables
    ensures forall i :: 0 <= i < NUM_FSPS ==>
      r.drate[i] == ep.fspDrate[i] && r.fspTable[i] == ep.fspDrate[i]
      && r.bypass[i] == BypassBit(ep.fspBypass, i)
    ensures r.fspTable[NUM_FSPS] == ep.fspDrate[0]
    ensures |r.fspTable| == |d.fspTable|
    ensures forall i :: NUM_FSPS < i < |d.fspTable| ==> r.fspTable[i] == d.fspTable[i]
  {
    r := d;
    var i := 0;
    while i < NUM_FSPS
      invariant i <= NUM_FSPS && r.Shaped() && r.tables == d.tables
      invariant |r.fspTable| == |d.fspTable|
      invariant forall m :: 0 <= m < i ==>
        r.drate[m] == ep.fspDrate[m] && r.fspTable[m] == ep.fspDrate[m]
        && r.bypass[m] == BypassBit(ep.fspBypass, m)
      invariant i > 0 ==> r.fspTable[NUM_FSPS] == ep.fspDrate[0]
      invariant forall m :: NUM_FSPS < m < |d.fspTable| ==> r.fspTable[m] == d.fspTable[m]
    {
      r := r.(drate := r.drate[i := ep.fspDrate[i]], fspTable := r.fspTable[i := ep.fspDrate[i]]);
      if i == 0 {
        r := r.(fspTable := r.fspTable[NUM_FSPS := ep.fspDrate[0]]);
      }
      r := r.(bypass := r.bypass[i := BypassBit(ep.fspBypass, i)]);
      i := i + 1;
    }
  }

  /** The table loop of var_eeprom_adjust_dram: adjust_dram_table on each
      of the six tables in order, table i with offset off[i] and size
      sizes[i], each call looking the device up anew. */
  method AdjustTables(ep: Record, d: DramTiming, image: nat -> u8, getDev: nat -> bv32,
                      enabled: bool, stale: seq<u16>, sizes: seq<u16>) returns (tables: seq<seq<Row>>)
    requires ep.WellShaped() && d.Shaped() && |stale| == DRAM_TABLE_NUM && |sizes| == DRAM_TABLE_NUM
    requires forall i :: 0 <= i < DRAM_TABLE_NUM ==> sizes[i] == SizeUsed(ep, stale, i)
    ensures |tables| == TABLE_COUNT
    ensures forall i :: 0 <= i < TABLE_COUNT ==> tables[i] == TableAfter(ep, d, image, getDev, enabled, stale, i)
  {
    tables := d.tables;
    var i := 0;
    while i < TABLE_COUNT
      invariant i <= TABLE_COUNT && |tables| == TABLE_COUNT
      invariant forall m :: 0 <= m < i ==> tables[m] == TableAfter(ep, d, image, getDev, enabled, stale, m)
      invariant forall m :: i <= m < TABLE_COUNT ==> tables[m] == d.tables[m]
    {
      var t := AdjustTable(image, getDev(DevCall(enabled, i)) == SUCCESS, ep.off[i], sizes[i], tables[i]);
      tables := tables[i := t];
      i := i + 1;
    }
  }

  /** var_eeprom_adjust_dram. When a gate refuses the header the timing
      data is left exactly as it was. Otherwise the six tables are patched
      in order, table i by the adjustment table at off[i] with the size
      computed for it, and the set-point rates and bypass bits are copied;
      the entries of fsp_table past the copied ones are left alone. */
  method AdjustDram(ep: Record, d: DramTiming, image: nat -> u8, getDev: nat -> bv32,
                    enabled: bool, stale: seq<u16>) returns (r: DramTiming)
    requires ep.WellShaped() && d.Shaped() && |stale| == DRAM_TABLE_NUM
    ensures !Admitted(ep, image, getDev, enabled) ==> r == d
    ensures Admitted(ep, image, getDev, enabled) ==>
      && r.Shaped()
      && (forall i :: 0 <= i < TABLE_COUNT ==> r.tables[i] == TableAfter(ep, d, image, getDev, enabled, stale, i))
      && (forall i :: 0 <= i < NUM_FSPS ==>
            r.drate[i] == ep.fspDrate[i] && r.fspTable[i] == ep.fspDrate[i]
            && r.bypass[i] == BypassBit(ep.fspBypass, i))
      && r.fspTable[NUM_FSPS] == ep.fspDrate[0]
      && |r.fspTable| == |d.fspTable|
      && (forall i :: NUM_FSPS < i < |d.fspTable| ==> r.fspTable[i] == d.fspTable[i])
  {
    var admitted, sizes := Gates(ep, image, getDev, enabled, stale);
    if !admitted {
      return d;
    }
    var tables := AdjustTables(ep, d, image, getDev, enabled, stale, sizes);
    r := CopyFsp(ep, d.(tables := tables));
  }

  /** The gates of var_eeprom_adjust_dram in their order: the magic, the
      format version, then the table sizes and the checksum of the
      adjustment data they span, compared with the stored one. */
  method Gates(ep: Record, image: nat -> u8, getDev: nat -> bv32, enabled: bool, stale: seq<u16>)
    returns (admitted: bool, sizes: seq<u16>)
    requires ep.WellShaped() && |stale| == DRAM_TABLE_NUM
    ensures admitted == Admitted(ep, image, getDev, enabled)
    ensures admitted ==> |sizes| == DRAM_TABLE_NUM
    ensures admitted ==> forall i :: 0 <= i < DRAM_TABLE_NUM ==> sizes[i] == SizeUsed(ep, stale, i)
  {
    if !IsValid(ep) || ep.version < MIN_VERSION {
      return false, stale;
    }
    var bytes;
    sizes, bytes := TableSizes(ep.off, stale);
    admitted := CheckCrc(ep, image, getDev, enabled, bytes);
  }

  /** The checksum of the `bytes` bytes of adjustment data compared with the
      stored one. */
  method CheckCrc(ep: Record, image: nat -> u8, getDev: nat -> bv32, enabled: bool, bytes: u32)
    returns (ok: bool)
    requires ep.WellShaped() && IsValid(ep)
    requires bytes == SpanBytes(ep.off)
    ensures ok == CrcMatches(ep, image, getDev, enabled)
  {
    var ret, crc := EepromCrc(ep, image, getDev(0), enabled, ep.off[0], bytes);
    ok := ret == SUCCESS && crc as int == ep.ddrCrc32;
  }
}

=== FILE: eeprom_record.dfy ===
/** The Variscite SOM EEPROM header: its packed byte layout, the magic check
    with its byte swap, and the SOM revision fields (include/eeprom.h).
    The record is read from the EEPROM as raw bytes and overlaid on the
    packed C struct of the little-endian target; `Parse` is that overlay and
    `Serialize` its inverse. */
module EepromRecord {
  import opened Bits

  /** "DT" read as a big-endian 16-bit number. */
  const MAGIC: bv16 := 0x4454

  /** 7-bit bus address of the EEPROM chip. */
  const I2C_ADDR: u8 := 0x52

  /** Number of DRAM adjustment tables named by the offset table (which has
      one more entry, the end of the last table). */
  const DRAM_TABLE_NUM: nat := 13

  /** Number of frequency set points. */
  const NUM_FSPS: nat := 1

  /** Byte widths of the packed fields, in declaration order: magic, partnum,
      assembly, date, mac, somrev, version, features, dramsize, reserved,
      ddr_crc32, ddr_vic, off, fsp_drate, fsp_bypass. */
  const WIDTHS: seq<nat> :=
    [2, 8, 10, 9, 6, 1, 1, 1, 1, 5, 4, 2, 2 * (DRAM_TABLE_NUM + 1), 2 * NUM_FSPS, 1]

  /** Indices into WIDTHS of the fields the DRAM adjustment uses. */
  const F_MAGIC: nat := 0
  const F_SOMREV: nat := 5
  const F_VERSION: nat := 6
  const F_CRC: nat := 10
  const F_VIC: nat := 11
  const F_OFF: nat := 12
  const F_FSP_DRATE: nat := 13
  const F_FSP_BYPASS: nat := 14

  function Sum(ws: seq<nat>): nat
  {
    if |ws| == 0 then 0 else ws[0] + Sum(ws[1..])
  }

  /** Byte offset of field i in the packed struct: no padding, so each field
      starts where the one before it ends. */
  function FieldOffset(i: nat): nat
    requires i <= |WIDTHS|
  {
    if i == 0 then 0 else FieldOffset(i - 1) + WIDTHS[i - 1]
  }

  /** sizeof(struct var_eeprom). */
  const RECORD_SIZE: nat := 81

  /** The decoded header. Multi-byte fields hold the value the little-endian
      host sees when it loads the field; only `magic` is ever byte-swapped. */
  datatype Record = Record(
    magic: u16,
    partnum: seq<u8>,
    assembly: seq<u8>,
    date: seq<u8>,
    mac: seq<u8>,
    somrev: u8,
    version: u8,
    features: u8,
    dramsize: u8,
    reserved: seq<u8>,
    ddrCrc32: u32,
    ddrVic: u16,
    off: seq<u16>,
    fspDrate: seq<u16>,
    fspBypass: u8)
  {
    /** Every array field has its declared length. */
    predicate WellShaped()
    {
      |partnum| == 8 && |assembly| == 10 && |date| == 9 && |mac| == 6
      && |reserved| == 5 && |off| == DRAM_TABLE_NUM + 1 && |fspDrate| == NUM_FSPS
    }
  }

  /** Concatenation of a list of byte strings. */
  function Flatten(parts: seq<seq<u8>>): seq<u8>
  {
    if |parts| == 0 then [] else parts[0] + Flatten(parts[1..])
  }

  /** Cuts bytes into consecutive pieces of the given widths. */
  function Split(bytes: seq<u8>, ws: seq<nat>): (parts: seq<seq<u8>>)
    requires |bytes| == Sum(ws)
    ensures |parts| == |ws|
    ensures forall i :: 0 <= i < |ws| ==> |parts[i]| == ws[i]
  {
    if |ws| == 0 then [] else [bytes[..ws[0]]] + Split(bytes[ws[0]..], ws[1..])
  }

  predicate Shaped(parts: seq<seq<u8>>, ws: seq<nat>)
  {
    |parts| == |ws| && forall i :: 0 <= i < |ws| ==> |parts[i]| == ws[i]
  }

  lemma {:induction false} FlattenLength(parts: seq<seq<u8>>, ws: seq<nat>)
    requires Shaped(parts, ws)
    ensures |Flatten(parts)| == Sum(ws)
    decreases |ws|
  {
    if |ws| > 0 {
      FlattenLength(parts[1..], ws[1..]);
    }
  }

  lemma {:induction false} SplitFlatten(parts: seq<seq<u8>>, ws: seq<nat>)
    requires Shaped(parts, ws)
    ensures |Flatten(parts)| == Sum(ws)
    ensures Split(Flatten(parts), ws) == parts
    decreases |ws|
  {
    FlattenLength(parts, ws);
    if |ws| > 0 {
      var f := Flatten(parts);
      assert f[..ws[0]] == parts[0];
      assert f[ws[0]..] == Flatten(parts[1..]);
      SplitFlatten(parts[1..], ws[1..]);
    }
  }

  lemma {:induction false} FlattenSplit(bytes: seq<u8>, ws: seq<nat>)
    requires |bytes| == Sum(ws)
    ensures Flatten(Split(bytes, ws)) == bytes
    decreases |ws|
  {
    if |ws| > 0 {
      var parts := Split(bytes, ws);
      assert parts[1..] == Split(bytes[ws[0]..], ws[1..]);
      FlattenSplit(bytes[ws[0]..], ws[1..]);
      assert bytes == bytes[..ws[0]] + bytes[ws[0]..];
    }
  }

  /** Piece i of a split starts at the sum of the widths before it. */
  lemma {:induction false} SplitAt(bytes: seq<u8>, ws: seq<nat>, i: nat)
    requires |bytes| == Sum(ws) && i < |ws|
    ensures Sum(ws[..i]) + ws[i] <= |bytes|
    ensures Split(bytes, ws)[i] == bytes[Sum(ws[..i]) .. Sum(ws[..i]) + ws[i]]
    decreases i
  {
    if i > 0 {
      assert ws[1..][..i - 1] == ws[..i][1..];
      SplitAt(bytes[ws[0]..], ws[1..], i - 1);
    }
  }

  /** Little-endian 16-bit words of a byte string of even length. */
  function Words(bytes: seq<u8>): (ws: seq<u16>)
    requires |bytes| % 2 == 0
    ensures |ws| == |bytes| / 2
  {
    if |bytes| == 0 then [] else [LeValue(bytes[..2])] + Words(bytes[2..])
  }

  function WordBytes(ws: seq<u16>): (bytes: seq<u8>)
    ensures |bytes| == 2 * |ws|
  {
    if |ws| == 0 then [] else LeBytes(ws[0], 2) + WordBytes(ws[1..])
  }

  lemma {:induction false} WordsOfBytes(ws: seq<u16>)
    ensures Words(WordBytes(ws)) == ws
    decreases |ws|
  {
    if |ws| > 0 {
      var b := WordBytes(ws);
      assert b[..2] == LeBytes(ws[0], 2);
      assert b[2..] == WordBytes(ws[1..]);
      LeValueOfBytes(ws[0], 2);
      WordsOfBytes(ws[1..]);
    }
  }

  lemma {:induction false} BytesOfWords(bytes: seq<u8>)
    requires |bytes| % 2 == 0
    ensures WordBytes(Words(bytes)) == bytes
    decreases |bytes|
  {
    if |bytes| > 0 {
      LeBytesOfValue(bytes[..2]);
      BytesOfWords(bytes[2..]);
      assert bytes == bytes[..2] + bytes[2..];
    }
  }

  /** The packed field offsets the DRAM adjustment relies on, and the record
      size. `fsp_bypass` sits at byte 80: the header's "84" comment does not
      match the struct it annotates. */
  lemma Layout()
    ensures FieldOffset(F_VERSION) == 36
    ensures FieldOffset(F_CRC) == 44
    ensures FieldOffset(F_VIC) == 48
    ensures FieldOffset(F_OFF) == 50
    ensures FieldOffset(F_FSP_DRATE) == 78
    ensures FieldOffset(F_FSP_BYPASS) == 80
    ensures FieldOffset(|WIDTHS|) == RECORD_SIZE
    ensures Sum(WIDTHS) == RECORD_SIZE
  {
    assert FieldOffset(1) == 2;
    assert FieldOffset(2) == 10;
    assert FieldOffset(3) == 20;
    assert FieldOffset(4) == 29;
    assert FieldOffset(5) == 35;
    assert FieldOffset(6) == 36;
    assert FieldOffset(7) == 37;
    assert FieldOffset(8) == 38;
    assert FieldOffset(9) == 39;
    assert FieldOffset(10) == 44;
    assert FieldOffset(11) == 48;
    assert FieldOffset(12) == 50;
    assert FieldOffset(13) == 78;
    assert FieldOffset(14) == 80;
    OffsetIsSum(|WIDTHS|);
    assert WIDTHS[..|WIDTHS|] == WIDTHS;
  }

  /** The offset of field i is the sum of the widths before it. */
  lemma {:induction false} OffsetIsSum(i: nat)
    requires i <= |WIDTHS|
    ensures FieldOffset(i) == Sum(WIDTHS[..i])
  {
    if i > 0 {
      OffsetIsSum(i - 1);
      assert WIDTHS[..i] == WIDTHS[..i - 1] + [WIDTHS[i - 1]];
      SumAppend(WIDTHS[..i - 1], [WIDTHS[i - 1]]);
    }
  }

  lemma {:induction false} SumAppend(a: seq<nat>, b: seq<nat>)
    ensures Sum(a + b) == Sum(a) + Sum(b)
    decreases |a|
  {
    if |a| == 0 {
      assert a + b == b;
    } else {
      assert (a + b)[1..] == a[1..] + b;
      SumAppend(a[1..], b);
    }
  }

  /** The byte string of each field of a record, in declaration order. */
  function Pieces(r: Record): seq<seq<u8>>
  {
    [LeBytes(r.magic, 2), r.partnum, r.assembly, r.date, r.mac,
     [r.somrev], [r.version], [r.features], [r.dramsize], r.reserved,
     LeBytes(r.ddrCrc32, 4), LeBytes(r.ddrVic, 2), WordBytes(r.off),
     WordBytes(r.fspDrate), [r.fspBypass]]
  }

  /** The bytes of the packed struct on the little-endian target. */
  function Serialize(r: Record): seq<u8>
  {
    Flatten(Pieces(r))
  }

  /** Overlays the packed struct on RECORD_SIZE raw bytes read from the chip. */
  function Parse(bytes: seq<u8>): Record
    requires |bytes| == RECORD_SIZE
  {
    Layout();
    var p := Split(bytes, WIDTHS);
    Record(LeValue(p[0]), p[1], p[2], p[3], p[4],
           p[5][0], p[6][0], p[7][0], p[8][0], p[9],
           LeValue(p[10]), LeValue(p[11]), Words(p[12]),
           Words(p[13]), p[14][0])
  }

  /** Parsing the bytes of a record gives the record back. */
  lemma SerializeParse(r: Record)
    requires r.WellShaped()
    ensures |Serialize(r)| == RECORD_SIZE
    ensures Parse(Serialize(r)) == r
  {
    Layout();
    var ps := Pieces(r);
    assert Shaped(ps, WIDTHS);
    SplitFlatten(ps, WIDTHS);
    LeValueOfBytes(r.magic, 2);
    LeValueOfBytes(r.ddrCrc32, 4);
    LeValueOfBytes(r.ddrVic, 2);
    WordsOfBytes(r.off);
    WordsOfBytes(r.fspDrate);
  }

  /** Every record-sized byte string is the bytes of the record parsed from
      it: the overlay loses nothing. */
  lemma ParseSerialize(bytes: seq<u8>)
    requires |bytes| == RECORD_SIZE
    ensures Parse(bytes).WellShaped()
    ensures Serialize(Parse(bytes)) == bytes
  {
    Layout();
    var p := Split(bytes, WIDTHS);
    var r := Parse(bytes);
    LeBytesOfValue(p[0]);
    LeBytesOfValue(p[10]);
    LeBytesOfValue(p[11]);
    BytesOfWords(p[12]);
    BytesOfWords(p[13]);
    assert p[5] == [p[5][0]] && p[6] == [p[6][0]] && p[7] == [p[7][0]];
    assert p[8] == [p[8][0]] && p[14] == [p[14][0]];
    assert Pieces(r) == p;
    FlattenSplit(bytes, WIDTHS);
  }

  /** Field i of a parsed record is cut from the bytes at FieldOffset(i). */
  lemma FieldBytes(bytes: seq<u8>, i: nat)
    requires |bytes| == RECORD_SIZE && i < |WIDTHS|
    ensures Sum(WIDTHS) == RECORD_SIZE
    ensures FieldOffset(i) + WIDTHS[i] <= RECORD_SIZE
    ensures Split(bytes, WIDTHS)[i] == bytes[FieldOffset(i) .. FieldOffset(i) + WIDTHS[i]]
  {
    Layout();
    OffsetIsSum(i);
    SplitAt(bytes, WIDTHS, i);
  }

  /** Where the magic, version and CRC fields come from in the raw bytes. */
  lemma ParseHeader(bytes: seq<u8>)
    requires |bytes| == RECORD_SIZE
    ensures Parse(bytes).magic == bytes[0] as int + 256 * bytes[1] as int
    ensures Parse(bytes).version == bytes[36]
    ensures Parse(bytes).ddrCrc32 == LeValue(bytes[44..48])
  {
    Layout();
    var p := Split(bytes, WIDTHS);
    FieldBytes(bytes, F_MAGIC);
    FieldBytes(bytes, F_VERSION);
    FieldBytes(bytes, F_CRC);
    assert LeValue(p[0]) == bytes[0] as int + 256 * LeValue(p[0][1..]);
  }

  /** The offset table is the fourteen little-endian words from byte 50. */
  lemma ParseOffsets(bytes: seq<u8>)
    requires |bytes| == RECORD_SIZE
    ensures |Parse(bytes).off| == DRAM_TABLE_NUM + 1
    ensures forall i :: 0 <= i <= DRAM_TABLE_NUM ==>
      Parse(bytes).off[i] == bytes[50 + 2 * i] as int + 256 * bytes[51 + 2 * i] as int
  {
    Layout();
    var p := Split(bytes, WIDTHS);
    FieldBytes(bytes, F_OFF);
    forall i | 0 <= i <= DRAM_TABLE_NUM
      ensures Parse(bytes).off[i] == bytes[50 + 2 * i] as int + 256 * bytes[51 + 2 * i] as int
    {
      WordsAt(p[F_OFF], i);
    }
  }

  /** The set-point rate is the word at byte 78 and the bypass bits the byte
      at 80. */
  lemma ParseFsp(bytes: seq<u8>)
    requires |bytes| == RECORD_SIZE
    ensures Parse(bytes).fspDrate[0] == bytes[78] as int + 256 * bytes[79] as int
    ensures Parse(bytes).fspBypass == bytes[80]
  {
    Layout();
    var p := Split(bytes, WIDTHS);
    FieldBytes(bytes, F_FSP_DRATE);
    FieldBytes(bytes, F_FSP_BYPASS);
    WordsAt(p[F_FSP_DRATE], 0);
  }

  lemma {:induction false} WordsAt(bytes: seq<u8>, i: nat)
    requires |bytes| % 2 == 0 && i < |bytes| / 2
    ensures Words(bytes)[i] == bytes[2 * i] as int + 256 * bytes[2 * i + 1] as int
    decreases i
  {
    if i == 0 {
      assert LeValue(bytes[..2]) == bytes[0] as int + 256 * LeValue(bytes[1..2]);
    } else {
      WordsAt(bytes[2..], i - 1);
    }
  }

  /** htons: swaps the two bytes of a 16-bit value. In C the shifts happen in
      `int`: `x >> 8` is the high byte, `x << 8` moves the low byte up, and
      narrowing the OR of the two back to 16 bits drops everything above;
      the two shifted values share no bit, so the OR is their sum. */
  function Htons(x: u16): (r: u16)
    ensures r % 256 == x / 256
    ensures r / 256 == x % 256
  {
    x / 256 + (x % 256) * 256
  }

  /** Swapping twice restores the value. */
  lemma HtonsInvolution(x: u16)
    ensures Htons(Htons(x)) == x
  {
    var y := Htons(x);
    assert x == (x / 256) * 256 + x % 256;
    assert Htons(y) == y / 256 + (y % 256) * 256;
  }

  /** var_eeprom_is_valid: the byte-swapped magic field equals "DT". */
  predicate IsValid(r: Record)
  {
    Htons(r.magic) == MAGIC as int
  }

  /** A raw header is valid exactly when its first two bytes are 'D', 'T'. */
  lemma ValidBytes(bytes: seq<u8>)
    requires |bytes| == RECORD_SIZE
    ensures IsValid(Parse(bytes)) <==> bytes[0] == 0x44 && bytes[1] == 0x54
  {
    ParseHeader(bytes);
    var m := Parse(bytes).magic;
    DivUnique(m, 256, bytes[1], bytes[0]);
  }

  /** SOMREV_MINOR: the low five bits. */
  function SomrevMinor(v: bv8): (r: bv8)
    ensures r <= 31
  {
    v & 0x1f
  }

  /** SOMREV_MAJOR: one plus the three bits above them. */
  function SomrevMajor(v: bv8): (r: bv8)
    ensures 1 <= r <= 8
  {
    1 + ((v >> 5) & 7)
  }

  /** The revision byte a major.minor pair is stored as. */
  function Somrev(major: bv8, minor: bv8): bv8
    requires 1 <= major <= 8 && minor <= 31
  {
    ((major - 1) << 5) | minor
  }

  /** The two fields recover any stored revision, and storing any major in
      [1, 8] and minor in [0, 31] is recovered by them. */
  lemma SomrevRoundTrip(v: bv8, major: bv8, minor: bv8)
    ensures Somrev(SomrevMajor(v), SomrevMinor(v)) == v
    ensures 1 <= major <= 8 && minor <= 31 ==>
      SomrevMajor(Somrev(major, minor)) == major && SomrevMinor(Somrev(major, minor)) == minor
  {
  }
}

=== FILE: i2c.dfy ===
/** The chip-addressing layer (source/utils/i2c.c): turns a read or write of
    `len` bytes at `offset` inside a chip into the list of I2C messages the
    transport carries out. The transport itself is a parameter: `Xfer(k, msgs)`
    is the status the k-th transfer of one operation returns (so a test of
    the layer can make any transfer fail). */
module I2c {
  import opened Bits
  import opened I2cTypes

  const MAX_OFFSET_LEN: nat := 4

  /** Payload room of the on-stack write buffer: `sizeof(_buf)` less the
      offset bytes. */
  const WRITE_PAYLOAD_MAX: nat := 64

  /** Status of the k-th transfer an operation issues. */
  type Xfer = (nat, seq<Msg>) -> bv32

  /** struct i2c_chip. `offsetLen` offset bytes follow the address; bits of
      the offset above them go into the chip address under `mask`. */
  datatype Chip = Chip(addr: u8, offsetLen: u8, flags: bv16, mask: bv32)
  {
    /** What the source needs of a chip: the offset fits the 4-byte offset
        buffer, and the folding shift `offset >> 8 * offset_len` stays below
        the width of the 32-bit offset whenever it is evaluated. */
    predicate Valid()
    {
      offsetLen <= MAX_OFFSET_LEN && (mask == 0 || offsetLen < MAX_OFFSET_LEN)
    }
  }

  /** What an operation did: its status and the message lists of the
      transfers it issued, in order. */
  datatype Outcome = Outcome(ret: bv32, sent: seq<seq<Msg>>)

  /** The message `i2c_setup_offset` fills in, and its status. */
  datatype Setup = Setup(ret: bv32, msg: Msg)

  /** Byte k of the offset field: `offset >> 8 * (w - 1 - k)` narrowed to a
      byte, so the most significant byte goes first. */
  function OffsetBytes(offset: u32, w: nat): seq<u8>
  {
    seq(w, k requires 0 <= k < w => offset / Pow256(w - 1 - k) % 256)
  }

  /** Reading the offset field back big-endian gives the offset reduced to
      the field's width. */
  lemma {:induction false} OffsetRoundTrip(offset: u32, w: nat)
    ensures |OffsetBytes(offset, w)| == w
    ensures BeValue(OffsetBytes(offset, w)) == offset % Pow256(w)
    decreases w
  {
    if w > 0 {
      var b := OffsetBytes(offset, w);
      OffsetBytesShift(offset, w);
      assert b == b[..w - 1] + [b[w - 1]];
      OffsetRoundTrip(offset / 256, w - 1);
      ModSplit(offset, Pow256(w - 1));
    }
  }

  /** All but the last byte of the field are the field of the offset without
      its low byte; the last byte is the low byte. */
  lemma OffsetBytesShift(offset: u32, w: nat)
    requires w > 0
    ensures OffsetBytes(offset, w)[..w - 1] == OffsetBytes(offset / 256, w - 1)
    ensures OffsetBytes(offset, w)[w - 1] == offset % 256
  {
    var b := OffsetBytes(offset, w);
    var hi := OffsetBytes(offset / 256, w - 1);
    assert Pow256(0) == 1;
    forall k | 0 <= k < w - 1
      ensures b[k] == hi[k]
    {
      assert Pow256(w - 1 - k) == 256 * Pow256(w - 2 - k);
      DivDiv(offset, 256, Pow256(w - 2 - k));
    }
  }

  /** The chip address with the offset bits above the offset field folded in:
      a 32-bit OR narrowed to the 16-bit message address. */
  function Folded(addr: u8, high: u32, mask: bv32): bv16
  {
    (((addr as bv32) | ((high as bv32) & mask)) & 0xffff) as bv16
  }

  /** The message address for `offset`. */
  function Address(chip: Chip, offset: u32): bv16
    requires chip.Valid()
  {
    if chip.mask == 0 then chip.addr as bv16
    else Folded(chip.addr, High(offset, chip.offsetLen as nat), chip.mask)
  }

  /** `offset >> 8 * w`: the offset bits above a w-byte field. */
  function High(offset: u32, w: nat): u32
  {
    Quot(offset, Pow256(w))
  }

  /** The TEN flag exactly for ten-bit chips. */
  function AddrFlags(chip: Chip): bv16
  {
    if chip.flags & CHIP_10BIT != 0 then M_TEN else 0
  }

  /** i2c_setup_offset: a write message carrying the offset field, and -1
      when the chip has no offset field (the message is still filled in). */
  function SetupOffset(chip: Chip, offset: u32): (r: Setup)
    requires chip.Valid()
    ensures r.ret == (if chip.offsetLen == 0 then NEG_ONE else SUCCESS)
    ensures r.msg.addr == Address(chip, offset)
    ensures r.msg.flags & M_TEN != 0 <==> chip.flags & CHIP_10BIT != 0
    ensures !r.msg.IsRead() && r.msg.WellFormed()
    ensures r.msg.len == chip.offsetLen as nat
    ensures BeValue(r.msg.buf) == offset % Pow256(chip.offsetLen as nat)
  {
    OffsetRoundTrip(offset, chip.offsetLen as nat);
    var msg := Msg(Address(chip, offset), AddrFlags(chip), chip.offsetLen as nat,
                   OffsetBytes(offset, chip.offsetLen as nat));
    Setup(if chip.offsetLen == 0 then NEG_ONE else SUCCESS, msg)
  }

  /** The EEPROM chip (address 0x52, one offset byte, address bit 0 as offset
      bit 8) sees offset x as address 0x52 or 0x53 plus one offset byte, and
      the two together name x modulo 512 exactly. */
  lemma EepromAddressing(offset: u32)
    ensures var s := SetupOffset(Chip(0x52, 1, 0, 1), offset);
      s.ret == SUCCESS && |s.msg.buf| == 1
      && (s.msg.addr as int - 0x52) * 256 + s.msg.buf[0] == offset % 512
  {
    var s := SetupOffset(Chip(0x52, 1, 0, 1), offset);
    assert High(offset, 1) == offset / 256;
    assert Folded(0x52, offset / 256, 1) as int == 0x52 + offset / 256 % 2;
    assert s.msg.buf[0] == offset % 256 by {
      assert BeValue(s.msg.buf) == s.msg.buf[0];
    }
    ModSplit(offset, 2);
  }

  /** The two messages of one bytewise read: the offset write and a one-byte
      read from the same address. */
  function ByteReadMsgs(chip: Chip, offset: u32): seq<Msg>
    requires chip.Valid()
  {
    var s := SetupOffset(chip, offset);
    [s.msg, Msg(s.msg.addr, s.msg.flags | M_RD, 1, [])]
  }

  /** The single message of one bytewise write: the offset bytes and then
      the data byte. */
  function ByteWriteMsg(chip: Chip, offset: u32, b: u8): Msg
    requires chip.Valid()
  {
    var s := SetupOffset(chip, offset);
    Msg(s.msg.addr, s.msg.flags, s.msg.len + 1, s.msg.buf + [b])
  }

  /** The C `int` a 32-bit unsigned length becomes: lengths of 2^31 and more
      turn negative, and a loop `for (i = 0; i < len; i++)` then runs no
      iteration. */
  function IntCount(len: u32): (n: nat)
    ensures n <= len
    ensures n == len <==> len <= INT_MAX || len == 0
  {
    if len <= INT_MAX then len else 0
  }

  /** i2c_read_bytewise: one offset-write plus one-byte-read transfer per byte,
      at offsets offset, offset + 1, ... (wrapping at 2^32), stopping at the
      first failing transfer; -1 before any transfer when the chip has no
      offset field. */
  method ReadBytewise(chip: Chip, offset: u32, len: u32, xfer: Xfer) returns (out: Outcome)
    requires chip.Valid()
    ensures chip.offsetLen == 0 && IntCount(len) > 0 ==> out == Outcome(NEG_ONE, [])
    ensures chip.offsetLen != 0 ==>
      (out.ret == SUCCESS <==> |out.sent| == IntCount(len) && AllSucceed(out.sent, xfer))
    ensures |out.sent| <= IntCount(len)
    ensures forall k :: 0 <= k < |out.sent| ==>
      out.sent[k] == ByteReadMsgs(chip, (offset + k) % U32_MOD)
    ensures chip.offsetLen != 0 && out.ret != SUCCESS ==> StoppedAtFailure(out, xfer)
  {
    var n := IntCount(len);
    if n > 0 && !SetupSucceeds(chip, offset) {
      return Outcome(NEG_ONE, []);
    }
    out := Transfers(ByteReads(chip, offset, n), xfer);
  }

  /** i2c_write_bytewise: one transfer per byte, each carrying the offset of
      that byte and the byte, stopping at the first failing transfer; -1
      before any transfer when the chip has no offset field. */
  method WriteBytewise(chip: Chip, offset: u32, data: seq<u8>, xfer: Xfer) returns (out: Outcome)
    requires chip.Valid() && |data| < U32_MOD
    ensures chip.offsetLen == 0 && IntCount(|data|) > 0 ==> out == Outcome(NEG_ONE, [])
    ensures chip.offsetLen != 0 ==>
      (out.ret == SUCCESS <==> |out.sent| == IntCount(|data|) && AllSucceed(out.sent, xfer))
    ensures |out.sent| <= IntCount(|data|)
    ensures forall k :: 0 <= k < |out.sent| ==>
      out.sent[k] == [ByteWriteMsg(chip, (offset + k) % U32_MOD, data[k])]
    ensures chip.offsetLen != 0 && out.ret != SUCCESS ==> StoppedAtFailure(out, xfer)
  {
    var n := IntCount(|data|);
    if n > 0 && !SetupSucceeds(chip, offset) {
      return Outcome(NEG_ONE, []);
    }
    out := Transfers(ByteWrites(chip, offset, data, n), xfer);
  }

  /** Whether i2c_setup_offset accepts the chip. Its status depends on the
      chip alone, so the first byte of a bytewise operation decides for all
      of them. */
  function SetupSucceeds(chip: Chip, offset: u32): (ok: bool)
    requires chip.Valid()
    ensures ok <==> chip.offsetLen != 0
  {
    SetupOffset(chip, offset).ret == SUCCESS
  }

  /** The transfers of a bytewise read of n bytes from `offset`. */
  function ByteReads(chip: Chip, offset: u32, n: nat): (batches: seq<seq<Msg>>)
    requires chip.Valid()
    ensures |batches| == n
    ensures forall k :: 0 <= k < n ==> batches[k] == ByteReadMsgs(chip, (offset + k) % U32_MOD)
  {
    seq(n, k requires 0 <= k < n => ByteReadMsgs(chip, (offset + k) % U32_MOD))
  }

  /** The transfers of a bytewise write of the first n bytes of `data` to
      `offset`. */
  function ByteWrites(chip: Chip, offset: u32, data: seq<u8>, n: nat): (batches: seq<seq<Msg>>)
    requires chip.Valid() && n <= |data|
    ensures |batches| == n
    ensures forall k :: 0 <= k < n ==> batches[k] == [ByteWriteMsg(chip, (offset + k) % U32_MOD, data[k])]
  {
    seq(n, k requires 0 <= k < n => [ByteWriteMsg(chip, (offset + k) % U32_MOD, data[k])])
  }

  /** The loop both bytewise operations share: the transfers of `batches`
      issued in order, the k-th as transfer k, up to and including the first
      that fails. */
  method Transfers(batches: seq<seq<Msg>>, xfer: Xfer) returns (out: Outcome)
    ensures |out.sent| <= |batches| && out.sent == batches[..|out.sent|]
    ensures out.ret == SUCCESS <==> |out.sent| == |batches| && AllSucceed(out.sent, xfer)
    ensures out.ret != SUCCESS ==> StoppedAtFailure(out, xfer)
  {
    var i := 0;
    while i < |batches|
      invariant i <= |batches|
      invariant AllSucceed(batches[..i], xfer)
    {
      var ret := xfer(i, batches[i]);
      if ret != SUCCESS {
        assert batches[..i + 1][..i] == batches[..i];
        return Outcome(ret, batches[..i + 1]);
      }
      i := i + 1;
    }
    assert batches[..i] == batches;
    return Outcome(SUCCESS, batches);
  }

  /** Every transfer in the list returned 0. */
  predicate AllSucceed(sent: seq<seq<Msg>>, xfer: Xfer)
  {
    forall k :: 0 <= k < |sent| ==> xfer(k, sent[k]) == SUCCESS
  }

  /** The operation stopped right after its first failing transfer and
      returned that transfer's status. */
  predicate StoppedAtFailure(out: Outcome, xfer: Xfer)
  {
    |out.sent| > 0
    && AllSucceed(out.sent[..|out.sent| - 1], xfer)
    && xfer(|out.sent| - 1, out.sent[|out.sent| - 1]) == out.ret
  }

  /** The message list of a plain read: the offset write when the chip has
      an offset field, then a read of `len` bytes from the setup address
      when `len` is not zero. */
  function ReadMsgs(chip: Chip, offset: u32, len: u32): (msgs: seq<Msg>)
    requires chip.Valid()
    ensures |msgs| == (if chip.offsetLen != 0 then 1 else 0) + (if len != 0 then 1 else 0)
    ensures forall m :: m in msgs ==> m.WellFormed() && m.addr == Address(chip, offset)
    ensures chip.offsetLen != 0 ==>
      !msgs[0].IsRead() && msgs[0].len == chip.offsetLen as nat
      && BeValue(msgs[0].buf) == offset % Pow256(chip.offsetLen as nat)
    ensures len != 0 ==> var last := msgs[|msgs| - 1];
      last.IsRead() && last.len == len
      && (last.flags & M_TEN != 0 <==> chip.flags & CHIP_10BIT != 0)
  {
    var s := SetupOffset(chip, offset);
    var first := if s.ret == SUCCESS then [s.msg] else [];
    first + (if len != 0 then [Msg(s.msg.addr, AddrFlags(chip) | M_RD, len, [])] else [])
  }

  /** i2c_read: bytewise when the chip asks for an address per read byte,
      otherwise a single transfer of ReadMsgs. */
  method Read(chip: Chip, offset: u32, len: u32, xfer: Xfer) returns (out: Outcome)
    requires chip.Valid()
    ensures chip.flags & CHIP_RD_ADDRESS == 0 ==>
      out.sent == [ReadMsgs(chip, offset, len)] && out.ret == xfer(0, ReadMsgs(chip, offset, len))
    ensures chip.flags & CHIP_RD_ADDRESS != 0 ==>
      forall k :: 0 <= k < |out.sent| ==> out.sent[k] == ByteReadMsgs(chip, (offset + k) % U32_MOD)
    ensures chip.flags & CHIP_RD_ADDRESS != 0 ==> |out.sent| <= IntCount(len)
    ensures chip.flags & CHIP_RD_ADDRESS != 0 && chip.offsetLen == 0 && IntCount(len) > 0 ==>
      out == Outcome(NEG_ONE, [])
    ensures chip.flags & CHIP_RD_ADDRESS != 0 && chip.offsetLen != 0 ==>
      (out.ret == SUCCESS <==> |out.sent| == IntCount(len) && AllSucceed(out.sent, xfer))
    ensures chip.flags & CHIP_RD_ADDRESS != 0 && chip.offsetLen != 0 && out.ret != SUCCESS ==>
      StoppedAtFailure(out, xfer)
  {
    if chip.flags & CHIP_RD_ADDRESS != 0 {
      out := ReadBytewise(chip, offset, len, xfer);
      return;
    }
    var msgs := ReadMsgs(chip, offset, len);
    return Outcome(xfer(0, msgs), [msgs]);
  }

  /** The single message of a plain write: the offset bytes followed by the
      payload. */
  function WriteMsg(chip: Chip, offset: u32, data: seq<u8>): (m: Msg)
    requires chip.Valid()
    ensures !m.IsRead() && m.WellFormed()
    ensures m.addr == Address(chip, offset)
    ensures m.len == chip.offsetLen as nat + |data|
    ensures m.buf[chip.offsetLen..] == data
    ensures BeValue(m.buf[..chip.offsetLen]) == offset % Pow256(chip.offsetLen as nat)
  {
    var s := SetupOffset(chip, offset);
    var m := Msg(s.msg.addr, s.msg.flags, s.msg.len + |data|, s.msg.buf + data);
    assert m.buf[..chip.offsetLen] == s.msg.buf;
    m
  }

  /** i2c_write: bytewise when the chip asks for an address per written
      byte; otherwise -1 with nothing sent when the payload does not fit the
      on-stack buffer, else one transfer of WriteMsg. */
  method Write(chip: Chip, offset: u32, data: seq<u8>, xfer: Xfer) returns (out: Outcome)
    requires chip.Valid() && |data| < U32_MOD
    ensures chip.flags & CHIP_WR_ADDRESS == 0 && |data| > WRITE_PAYLOAD_MAX ==>
      out == Outcome(NEG_ONE, [])
    ensures chip.flags & CHIP_WR_ADDRESS == 0 && |data| <= WRITE_PAYLOAD_MAX ==>
      out.sent == [[WriteMsg(chip, offset, data)]] && out.ret == xfer(0, [WriteMsg(chip, offset, data)])
    ensures chip.flags & CHIP_WR_ADDRESS != 0 ==> |out.sent| <= IntCount(|data|)
    ensures chip.flags & CHIP_WR_ADDRESS != 0 ==>
      forall k :: 0 <= k < |out.sent| ==>
        out.sent[k] == [ByteWriteMsg(chip, (offset + k) % U32_MOD, data[k])]
    ensures chip.flags & CHIP_WR_ADDRESS != 0 && chip.offsetLen == 0 && IntCount(|data|) > 0 ==>
      out == Outcome(NEG_ONE, [])
    ensures chip.flags & CHIP_WR_ADDRESS != 0 && chip.offsetLen != 0 ==>
      (out.ret == SUCCESS <==> |out.sent| == IntCount(|data|) && AllSucceed(out.sent, xfer))
    ensures chip.flags & CHIP_WR_ADDRESS != 0 && chip.offsetLen != 0 && out.ret != SUCCESS ==>
      StoppedAtFailure(out, xfer)
  {
    if chip.flags & CHIP_WR_ADDRESS != 0 {
      out := WriteBytewise(chip, offset, data, xfer);
      return;
    }
    if |data| > WRITE_PAYLOAD_MAX {
      return Outcome(NEG_ONE, []);
    }
    var m := WriteMsg(chip, offset, data);
    return Outcome(xfer(0, [m]), [[m]]);
  }

  /** The bus speed the layer remembers. */
  datatype Bus = Bus(speed: nat)

  /** i2c_init: the speed is stored first, then the controller is brought
      up; the controller's status (`lowInit`, the result of lpi2c_init on
      the updated bus) is returned as is. */
  function Init(bus: Bus, speed: nat, lowInit: Bus -> bv32): (r: (Bus, bv32))
    ensures r.0.speed == speed
    ensures r.1 == lowInit(Bus(speed))
  {
    (bus.(speed := speed), lowInit(bus.(speed := speed)))
  }

  /** i2c_set_bus_speed: the stored speed changes only when the controller
      accepted the new speed. */
  function SetBusSpeed(bus: Bus, speed: nat, lowSet: (Bus, nat) -> bv32): (r: (Bus, bv32))
    ensures r.1 == lowSet(bus, speed)
    ensures r.0 == (if r.1 == SUCCESS then Bus(speed) else bus)
  {
    var ret := lowSet(bus, speed);
    if ret != SUCCESS then (bus, ret) else (bus.(speed := speed), SUCCESS)
  }

  /** The stored speed is the last one that was accepted: after an init it
      is the init's speed until a speed change succeeds, a refused change
      keeps it, and setting the speed already stored leaves the bus as it
      was whatever the controller answers. */
  lemma SpeedKept(bus: Bus, speed: nat, next: nat, lowInit: Bus -> bv32, lowSet: (Bus, nat) -> bv32)
    ensures var b := Init(bus, speed, lowInit).0;
      SetBusSpeed(b, next, lowSet).0.speed == if lowSet(b, next) == SUCCESS then next else speed
    ensures SetBusSpeed(bus, bus.speed, lowSet).0 == bus
  {
  }
}

=== FILE: i2c_types.dfy ===
/** The message record shared by the chip-addressing layer and the LPI2C
    transport, the flag bits it carries, and the C return codes both layers
    produce. Return codes are 32-bit two's complement words, so that the
    transport's `ret | ret_stop` is a bitwise OR as in the source. */
module I2cTypes {
  import opened Bits

  /** i2c_msg flags. */
  const M_RD: bv16 := 0x0001
  const M_TEN: bv16 := 0x0010

  /** i2c_chip flags. */
  const CHIP_10BIT: bv16 := 0x1
  const CHIP_RD_ADDRESS: bv16 := 0x2
  const CHIP_WR_ADDRESS: bv16 := 0x4

  /** Return codes: 0, -1 and -ETIMEDOUT (ETIMEDOUT is 110). */
  const SUCCESS: bv32 := 0
  const NEG_ONE: bv32 := 0xffff_ffff
  const NEG_ETIMEDOUT: bv32 := 0xffff_ff92

  /** Largest value of a C `int`: a longer unsigned length wraps negative
      when it is handed on as an `int`. */
  const INT_MAX: nat := 0x7fff_ffff

  /** One directional transfer unit. A write message carries exactly `len`
      bytes in `buf`; a read message names only how many bytes to receive
      (the destination buffer is not part of the model). */
  datatype Msg = Msg(addr: bv16, flags: bv16, len: nat, buf: seq<u8>)
  {
    predicate IsRead() {
      flags & M_RD != 0
    }

    predicate WellFormed() {
      if IsRead() then buf == [] else |buf| == len
    }
  }
}

=== FILE: lpi2c.dfy ===
/** The LPI2C transport of source/utils/lpi2c.c over the hardware oracle of
    Lpi2cHw: error decode, stuck-bus detection, the TX-FIFO wait, send,
    receive, start and stop sequences, controller initialisation and bus
    speed programming, and the two entry points lpi2c_xfer and
    lpi2c_probe_chip. Each routine starts at a tick of the oracle; its Step
    tells the return code, the tick after its last query and what it did.
    The poll loops terminate because the timer advances (Monotone). */
module Lpi2c {
  import opened Bits
  import opened I2cTypes
  import opened Lpi2cHw
  import opened Divider

  /** What lpci2c_check_clear_error does on an error: clear every status
      flag, then reset both FIFOs keeping the other MCR bits. */
  function ClearWrites(mcr: bv32): seq<Event>
  {
    [Wr(MSR, MSR_CLEAR_ALL), Wr(MCR, mcr | MCR_RRF | MCR_RTF)]
  }

  /** `r` ended with an error code after clearing the flags and resetting
      the FIFOs with the MCR word read last. */
  predicate Cleared(h: Hw, r: Step)
  {
    r.tick >= 2 && IsError(r.code) && r.ev == ClearWrites(h.load(r.tick - 1, MCR))
  }

  /** The error code of `r` is the decode of the status word read two ticks
      before its end. */
  predicate Decoded(h: Hw, r: Step)
  {
    r.tick >= 2 && r.code == ErrorCode(h.load(r.tick - 2, MSR))
  }

  /** A code the TX-FIFO wait can fail with. */
  predicate WaitFailure(code: bv32)
  {
    code == NEG_ONE || IsError(code)
  }

  /** The TX FIFO has room: fewer than FIFO_SIZE entries are queued (a count
      field above the FIFO size also reads as room). */
  predicate TxRoom(mfsr: bv32)
  {
    mfsr & MFSR_TXCOUNT != FIFO_SIZE
  }

  /** The low byte of a word: a chip address narrowed to the u8 parameter
      of bus_i2c_start, or the data byte of an MRDR word. */
  function LowByte(w: bv32): bv8
  {
    (w & 0xff) as bv8
  }

  /** The MTDR words that write the bytes of `data`. */
  function Bytes(data: seq<u8>): (w: seq<bv32>)
    ensures |w| == |data|
  {
    if |data| == 0 then [] else [data[0] as bv32] + Bytes(data[1..])
  }

  lemma {:induction false} BytesAppend(a: seq<u8>, b: seq<u8>)
    ensures Bytes(a + b) == Bytes(a) + Bytes(b)
  {
    if |a| > 0 {
      assert (a + b)[1..] == a[1..] + b;
      BytesAppend(a[1..], b);
    } else {
      assert a + b == b;
    }
  }

  /** Writing byte i after bytes 0 .. i-1 writes bytes 0 .. i. */
  lemma BytesSnoc(data: seq<u8>, i: nat)
    requires i < |data|
    ensures Bytes(data[..i + 1]) == Bytes(data[..i]) + [data[i] as bv32]
  {
    assert data[..i + 1] == data[..i] + [data[i]];
    BytesAppend(data[..i], [data[i]]);
    assert [data[i]][1..] == [];
  }

  /** The words of a proper prefix of the buffer are a proper prefix of its
      words. */
  lemma BytesPrefix(data: seq<u8>, i: nat)
    requires i <= |data|
    ensures Bytes(data[..i]) <= Bytes(data)
    ensures i < |data| ==> Bytes(data[..i]) != Bytes(data)
  {
    assert data == data[..i] + data[i..];
    BytesAppend(data[..i], data[i..]);
  }

  lemma ClearWritesPlain(mcr: bv32)
    ensures Plain(ClearWrites(mcr))
  {
    ConfigPlain(ClearWrites(mcr));
  }

  /** lpci2c_check_clear_error: reads MSR; the code is the first error flag
      set in the priority order PLTF, ALF, NDF, FEF, or 0 when none is.
      Registers are written only when an error was decoded: the flags are
      cleared and both FIFOs reset. */
  function CheckClearError(h: Hw, t: nat): (r: Step)
    ensures r.code == ErrorCode(h.load(t, MSR))
    ensures r.code == SUCCESS <==> h.load(t, MSR) & MSR_ERRORS == 0
    ensures r.code == SUCCESS ==> r.tick == t + 1 && r.ev == []
    ensures r.code != SUCCESS ==> r.tick == t + 2 && Cleared(h, r) && Decoded(h, r)
  {
    var status := h.load(t, MSR) & MSR_ERRORS;
    ErrorCodeCases(h.load(t, MSR));
    if status == 0 then Step(SUCCESS, t + 1, [])
    else
      var code :=
        if status & MSR_PLTF != 0 then PIN_LOW_TIMEOUT_ERR
        else if status & MSR_ALF != 0 then ARB_LOST_ERR
        else if status & MSR_NDF != 0 then NAK_ERR
        else FIFO_ERR;
      Step(code, t + 2, ClearWrites(h.load(t + 1, MCR)))
  }

  /** lpci2c_check_busy_bus: one MSR read; BUSY exactly when another master
      holds the bus. */
  function CheckBusy(h: Hw, t: nat): (r: Step)
    ensures r.tick == t + 1 && r.ev == []
    ensures r.code == SUCCESS || r.code == BUSY
    ensures r.code == BUSY <==> Stuck(h.load(t, MSR))
  {
    Step(if Stuck(h.load(t, MSR)) then BUSY else SUCCESS, t + 1, [])
  }

  /** A pass of the TX-FIFO wait begun at tick k that lets the wait go on:
      the FIFO sample showed no room, no error was flagged and the timer read
      was within TIMEOUT microseconds of `ts`. */
  predicate TxWaiting(h: Hw, k: nat, ts: nat)
  {
    !TxRoom(h.load(k, MFSR)) && h.load(k + 1, MSR) & MSR_ERRORS == 0 && h.clock(k + 2) <= ts + TIMEOUT
  }

  /** Every pass of the TX-FIFO wait from tick t, begun before tick u, let
      the wait go on; the passes begin at t + 1, t + 4, t + 7, ... */
  predicate TxWaited(h: Hw, t: nat, u: nat, ts: nat)
  {
    forall k: nat :: t + 1 <= k < u && (k - t - 1) % 3 == 0 ==> TxWaiting(h, k, ts)
  }

  /** bus_i2c_wait_for_tx_ready: the timer is read at tick t, then each pass
      samples the FIFO count, checks for errors and reads the timer. The wait
      ends at the first pass that does not let it go on, which begins three
      ticks before the end: on success that pass showed room, no error and
      time left; -1 means the budget was exceeded with no error flagged;
      any other failure is the decoded error, already cleared. */
  method WaitTxReady(h: Hw, t: nat) returns (r: Step)
    requires Monotone(h)
    ensures t + 4 <= r.tick && (r.tick - t - 4) % 3 == 0
    ensures TxWaited(h, t, r.tick - 3, h.clock(t))
    ensures r.code == SUCCESS ==>
      r.ev == [] && TxRoom(h.load(r.tick - 3, MFSR)) && h.load(r.tick - 2, MSR) & MSR_ERRORS == 0
      && h.clock(r.tick - 1) <= h.clock(t) + TIMEOUT
    ensures r.code == NEG_ONE ==>
      r.ev == [] && h.load(r.tick - 2, MSR) & MSR_ERRORS == 0 && h.clock(r.tick - 1) > h.clock(t) + TIMEOUT
    ensures r.code != SUCCESS && r.code != NEG_ONE ==> Cleared(h, r) && Decoded(h, r)
    ensures r.code != SUCCESS ==> WaitFailure(r.code) && Plain(r.ev)
  {
    var ts := h.clock(t);
    var u := t + 1;
    while true
      invariant t + 1 <= u && (u - t - 1) % 3 == 0
      invariant TxWaited(h, t, u, ts)
      decreases Left(h, u, ts, TIMEOUT)
    {
      var p, done := TxPass(h, u, ts);
      if done {
        return p;
      }
      LeftDrops(h, u, u + 2, u + 3, ts, TIMEOUT);
      u := u + 3;
    }
  }

  /** One pass of the TX-FIFO wait, begun at tick u: the FIFO count is
      sampled, errors are checked and the timer is read. It lets the wait go
      on exactly when it saw no room, no error and time left. */
  method TxPass(h: Hw, u: nat, ts: nat) returns (r: Step, done: bool)
    ensures r.tick == u + 3
    ensures !done <==> TxWaiting(h, u, ts)
    ensures done && r.code == SUCCESS ==>
      r.ev == [] && TxRoom(h.load(r.tick - 3, MFSR)) && h.load(r.tick - 2, MSR) & MSR_ERRORS == 0
      && h.clock(r.tick - 1) <= ts + TIMEOUT
    ensures done && r.code == NEG_ONE ==>
      r.ev == [] && h.load(r.tick - 2, MSR) & MSR_ERRORS == 0 && h.clock(r.tick - 1) > ts + TIMEOUT
    ensures done && r.code != SUCCESS && r.code != NEG_ONE ==> Cleared(h, r) && Decoded(h, r)
    ensures done && r.code != SUCCESS ==> WaitFailure(r.code) && Plain(r.ev)
  {
    var txcount := FIFO_SIZE - (h.load(u, MFSR) & MFSR_TXCOUNT);
    var check := CheckClearError(h, u + 1);
    if check.code != SUCCESS {
      ClearWritesPlain(h.load(check.tick - 1, MCR));
      return check, true;
    }
    if h.clock(u + 2) - ts > TIMEOUT {
      return Step(NEG_ONE, u + 3, []), true;
    }
    if txcount != 0 {
      return Step(SUCCESS, u + 3, []), true;
    }
    return Step(SUCCESS, u + 3, []), false;
  }

  /** A TX-FIFO wait begun at tick w that ended in success at tick `end`:
      its last pass saw room in the FIFO, no error flagged and the timer
      within TIMEOUT microseconds of the one read at w. */
  predicate TxReady(h: Hw, w: nat, end: nat)
  {
    && w + 4 <= end
    && TxRoom(h.load(end - 3, MFSR)) && h.load(end - 2, MSR) & MSR_ERRORS == 0
    && h.clock(end - 1) <= h.clock(w) + TIMEOUT
  }

  /** A wait or poll timed against the timer read `ts` that failed as the
      hardware says: -1 when the MSR word of its last pass flagged no error
      and the timer read after it was more than TIMEOUT microseconds past
      `ts`; otherwise the error decoded from that MSR word. */
  predicate FailedAt(h: Hw, ts: nat, r: Step)
  {
    && r.tick >= 2
    && (r.code == NEG_ONE ==>
          h.load(r.tick - 2, MSR) & MSR_ERRORS == 0 && h.clock(r.tick - 1) > ts + TIMEOUT)
    && (r.code != NEG_ONE ==> IsError(r.code) && Decoded(h, r))
  }

  /** Whether a step failed as the hardware says does not depend on its
      events. */
  lemma FailedWith(h: Hw, ts: nat, r: Step, ev: seq<Event>)
    requires FailedAt(h, ts, r)
    ensures FailedAt(h, ts, Step(r.code, r.tick, ev))
  {
  }

  /** The TX-FIFO wait as its callers see it: they pass a failure on
      unchanged and need neither the sampled FIFO count nor the passes that
      let the wait go on. */
  method AwaitTx(h: Hw, t: nat) returns (r: Step)
    requires Monotone(h)
    ensures t + 4 <= r.tick
    ensures r.code == SUCCESS ==> r.ev == [] && TxReady(h, t, r.tick)
    ensures r.code != SUCCESS ==> FailedAt(h, h.clock(t), r)
    ensures r.code != SUCCESS ==> WaitFailure(r.code) && Plain(r.ev)
  {
    r := WaitTxReady(h, t);
  }

  /** bus_i2c_send: waits for room before each byte and writes the byte to
      MTDR, stopping at the first failed wait. What reaches MTDR is a prefix
      of the buffer, in order, and the whole buffer exactly when the send
      succeeds. An empty send does nothing. A failure is that of the wait
      begun at tick w. */
  method Send(h: Hw, t: nat, data: seq<u8>) returns (r: Step, ghost w: nat)
    requires Monotone(h)
    ensures |data| == 0 ==> r == Step(SUCCESS, t, [])
    ensures r.tick >= t
    ensures Stored(r.ev) == [] && Routines(r.ev) == []
    ensures Queued(r.ev) <= Bytes(data)
    ensures r.code == SUCCESS <==> Queued(r.ev) == Bytes(data)
    ensures r.code != SUCCESS ==> WaitFailure(r.code)
    ensures r.code != SUCCESS ==> t <= w && w + 4 <= r.tick && FailedAt(h, h.clock(w), r)
  {
    var ev: seq<Event> := [];
    var u := t;
    var i := 0;
    while i < |data|
      invariant i <= |data| && t <= u
      invariant i == 0 ==> u == t && ev == []
      invariant Sent(ev, data, i)
    {
      var a := AwaitTx(h, u);
      if a.code != SUCCESS {
        SendStopped(ev, data, i, a.ev);
        FailedWith(h, h.clock(u), a, ev + a.ev);
        return Step(a.code, a.tick, ev + a.ev), u;
      }
      SendStep(ev, data, i);
      ev := ev + [Wr(MTDR, data[i] as bv32)];
      u := a.tick;
      i := i + 1;
    }
    assert data[..i] == data;
    return Step(SUCCESS, u, ev), t;
  }

  /** `ev` has written the first i bytes of `data` to MTDR and done nothing
      else a transfer can see. */
  predicate Sent(ev: seq<Event>, data: seq<u8>, i: nat)
    requires i <= |data|
  {
    Queued(ev) == Bytes(data[..i]) && Stored(ev) == [] && Routines(ev) == []
  }

  /** Writing byte i to MTDR after the first i. */
  lemma SendStep(ev: seq<Event>, data: seq<u8>, i: nat)
    requires i < |data| && Sent(ev, data, i)
    ensures Sent(ev + [Wr(MTDR, data[i] as bv32)], data, i + 1)
  {
    TraceAppend(ev, [Wr(MTDR, data[i] as bv32)]);
    QueueOne(data[i] as bv32);
    BytesSnoc(data, i);
  }

  /** Plain traffic after the first i of the bytes, short of all of them:
      what reached MTDR is a proper prefix of the buffer's words. */
  lemma SendStopped(ev: seq<Event>, data: seq<u8>, i: nat, more: seq<Event>)
    requires i < |data| && Sent(ev, data, i) && Plain(more)
    ensures Stored(ev + more) == [] && Routines(ev + more) == []
    ensures Queued(ev + more) <= Bytes(data) && Queued(ev + more) != Bytes(data)
  {
    AppendPlain(ev, more);
    BytesPrefix(data, i);
  }

  /** A pass of the receive poll begun at tick k that lets the poll go on:
      no error was flagged, the timer read was within TIMEOUT microseconds of
      `ts` and the MRDR word read was empty. */
  predicate RxWaiting(h: Hw, k: nat, ts: nat)
  {
    h.load(k, MSR) & MSR_ERRORS == 0 && h.clock(k + 1) <= ts + TIMEOUT
    && h.load(k + 2, MRDR) & MRDR_RXEMPTY != 0
  }

  /** Every pass of the receive poll from tick t, begun before tick u, let
      the poll go on; the passes begin at t, t + 3, t + 6, ... */
  predicate RxWaited(h: Hw, t: nat, u: nat, ts: nat)
  {
    forall k: nat :: t <= k < u && (k - t) % 3 == 0 ==> RxWaiting(h, k, ts)
  }

  /** The poll for one byte begun at tick t takes its byte from the MRDR
      word read at tick `at`: that is the first pass of the poll that does
      not go on, and it found no error, time left and a word that is not
      empty. */
  predicate ByteAt(h: Hw, t: nat, ts: nat, at: nat)
  {
    t + 2 <= at && (at - t - 2) % 3 == 0 && RxWaited(h, t, at - 2, ts)
    && h.load(at - 2, MSR) & MSR_ERRORS == 0 && h.clock(at - 1) <= ts + TIMEOUT
    && h.load(at, MRDR) & MRDR_RXEMPTY == 0
  }

  /** The ticks `at` are those of the successive byte polls of a receive
      whose first poll begins at tick t: each ends at its tick, and the
      next begins right after it. */
  predicate ByteTicks(h: Hw, t: nat, ts: nat, at: seq<nat>)
    decreases |at|
  {
    |at| == 0 || (ByteAt(h, t, ts, at[0]) && ByteTicks(h, at[0] + 1, ts, at[1..]))
  }

  /** The bytes stored from the MRDR words read at the ticks `at`. */
  function RxData(h: Hw, at: seq<nat>): seq<bv8>
  {
    if |at| == 0 then [] else [LowByte(h.load(at[0], MRDR))] + RxData(h, at[1..])
  }

  /** Byte i of RxData is the low byte of the MRDR word read at tick at[i]. */
  lemma {:induction false} RxDataAt(h: Hw, at: seq<nat>)
    ensures |RxData(h, at)| == |at|
    ensures forall i :: 0 <= i < |at| ==> RxData(h, at)[i] == LowByte(h.load(at[i], MRDR))
  {
    if |at| > 0 {
      RxDataAt(h, at[1..]);
    }
  }

  /** One byte of the receive loop, from tick t with the receive's timer
      started at `ts`: each pass checks for errors, reads the timer and
      reads MRDR. The poll ends at the first pass that does not let it go
      on; on success the byte stored is the low byte of that pass's MRDR
      word. */
  method RxPoll(h: Hw, t: nat, ts: nat) returns (r: Step)
    requires Monotone(h)
    ensures t + 2 <= r.tick
    ensures r.code != SUCCESS ==> RxWaited(h, t, r.tick - 2, ts)
    ensures r.code == SUCCESS ==>
      ByteAt(h, t, ts, r.tick - 1) && r.ev == [Rx(LowByte(h.load(r.tick - 1, MRDR)))]
    ensures r.code == NEG_ONE ==>
      r.ev == [] && (r.tick - t - 2) % 3 == 0 && h.load(r.tick - 2, MSR) & MSR_ERRORS == 0
      && h.clock(r.tick - 1) > ts + TIMEOUT
    ensures r.code != SUCCESS && r.code != NEG_ONE ==>
      (r.tick - t - 2) % 3 == 0 && Cleared(h, r) && Decoded(h, r)
    ensures r.code != SUCCESS ==> WaitFailure(r.code) && Plain(r.ev)
  {
    var u := t;
    while true
      invariant t <= u && (u - t) % 3 == 0
      invariant RxWaited(h, t, u, ts)
      decreases Left(h, u, ts, TIMEOUT)
    {
      var p, done := RxPass(h, u, ts);
      if done {
        return p;
      }
      LeftDrops(h, u, u + 1, u + 3, ts, TIMEOUT);
      u := u + 3;
    }
  }

  /** One pass of the receive poll, begun at tick u: errors are checked,
      the timer is read and MRDR is read. It lets the poll go on exactly
      when it saw no error, time left and an empty word. */
  method RxPass(h: Hw, u: nat, ts: nat) returns (r: Step, done: bool)
    ensures !done <==> RxWaiting(h, u, ts)
    ensures !done ==> r.tick == u + 3
    ensures done && r.code == SUCCESS ==>
      r.tick == u + 3 && h.load(u, MSR) & MSR_ERRORS == 0 && h.clock(u + 1) <= ts + TIMEOUT
      && h.load(u + 2, MRDR) & MRDR_RXEMPTY == 0 && r.ev == [Rx(LowByte(h.load(u + 2, MRDR)))]
    ensures done && r.code == NEG_ONE ==>
      r.tick == u + 2 && r.ev == [] && h.load(u, MSR) & MSR_ERRORS == 0 && h.clock(u + 1) > ts + TIMEOUT
    ensures done && r.code != SUCCESS && r.code != NEG_ONE ==>
      r.tick == u + 2 && Cleared(h, r) && Decoded(h, r)
    ensures done && r.code != SUCCESS ==> WaitFailure(r.code) && Plain(r.ev)
  {
    var check := CheckClearError(h, u);
    if check.code != SUCCESS {
      ClearWritesPlain(h.load(check.tick - 1, MCR));
      return check, true;
    }
    if h.clock(u + 1) - ts > TIMEOUT {
      return Step(NEG_ONE, u + 2, []), true;
    }
    var val := h.load(u + 2, MRDR);
    if val & MRDR_RXEMPTY == 0 {
      return Step(SUCCESS, u + 3, [Rx(LowByte(val))]), true;
    }
    return Step(SUCCESS, u + 3, []), false;
  }

  /** The byte poll as the byte loop sees it: the byte and where it was
      read, or a failure that leaves only plain traffic. */
  method RxNext(h: Hw, t: nat, ts: nat) returns (r: Step)
    requires Monotone(h)
    ensures t + 2 <= r.tick
    ensures r.code == SUCCESS ==>
      ByteAt(h, t, ts, r.tick - 1) && r.ev == [Rx(LowByte(h.load(r.tick - 1, MRDR)))]
    ensures r.code != SUCCESS ==> FailedAt(h, ts, r)
    ensures r.code != SUCCESS ==> WaitFailure(r.code) && Plain(r.ev)
  {
    r := RxPoll(h, t, ts);
  }

  /** The byte loop of bus_i2c_receive: `len` bytes polled one after the
      other from tick t, all timed against the timer read `ts`. The bytes
      stored are the low bytes of the MRDR words at the ticks `at` where
      the successive polls ended: all `len` of them when it succeeds and
      fewer when it fails, with the failure of the poll that ended it;
      nothing else reaches the transfer's trace. */
  method RxBytes(h: Hw, t: nat, ts: nat, len: nat) returns (r: Step, ghost at: seq<nat>)
    requires Monotone(h)
    decreases len
    ensures r.tick >= t
    ensures Received(h, t, ts, r.ev, at)
    ensures r.code == SUCCESS ==> |Stored(r.ev)| == len
    ensures r.code != SUCCESS ==> WaitFailure(r.code) && |Stored(r.ev)| < len
    ensures r.code != SUCCESS ==> r.tick > t && FailedAt(h, ts, r)
  {
    if len == 0 {
      ReceivedNone(h, t, ts, []);
      return Step(SUCCESS, t, []), [];
    }
    var p := RxNext(h, t, ts);
    if p.code != SUCCESS {
      ReceivedNone(h, t, ts, p.ev);
      return p, [];
    }
    var rest, more := RxBytes(h, p.tick, ts, len - 1);
    ReceivedCons(h, t, ts, p.tick - 1, rest.ev, more);
    at := [p.tick - 1] + more;
    return Step(rest.code, rest.tick, p.ev + rest.ev), at;
  }

  /** `ev` is the trace of byte polls from tick t that ended at the ticks
      `at`: it stores their bytes and neither queues nor enters anything. */
  predicate Received(h: Hw, t: nat, ts: nat, ev: seq<Event>, at: seq<nat>)
  {
    Queued(ev) == [] && Routines(ev) == [] && ByteTicks(h, t, ts, at)
    && Stored(ev) == RxData(h, at) && |Stored(ev)| == |at|
  }

  /** Plain traffic stores nothing. */
  lemma ReceivedNone(h: Hw, t: nat, ts: nat, ev: seq<Event>)
    requires Plain(ev)
    ensures Received(h, t, ts, ev, [])
  {
  }

  /** A byte poll from tick t ending at tick k, then the polls that store
      `rest` from the tick after k. */
  lemma ReceivedCons(h: Hw, t: nat, ts: nat, k: nat, rest: seq<Event>, more: seq<nat>)
    requires ByteAt(h, t, ts, k) && Received(h, k + 1, ts, rest, more)
    ensures Received(h, t, ts, [Rx(LowByte(h.load(k, MRDR)))] + rest, [k] + more)
  {
    assert ([k] + more)[1..] == more;
    TraceAppend([Rx(LowByte(h.load(k, MRDR)))], rest);
    StoreOne(LowByte(h.load(k, MRDR)));
  }

  /** bus_i2c_receive: the timer is read first, even for an empty read,
      which then succeeds without touching anything. Otherwise, once the
      FIFO has room, the flags are cleared and a single receive command for
      `len` bytes is queued, and the bytes are collected one by one from
      tick `from`, the whole receive timed against the timer read at its
      start. The bytes stored are the low bytes of the MRDR words at the
      ticks `at` where the successive byte polls ended: all `len` of them
      when it succeeds and fewer when it fails. The command is queued
      exactly when the wait succeeded, ending at tick `from`; a failure
      before it is the wait's, timed from the tick after t, and one after
      it is the failing byte poll's, timed from t. */
  method Receive(h: Hw, t: nat, len: nat) returns (r: Step, ghost from: nat, ghost at: seq<nat>)
    requires Monotone(h) && len <= INT_MAX
    ensures len == 0 ==> r == Step(SUCCESS, t + 1, [])
    ensures r.tick > t
    ensures Routines(r.ev) == []
    ensures len > 0 ==> Queued(r.ev) == [] || Queued(r.ev) == [RecvCmd(len)]
    ensures t < from && ByteTicks(h, from, h.clock(t), at) && Stored(r.ev) == RxData(h, at)
    ensures r.code == SUCCESS ==> |Stored(r.ev)| == len
    ensures r.code == SUCCESS && len > 0 ==> Queued(r.ev) == [RecvCmd(len)]
    ensures r.code != SUCCESS ==> WaitFailure(r.code) && |Stored(r.ev)| < len
    ensures r.code == NEG_ONE ==> h.clock(r.tick - 1) > h.clock(t) + TIMEOUT
    ensures len > 0 && Queued(r.ev) == [] ==> r.code != SUCCESS && t + 5 <= r.tick && FailedAt(h, h.clock(t + 1), r)
    ensures len > 0 && Queued(r.ev) != [] ==> TxReady(h, t + 1, from)
    ensures len > 0 && Queued(r.ev) != [] && r.code != SUCCESS ==> FailedAt(h, h.clock(t), r)
  {
    from, at := t + 1, [];
    if len == 0 {
      return Step(SUCCESS, t + 1, []), from, at;
    }
    r, from, at := Request(h, t, len);
    Later(h, t, t + 1);
  }

  /** bus_i2c_receive for a non-empty read, from the timer read at tick t:
      the TX-FIFO wait from the tick after, then Collect. */
  method Request(h: Hw, t: nat, len: nat) returns (r: Step, ghost from: nat, ghost at: seq<nat>)
    requires Monotone(h) && 0 < len <= INT_MAX
    ensures r.tick > t && Routines(r.ev) == []
    ensures Queued(r.ev) == [] || Queued(r.ev) == [RecvCmd(len)]
    ensures t < from && ByteTicks(h, from, h.clock(t), at) && Stored(r.ev) == RxData(h, at)
    ensures r.code == SUCCESS ==> |Stored(r.ev)| == len && Queued(r.ev) == [RecvCmd(len)]
    ensures r.code != SUCCESS ==> WaitFailure(r.code) && |Stored(r.ev)| < len
    ensures Queued(r.ev) == [] ==> r.code != SUCCESS && t + 5 <= r.tick && FailedAt(h, h.clock(t + 1), r)
    ensures Queued(r.ev) != [] ==> TxReady(h, t + 1, from)
    ensures Queued(r.ev) != [] && r.code != SUCCESS ==> FailedAt(h, h.clock(t), r)
  {
    var w := AwaitTx(h, t + 1);
    if w.code != SUCCESS {
      return w, t + 1, [];
    }
    from := w.tick;
    r, at := Collect(h, w.tick, h.clock(t), len);
  }

  /** The part of bus_i2c_receive after the TX-FIFO wait, from tick u with
      the timer read `ts`: the flags are cleared, the receive command for
      `len` bytes is queued and the bytes are polled one after the other. */
  method Collect(h: Hw, u: nat, ts: nat, len: nat) returns (r: Step, ghost at: seq<nat>)
    requires Monotone(h) && 0 < len <= INT_MAX
    ensures r.tick >= u
    ensures Queued(r.ev) == [RecvCmd(len)] && Routines(r.ev) == []
    ensures ByteTicks(h, u, ts, at) && Stored(r.ev) == RxData(h, at)
    ensures r.code == SUCCESS ==> |Stored(r.ev)| == len
    ensures r.code != SUCCESS ==> WaitFailure(r.code) && |Stored(r.ev)| < len
    ensures r.code != SUCCESS ==> r.tick > u && FailedAt(h, ts, r)
  {
    var b;
    b, at := RxBytes(h, u, ts, len);
    CommandThen(RecvCmd(len), b.ev);
    return Step(b.code, b.tick, [Wr(MSR, MSR_CLEAR_ALL), Wr(MTDR, RecvCmd(len))] + b.ev), at;
  }

  /** Clearing the flags and queueing one command word, then traffic that
      queues nothing and enters no routine. */
  lemma CommandThen(w: bv32, rest: seq<Event>)
    requires Queued(rest) == [] && Routines(rest) == []
    ensures Queued([Wr(MSR, MSR_CLEAR_ALL), Wr(MTDR, w)] + rest) == [w]
    ensures Stored([Wr(MSR, MSR_CLEAR_ALL), Wr(MTDR, w)] + rest) == Stored(rest)
    ensures Routines([Wr(MSR, MSR_CLEAR_ALL), Wr(MTDR, w)] + rest) == []
  {
    var a, b := Wr(MSR, MSR_CLEAR_ALL), Wr(MTDR, w);
    assert [a, b] + rest == [a] + ([b] + rest);
    WritePlain(MSR, MSR_CLEAR_ALL);
    QueueOne(w);
    TraceAppend([b], rest);
    PlainAppend([a], [b] + rest);
    assert [w] + [] == [w];
    assert [] + Stored(rest) == Stored(rest);
  }

  /** An MCFGR1 word with its prescale field replaced by `code`. */
  function WithPrescale(cfg: bv32, code: bv32): bv32
  {
    (cfg & !MCFGR1_PRESCALE) | (code & MCFGR1_PRESCALE)
  }

  /** What bus_i2c_set_bus_speed writes from tick t: master mode off,
      keeping the other MCR bits; MCCR0 set to the timing word of the best
      divider; the prescale field of MCFGR1 set to log2 of its prescaler,
      keeping the other MCFGR1 bits as read; and master mode back on when,
      and only when, it was on at tick t. */
  predicate SpeedSet(h: Hw, t: nat, best: Choice, ev: seq<Event>)
  {
    && InRange(best.exp, best.clkhi) && best.pre == Pow2(best.exp)
    && (|ev| == 3 || |ev| == 4)
    && (|ev| == 4 <==> h.load(t, MCR) & MCR_MEN != 0)
    && ev[0] == Wr(MCR, MasterOff(h.load(t + 1, MCR)))
    && ev[1] == Wr(MCCR0, TimingOf(best))
    && ev[2] == Wr(MCFGR1, WithPrescale(h.load(t + 2, MCFGR1), PrescaleOf(best)))
    && (|ev| == 4 ==> ev[3] == Wr(MCR, MasterOn(h.load(t + 3, MCR))))
  }

  /** bus_i2c_set_bus_speed: the register writes of SpeedSet, one tick per
      register read. Always returns 0. */
  method SetBusSpeed(h: Hw, t: nat, speed: u32) returns (r: Step, best: Choice)
    ensures r.code == SUCCESS && r.tick == t + |r.ev|
    ensures Best(speed, best) && SpeedSet(h, t, best, r.ev)
    ensures Plain(r.ev)
  {
    best := Choose(speed);
    var mode := h.load(t, MCR) & MCR_MEN != 0;
    var off := Wr(MCR, MasterOff(h.load(t + 1, MCR)));
    var timing := Wr(MCCR0, TimingOf(best));
    var cfg1 := Wr(MCFGR1, WithPrescale(h.load(t + 2, MCFGR1), PrescaleOf(best)));
    var on := if mode then [Wr(MCR, MasterOn(h.load(t + 3, MCR)))] else [];
    var ev := [off, timing, cfg1] + on;
    SpeedWritesPlain(off, timing, cfg1, on);
    r := Step(SUCCESS, t + |ev|, ev);
  }

  /** Three register writes and at most one more, none to MTDR. */
  lemma SpeedWritesPlain(a: Event, b: Event, c: Event, rest: seq<Event>)
    requires a.Wr? && a.reg != MTDR && b.Wr? && b.reg != MTDR && c.Wr? && c.reg != MTDR
    requires |rest| <= 1 && (|rest| == 1 ==> rest[0].Wr? && rest[0].reg != MTDR)
    ensures Plain([a, b, c] + rest)
  {
    ConfigPlain([a, b, c] + rest);
  }

  /** What bus_i2c_init does before setting the speed, from tick t: it is
      entered, resets the controller, disables doze mode, programs the
      host-request configuration (request input off, active high, external
      pin) and the pin configuration (two-pin open drain, acknowledges not
      ignored), keeping the other bits of both registers as read. */
  function InitLead(h: Hw, t: nat): seq<Event>
  {
    [ Begin(InitRoutine), Wr(MCR, MCR_RST), Wr(MCR, 0), Wr(MCR, MCR_DOZEN),
      Wr(MCFGR0, (h.load(t, MCFGR0) & !MCFGR0_HOST) | MCFGR0_HRPOL),
      Wr(MCFGR1, h.load(t + 1, MCFGR1) & !(MCFGR1_PINCFG | MCFGR1_IGNACK)) ]
  }

  /** bus_i2c_init: the lead of InitLead, then the speed is set (the
      events `mid`), then master mode is switched on. The return code is the
      set-speed result, always 0. Nothing is queued or stored; init is
      entered once and stop never. */
  method Init(h: Hw, t: nat, speed: u32) returns (r: Step, best: Choice, mid: seq<Event>)
    ensures r.code == SUCCESS && r.tick == t + 3 + |mid|
    ensures Best(speed, best) && SpeedSet(h, t + 2, best, mid)
    ensures r.ev == InitLead(h, t) + mid + [Wr(MCR, MasterOn(h.load(r.tick - 1, MCR)))]
    ensures Queued(r.ev) == [] && Stored(r.ev) == []
    ensures Routines(r.ev) == [InitRoutine]
  {
    var s;
    s, best := SetBusSpeed(h, t + 2, speed);
    var on := Wr(MCR, MasterOn(h.load(s.tick, MCR)));
    InitTrace(h, t, s.ev, on);
    mid := s.ev;
    r := Step(s.code, s.tick + 1, InitLead(h, t) + mid + [on]);
  }

  /** bus_i2c_init around plain set-speed traffic and a plain last write
      enters init once and does nothing else a transfer can see. */
  lemma InitTrace(h: Hw, t: nat, mid: seq<Event>, last: Event)
    requires Plain(mid) && last.Wr? && last.reg != MTDR
    ensures Queued(InitLead(h, t) + mid + [last]) == [] && Stored(InitLead(h, t) + mid + [last]) == []
    ensures Routines(InitLead(h, t) + mid + [last]) == [InitRoutine]
  {
    var lead := InitLead(h, t);
    var body := lead[1..] + mid + [last];
    assert lead + mid + [last] == [lead[0]] + body;
    ConfigPlain(lead[1..]);
    WritePlain(last.reg, last.val);
    PlainJoin(lead[1..], mid);
    PlainJoin(lead[1..] + mid, [last]);
    EnterPlain(InitRoutine, body);
  }

  /** The prescale field of a WithPrescale word is the code, for codes that
      fit the field. */
  lemma PrescaleField(cfg: bv32, code: bv32)
    requires code < 8
    ensures WithPrescale(cfg, code) & MCFGR1_PRESCALE == code
  {
  }


  /** The busy check at the head of bus_i2c_start: when another master
      holds the bus the controller is reinitialised at the standard rate,
      its result ignored, and the bus is checked once more; BUSY when it is
      still held. Nothing is queued or stored; init is entered exactly when
      the first check found the bus held. */
  method Reclaim(h: Hw, t: nat) returns (r: Step)
    ensures r.tick > t
    ensures r.code == SUCCESS || r.code == BUSY
    ensures !Stuck(h.load(t, MSR)) ==> r == Step(SUCCESS, t + 1, [])
    ensures r.code == BUSY <==> Stuck(h.load(t, MSR)) && Stuck(h.load(r.tick - 1, MSR))
    ensures Queued(r.ev) == [] && Stored(r.ev) == []
    ensures Routines(r.ev) == if Stuck(h.load(t, MSR)) then [InitRoutine] else []
  {
    var c := CheckBusy(h, t);
    if c.code == SUCCESS {
      return c;
    }
    var i := Reinit(h, c.tick);
    var again := CheckBusy(h, i.tick);
    return Step(again.code, again.tick, i.ev);
  }

  /** bus_i2c_init at the standard rate with its result ignored, as start
      and probe use it: it enters init once and queues and stores
      nothing. */
  method Reinit(h: Hw, t: nat) returns (r: Step)
    ensures r.tick > t
    ensures Queued(r.ev) == [] && Stored(r.ev) == [] && Routines(r.ev) == [InitRoutine]
  {
    var best, settings;
    r, best, settings := Init(h, t, STANDARD_RATE);
  }

  /** The last three events of a start that issued its start word: the
      flags cleared, MCFGR1 written with auto-stop off, the start word
      queued. */
  predicate Issued(ev: seq<Event>, addr: bv8, dir: bv8)
  {
    && |ev| >= 3
    && ev[|ev| - 3] == Wr(MSR, MSR_CLEAR_ALL)
    && ev[|ev| - 2].Wr? && ev[|ev| - 2].reg == MCFGR1 && ev[|ev| - 2].val & MCFGR1_AUTOSTOP == 0
    && ev[|ev| - 1] == Wr(MTDR, StartWord(addr, dir))
  }

  /** What the hardware says of a start from tick t whose last busy check
      read MSR at tick k: k is t unless the bus was found held, the start
      is BUSY exactly when both checks found it held, and otherwise it
      ends as the TX-FIFO wait begun two ticks after k does. */
  predicate Started(h: Hw, t: nat, k: nat, r: Step)
  {
    && t <= k < r.tick
    && (!Stuck(h.load(t, MSR)) ==> k == t)
    && (r.code == BUSY <==> Stuck(h.load(t, MSR)) && Stuck(h.load(k, MSR)))
    && (r.code == BUSY ==> k == r.tick - 1)
    && (r.code == SUCCESS ==> TxReady(h, k + 2, r.tick))
    && (r.code != SUCCESS && r.code != BUSY ==> k + 6 <= r.tick && FailedAt(h, h.clock(k + 2), r))
  }

  /** bus_i2c_start: Reclaim, then the flags are cleared and auto-stop
      switched off, keeping the other MCFGR1 bits, and once the TX FIFO has
      room the start word for the address and direction is queued. A start
      queues its start word when it succeeds and nothing otherwise. The
      last busy check reads MSR at tick k, which is t unless the bus was
      found held; the result is BUSY exactly when both checks found it
      held, and otherwise that of the wait begun two ticks after k. */
  method Start(h: Hw, t: nat, addr: bv8, dir: bv8) returns (r: Step, ghost k: nat)
    requires Monotone(h)
    ensures r.code == SUCCESS || r.code == BUSY || WaitFailure(r.code)
    ensures Started(h, t, k, r)
    ensures Stored(r.ev) == []
    ensures Routines(r.ev) == if Stuck(h.load(t, MSR)) then [InitRoutine] else []
    ensures Queued(r.ev) == if r.code == SUCCESS then [StartWord(addr, dir)] else []
    ensures r.code == SUCCESS ==> Issued(r.ev, addr, dir)
  {
    var b := Reclaim(h, t);
    k := b.tick - 1;
    if b.code != SUCCESS {
      return b, k;
    }
    r := Issue(h, b.tick, b.ev, addr, dir);
  }

  /** The part of bus_i2c_start after the busy check, from tick u after the
      events `pre` of a busy check that passed: the flags are cleared,
      auto-stop is switched off and, once the TX FIFO has room, the start
      word is queued. The wait begins at the tick after u, and what it
      ends with decides the result. */
  method Issue(h: Hw, u: nat, pre: seq<Event>, addr: bv8, dir: bv8) returns (r: Step)
    requires Monotone(h)
    requires Queued(pre) == [] && Stored(pre) == []
    ensures r.tick >= u + 5
    ensures r.code == SUCCESS || WaitFailure(r.code)
    ensures r.code == SUCCESS ==> TxReady(h, u + 1, r.tick)
    ensures r.code != SUCCESS ==> FailedAt(h, h.clock(u + 1), r)
    ensures Stored(r.ev) == [] && Routines(r.ev) == Routines(pre)
    ensures Queued(r.ev) == if r.code == SUCCESS then [StartWord(addr, dir)] else []
    ensures r.code == SUCCESS ==> Issued(r.ev, addr, dir)
  {
    var cfg := h.load(u, MCFGR1) & !MCFGR1_AUTOSTOP;
    var w := AwaitTx(h, u + 1);
    if w.code != SUCCESS {
      StartFailed(pre, cfg, w.ev);
      FailedWith(h, h.clock(u + 1), w, pre + [Wr(MSR, MSR_CLEAR_ALL), Wr(MCFGR1, cfg)] + w.ev);
      return Step(w.code, w.tick, pre + [Wr(MSR, MSR_CLEAR_ALL), Wr(MCFGR1, cfg)] + w.ev);
    }
    AutostopOff(h.load(u, MCFGR1));
    StartIssued(pre, cfg, addr, dir);
    return Step(SUCCESS, w.tick, pre + [Wr(MSR, MSR_CLEAR_ALL), Wr(MCFGR1, cfg), Wr(MTDR, StartWord(addr, dir))]);
  }

  lemma AutostopOff(cfg: bv32)
    ensures (cfg & !MCFGR1_AUTOSTOP) & MCFGR1_AUTOSTOP == 0
  {
  }

  /** The configuration writes of a start and a failed wait leave the
      trace's view of what came before unchanged. */
  lemma StartFailed(pre: seq<Event>, cfg: bv32, more: seq<Event>)
    requires Plain(more)
    ensures Queued(pre + [Wr(MSR, MSR_CLEAR_ALL), Wr(MCFGR1, cfg)] + more) == Queued(pre)
    ensures Stored(pre + [Wr(MSR, MSR_CLEAR_ALL), Wr(MCFGR1, cfg)] + more) == Stored(pre)
    ensures Routines(pre + [Wr(MSR, MSR_CLEAR_ALL), Wr(MCFGR1, cfg)] + more) == Routines(pre)
  {
    var prep := [Wr(MSR, MSR_CLEAR_ALL), Wr(MCFGR1, cfg)];
    ConfigPlain(prep);
    PlainJoin(prep, more);
    assert pre + prep + more == pre + (prep + more);
    AppendPlain(pre, prep + more);
  }

  /** A start that issues its word after quiet traffic queues exactly that
      word. */
  lemma StartIssued(pre: seq<Event>, cfg: bv32, addr: bv8, dir: bv8)
    requires Queued(pre) == [] && Stored(pre) == []
    requires cfg & MCFGR1_AUTOSTOP == 0
    ensures Queued(pre + [Wr(MSR, MSR_CLEAR_ALL), Wr(MCFGR1, cfg), Wr(MTDR, StartWord(addr, dir))]) == [StartWord(addr, dir)]
    ensures Stored(pre + [Wr(MSR, MSR_CLEAR_ALL), Wr(MCFGR1, cfg), Wr(MTDR, StartWord(addr, dir))]) == []
    ensures Routines(pre + [Wr(MSR, MSR_CLEAR_ALL), Wr(MCFGR1, cfg), Wr(MTDR, StartWord(addr, dir))]) == Routines(pre)
    ensures Issued(pre + [Wr(MSR, MSR_CLEAR_ALL), Wr(MCFGR1, cfg), Wr(MTDR, StartWord(addr, dir))], addr, dir)
  {
    var tail := [Wr(MSR, MSR_CLEAR_ALL), Wr(MCFGR1, cfg), Wr(MTDR, StartWord(addr, dir))];
    IssueTail(cfg, StartWord(addr, dir));
    TraceAppend(pre, tail);
    IssuedAfter(pre, tail, addr, dir);
  }

  /** The configuration writes of a start and its word queue the word and
      nothing else. */
  lemma IssueTail(cfg: bv32, w: bv32)
    ensures Queued([Wr(MSR, MSR_CLEAR_ALL), Wr(MCFGR1, cfg), Wr(MTDR, w)]) == [w]
    ensures Stored([Wr(MSR, MSR_CLEAR_ALL), Wr(MCFGR1, cfg), Wr(MTDR, w)]) == []
    ensures Routines([Wr(MSR, MSR_CLEAR_ALL), Wr(MCFGR1, cfg), Wr(MTDR, w)]) == []
  {
    var prep := [Wr(MSR, MSR_CLEAR_ALL), Wr(MCFGR1, cfg)];
    ConfigPlain(prep);
    QueueOne(w);
    PlainAppend(prep, [Wr(MTDR, w)]);
    assert prep + [Wr(MTDR, w)] == [Wr(MSR, MSR_CLEAR_ALL), Wr(MCFGR1, cfg), Wr(MTDR, w)];
  }

  lemma IssuedAfter(pre: seq<Event>, tail: seq<Event>, addr: bv8, dir: bv8)
    requires |tail| == 3 && tail[0] == Wr(MSR, MSR_CLEAR_ALL)
    requires tail[1].Wr? && tail[1].reg == MCFGR1 && tail[1].val & MCFGR1_AUTOSTOP == 0
    requires tail[2] == Wr(MTDR, StartWord(addr, dir))
    ensures Issued(pre + tail, addr, dir)
  {
  }

  /** One pass of the stop-detect poll of bus_i2c_stop, from tick u with
      the timer read `ts`: it reads MSR, checks for errors and, unless the
      stop-detect flag was set in the MSR word read, reads the timer. The
      poll is done when the flag was seen, which is then cleared and the
      result is the error decoded in the same pass, or when the timer read
      is more than NACK_TIMEOUT microseconds past `ts`; otherwise the next
      pass begins at the tick after the timer read. */
  method StopPass(h: Hw, u: nat, ts: nat) returns (r: Step, done: bool)
    requires Monotone(h)
    ensures u + 2 <= r.tick && Plain(r.ev)
    ensures done && r.code != NEG_ETIMEDOUT ==>
      h.load(u, MSR) & MSR_SDF != 0 && r.code == ErrorCode(h.load(u + 1, MSR))
      && SdfClearedLast(r.ev)
    ensures done && r.code == NEG_ETIMEDOUT ==>
      h.load(u, MSR) & MSR_SDF == 0 && h.clock(r.tick - 1) > ts + NACK_TIMEOUT
    ensures !done ==> h.load(u, MSR) & MSR_SDF == 0 && h.clock(r.tick - 1) <= ts + NACK_TIMEOUT
  {
    var status := h.load(u, MSR);
    var check := CheckClearError(h, u + 1);
    if check.code != SUCCESS {
      ClearWritesPlain(h.load(check.tick - 1, MCR));
    }
    if status & MSR_SDF != 0 {
      SdfOnly(status);
      WritePlain(MSR, MSR_SDF);
      PlainJoin(check.ev, [Wr(MSR, MSR_SDF)]);
      return Step(check.code, check.tick, check.ev + [Wr(MSR, status & MSR_SDF)]), true;
    }
    if h.clock(check.tick) - ts > NACK_TIMEOUT {
      return Step(NEG_ETIMEDOUT, check.tick + 1, check.ev), true;
    }
    return Step(check.code, check.tick + 1, check.ev), false;
  }

  /** The stop-detect poll of bus_i2c_stop, from tick t with the timer read
      `ts`, pass after pass (StopPass). When the flag is seen (in the word
      read at tick `seen`) the result is the error decoded in the same
      pass; past NACK_TIMEOUT microseconds without it the poll gives up
      with -ETIMEDOUT. Every pass before the last found time left: the
      timer read that ends a pass is the tick just before the next pass
      begins. */
  method StopPoll(h: Hw, t: nat, ts: nat) returns (r: Step, seen: nat)
    requires Monotone(h)
    ensures t <= seen < r.tick
    ensures seen > t ==> h.clock(seen - 1) <= ts + NACK_TIMEOUT
    ensures Plain(r.ev)
    ensures r.code == NEG_ETIMEDOUT ==>
      h.load(seen, MSR) & MSR_SDF == 0 && h.clock(r.tick - 1) > ts + NACK_TIMEOUT
    ensures r.code != NEG_ETIMEDOUT ==>
      h.load(seen, MSR) & MSR_SDF != 0 && r.code == ErrorCode(h.load(seen + 1, MSR))
      && SdfClearedLast(r.ev)
  {
    var ev: seq<Event> := [];
    var u := t;
    while true
      invariant t <= u && Plain(ev)
      invariant u > t ==> h.clock(u - 1) <= ts + NACK_TIMEOUT
      decreases Left(h, u, ts, NACK_TIMEOUT)
    {
      var p, done := StopPass(h, u, ts);
      PlainJoin(ev, p.ev);
      if done {
        if p.code != NEG_ETIMEDOUT {
          SdfClearedAfter(ev, p.ev);
        }
        return Step(p.code, p.tick, ev + p.ev), u;
      }
      LeftDrops(h, u, p.tick - 1, p.tick, ts, NACK_TIMEOUT);
      ev := ev + p.ev;
      u := p.tick;
    }
  }

  /** A pass that began at tick u and read the timer within budget at
      tick v leaves less time to the pass beginning at w > v. */
  lemma LeftDrops(h: Hw, u: nat, v: nat, w: nat, ts: nat, budget: nat)
    requires Monotone(h) && u < v < w && h.clock(v) <= ts + budget
    ensures Left(h, w, ts, budget) < Left(h, u, ts, budget)
  {
    Later(h, u, v);
    Later(h, u, w);
  }

  /** The stop-detect flag is a single bit: masking a word that has it
      leaves the flag alone. */
  lemma SdfOnly(status: bv32)
    requires status & MSR_SDF != 0
    ensures status & MSR_SDF == MSR_SDF
  {
  }

  /** What the hardware says of a stop from tick t whose wait ended at tick
      q and whose poll last read MSR at tick `seen`: when the stop command
      was not queued the wait failed; otherwise the wait found room and the
      poll, timed against the timer read at q just after the command was
      queued, found time left at every pass before `seen`. It then either
      gave up past NACK_TIMEOUT microseconds with the flag clear at `seen`,
      or saw the flag there and returns the error decoded in that pass. */
  predicate StopEnded(h: Hw, t: nat, q: nat, seen: nat, r: Step)
  {
    && (Queued(r.ev) == [] ==> FailedAt(h, h.clock(t), r))
    && (Queued(r.ev) == [STOP_CMD] ==>
          && TxReady(h, t, q) && q < seen < r.tick
          && (seen > q + 1 ==> h.clock(seen - 1) <= h.clock(q) + NACK_TIMEOUT)
          && (r.code == NEG_ETIMEDOUT ==>
                h.load(seen, MSR) & MSR_SDF == 0 && h.clock(r.tick - 1) > h.clock(q) + NACK_TIMEOUT)
          && (r.code != NEG_ETIMEDOUT ==>
                h.load(seen, MSR) & MSR_SDF != 0 && r.code == ErrorCode(h.load(seen + 1, MSR))))
  }

  /** bus_i2c_stop: once the TX FIFO has room the stop command is queued and
      the stop-detect flag polled (StopPoll); a failed wait returns its code
      before anything is queued. Stop is entered once and nothing is
      stored. It times out only once the timer, read after the stop
      command was queued, is more than NACK_TIMEOUT microseconds past the
      one read on entry. The wait ends at tick q and the poll last reads
      MSR at tick `seen` (StopEnded). */
  method Stop(h: Hw, t: nat) returns (r: Step, ghost q: nat, ghost seen: nat)
    requires Monotone(h)
    ensures r.tick > t
    ensures r.code == NEG_ETIMEDOUT ==> h.clock(r.tick - 1) > h.clock(t) + NACK_TIMEOUT
    ensures Stored(r.ev) == [] && Routines(r.ev) == [StopRoutine]
    ensures Queued(r.ev) == [] || Queued(r.ev) == [STOP_CMD]
    ensures Queued(r.ev) == [] ==> WaitFailure(r.code)
    ensures Queued(r.ev) == [STOP_CMD] ==> r.code == SUCCESS || IsError(r.code) || r.code == NEG_ETIMEDOUT
    ensures Queued(r.ev) == [STOP_CMD] && r.code != NEG_ETIMEDOUT ==> r.ev[|r.ev| - 1] == Wr(MSR, MSR_SDF)
    ensures StopEnded(h, t, q, seen, r)
  {
    var w := AwaitTx(h, t);
    q, seen := w.tick, w.tick + 1;
    if w.code != SUCCESS {
      EnterPlain(StopRoutine, w.ev);
      FailedWith(h, h.clock(t), w, [Begin(StopRoutine)] + w.ev);
      return Step(w.code, w.tick, [Begin(StopRoutine)] + w.ev), q, seen;
    }
    var p;
    p, seen := StopPoll(h, w.tick + 1, h.clock(w.tick));
    Later(h, t, w.tick);
    if p.code != NEG_ETIMEDOUT {
      ErrorCodeCases(h.load(seen + 1, MSR));
      SdfClearedAfter([Begin(StopRoutine), Wr(MTDR, STOP_CMD)], p.ev);
    }
    StopTrace(p.ev);
    return Step(p.code, p.tick, [Begin(StopRoutine), Wr(MTDR, STOP_CMD)] + p.ev), q, seen;
  }

  /** Entering stop, queueing the stop command, then plain traffic. */
  lemma StopTrace(rest: seq<Event>)
    requires Plain(rest)
    ensures Queued([Begin(StopRoutine), Wr(MTDR, STOP_CMD)] + rest) == [STOP_CMD]
    ensures Stored([Begin(StopRoutine), Wr(MTDR, STOP_CMD)] + rest) == []
    ensures Routines([Begin(StopRoutine), Wr(MTDR, STOP_CMD)] + rest) == [StopRoutine]
  {
    var b, w := Begin(StopRoutine), Wr(MTDR, STOP_CMD);
    assert [b, w][1..] == [w];
    QueueOne(STOP_CMD);
    AppendPlain([b, w], rest);
  }

  /** The last event of `ev` clears the stop-detect flag. */
  predicate SdfClearedLast(ev: seq<Event>)
  {
    |ev| >= 1 && ev[|ev| - 1] == Wr(MSR, MSR_SDF)
  }

  /** Events put in front keep the stop-detect clear last. */
  lemma SdfClearedAfter(a: seq<Event>, rest: seq<Event>)
    requires SdfClearedLast(rest)
    ensures SdfClearedLast(a + rest)
  {
  }

  /** The MTDR words of a read of `len` bytes from `chip`: the start word
      for the chip's low byte with the read bit, then the receive command
      unless the read is empty. */
  function ReadWords(chip: bv32, len: nat): seq<bv32>
    requires len <= INT_MAX
  {
    [StartWord(LowByte(chip), 1)] + (if len == 0 then [] else [RecvCmd(len)])
  }

  /** The MTDR words of a write of `data` to `chip`: the start word with the
      write bit, then the bytes. */
  function WriteWords(chip: bv32, data: seq<u8>): seq<bv32>
  {
    [StartWord(LowByte(chip), 0)] + Bytes(data)
  }

  /** The ticks at which a read or write touched the oracle: `held`, the
      MSR read of the start's last busy check; `timer`, the timer read a
      failure is timed against; `begun`, the end of the start's wait, where
      a read's receive reads its timer; `from` and `at`, where the byte
      polls of a read began and where each of them ended. */
  datatype Mark = Mark(held: nat, timer: nat, begun: nat, from: nat, at: seq<nat>)

  /** What the hardware says of a read (or write) from tick t that ended
      with r, at the ticks of mk: it is BUSY exactly when the start found
      the bus held at t and at `held`; any other failure is that of the wait
      or poll whose timer was read at `timer`; once the start word is queued
      the start's wait ended at `begun` with room in the FIFO; the bytes
      stored are those of the byte polls that began at `from`, timed
      against the timer read at `begun`, and ended at the ticks `at`; and a
      read that queued its receive command did so once the receive's own
      wait ended at `from` with room. A write stores nothing. */
  predicate OnBus(h: Hw, read: bool, t: nat, r: Step, mk: Mark)
  {
    && t <= mk.held < r.tick && (!Stuck(h.load(t, MSR)) ==> mk.held == t)
    && (r.code == BUSY <==> Stuck(h.load(t, MSR)) && Stuck(h.load(mk.held, MSR)))
    && (r.code != SUCCESS && r.code != BUSY ==>
          mk.held < mk.timer < r.tick && FailedAt(h, h.clock(mk.timer), r))
    && (Queued(r.ev) != [] ==> TxReady(h, mk.held + 2, mk.begun))
    && mk.held < mk.begun < mk.from
    && ByteTicks(h, mk.from, h.clock(mk.begun), mk.at) && Stored(r.ev) == RxData(h, mk.at)
    && (!read ==> mk.at == [])
    && (read && |Queued(r.ev)| == 2 ==> TxReady(h, mk.begun + 1, mk.from))
  }

  /** bus_i2c_read: a start with the read bit for the low byte of the chip
      address, then a receive of `len` bytes. It succeeds exactly when the
      start word and receive command were queued and all `len` bytes
      stored; whatever else happens, what was queued is a prefix of that.
      Its codes and the bytes it stores are as the hardware says, at the
      ticks of mk (OnBus). */
  method BusRead(h: Hw, t: nat, chip: bv32, len: nat) returns (r: Step, ghost mk: Mark)
    requires Monotone(h) && len <= INT_MAX
    ensures r.tick > t
    ensures OnBus(h, true, t, r, mk)
    ensures Routines(r.ev) == if Stuck(h.load(t, MSR)) then [InitRoutine] else []
    ensures Queued(r.ev) <= ReadWords(chip, len) && |Stored(r.ev)| <= len
    ensures r.code == SUCCESS <==> Queued(r.ev) == ReadWords(chip, len) && |Stored(r.ev)| == len
  {
    var s, k := Start(h, t, LowByte(chip), 1);
    if s.code != SUCCESS {
      StartFailedOnBus(h, true, t, k, s);
      return s, Mark(k, k + 2, k + 1, k + 2, []);
    }
    r, mk := ReadRest(h, t, chip, len, k, s);
  }

  /** The part of bus_i2c_read after a start s that succeeded, with its
      last busy check at tick k: the receive, and what the read as a whole
      then promises. */
  method ReadRest(h: Hw, t: nat, chip: bv32, len: nat, ghost k: nat, s: Step) returns (r: Step, ghost mk: Mark)
    requires Monotone(h) && len <= INT_MAX
    requires Started(h, t, k, s) && s.code == SUCCESS
    requires Stored(s.ev) == [] && Queued(s.ev) == [StartWord(LowByte(chip), 1)]
    requires Routines(s.ev) == if Stuck(h.load(t, MSR)) then [InitRoutine] else []
    ensures r.tick > t
    ensures OnBus(h, true, t, r, mk)
    ensures Routines(r.ev) == if Stuck(h.load(t, MSR)) then [InitRoutine] else []
    ensures Queued(r.ev) <= ReadWords(chip, len) && |Stored(r.ev)| <= len
    ensures r.code == SUCCESS <==> Queued(r.ev) == ReadWords(chip, len) && |Stored(r.ev)| == len
  {
    var c, w, from, at := ReadTail(h, s.tick, len);
    r := Step(c.code, c.tick, s.ev + c.ev);
    ReadJoin(h, t, chip, len, k, s, c, w, from, at, r);
    mk := Mark(k, w, s.tick, from, at);
  }

  /** A read whose start s succeeded, followed by the receive c: together
      they keep the promises of BusRead. */
  lemma ReadJoin(h: Hw, t: nat, chip: bv32, len: nat, k: nat, s: Step, c: Step, w: nat, from: nat, at: seq<nat>, r: Step)
    requires len <= INT_MAX
    requires Started(h, t, k, s) && s.code == SUCCESS
    requires Stored(s.ev) == [] && Queued(s.ev) == [StartWord(LowByte(chip), 1)]
    requires Routines(s.ev) == if Stuck(h.load(t, MSR)) then [InitRoutine] else []
    requires c.tick > s.tick && Routines(c.ev) == []
    requires Queued(c.ev) <= (if len == 0 then [] else [RecvCmd(len)]) && |Stored(c.ev)| <= len
    requires c.code == SUCCESS <==> Queued(c.ev) == (if len == 0 then [] else [RecvCmd(len)]) && |Stored(c.ev)| == len
    requires c.code != SUCCESS ==> WaitFailure(c.code) && s.tick <= w < c.tick && FailedAt(h, h.clock(w), c)
    requires s.tick < from && ByteTicks(h, from, h.clock(s.tick), at) && Stored(c.ev) == RxData(h, at)
    requires Queued(c.ev) != [] ==> TxReady(h, s.tick + 1, from)
    requires r == Step(c.code, c.tick, s.ev + c.ev)
    ensures r.tick > t
    ensures OnBus(h, true, t, r, Mark(k, w, s.tick, from, at))
    ensures Routines(r.ev) == if Stuck(h.load(t, MSR)) then [InitRoutine] else []
    ensures Queued(r.ev) <= ReadWords(chip, len) && |Stored(r.ev)| <= len
    ensures r.code == SUCCESS <==> Queued(r.ev) == ReadWords(chip, len) && |Stored(r.ev)| == len
  {
    AfterStart(s.ev, c.ev, StartWord(LowByte(chip), 1), if len == 0 then [] else [RecvCmd(len)]);
    if c.code != SUCCESS {
      FailedWith(h, h.clock(w), c, r.ev);
    }
    OnBusAfterStart(h, true, t, k, s, r, w, from, at);
  }

  /** A read or write whose start s failed stops there: OnBus holds of s
      with the start's own ticks. */
  lemma StartFailedOnBus(h: Hw, read: bool, t: nat, k: nat, s: Step)
    requires Started(h, t, k, s) && s.code != SUCCESS
    requires Queued(s.ev) == [] && Stored(s.ev) == []
    ensures OnBus(h, read, t, s, Mark(k, k + 2, k + 1, k + 2, []))
  {
  }

  /** A read or write whose start s succeeded and which ended with r: OnBus
      holds of r once the traffic after the start kept to the hardware, with
      a failure timed against the timer read at w and the bytes stored by
      the polls from `from` that ended at the ticks `at`. */
  lemma OnBusAfterStart(h: Hw, read: bool, t: nat, k: nat, s: Step, r: Step, w: nat, from: nat, at: seq<nat>)
    requires Started(h, t, k, s) && s.code == SUCCESS && Queued(r.ev) != [] && r.tick >= s.tick
    requires r.code == SUCCESS || WaitFailure(r.code)
    requires r.code != SUCCESS ==> s.tick <= w < r.tick && FailedAt(h, h.clock(w), r)
    requires s.tick < from && ByteTicks(h, from, h.clock(s.tick), at) && Stored(r.ev) == RxData(h, at)
    requires !read ==> at == []
    requires read && |Queued(r.ev)| == 2 ==> TxReady(h, s.tick + 1, from)
    ensures OnBus(h, read, t, r, Mark(k, w, s.tick, from, at))
  {
    BusyFromStart(h, t, k, s, r.code);
  }

  /** A transfer whose start s succeeded and which then failed, if at all,
      in a wait or poll is BUSY exactly when the start would have been. */
  lemma BusyFromStart(h: Hw, t: nat, k: nat, s: Step, code: bv32)
    requires Started(h, t, k, s) && s.code == SUCCESS
    requires code == SUCCESS || WaitFailure(code)
    ensures code == BUSY <==> Stuck(h.load(t, MSR)) && Stuck(h.load(k, MSR))
  {
  }

  /** The receive of bus_i2c_read, from tick u, as the read sees it: it
      queues a prefix of the receive command, all of it and all `len`
      bytes exactly when it succeeds, and a failure is that of the wait or
      byte poll whose timer was read at tick w. The bytes stored are those
      of the polls from tick `from`, where the wait ended, timed against the
      timer read at u, that ended at the ticks `at`. */
  method ReadTail(h: Hw, u: nat, len: nat) returns (r: Step, ghost w: nat, ghost from: nat, ghost at: seq<nat>)
    requires Monotone(h) && len <= INT_MAX
    ensures r.tick > u && Routines(r.ev) == []
    ensures Queued(r.ev) <= (if len == 0 then [] else [RecvCmd(len)]) && |Stored(r.ev)| <= len
    ensures r.code == SUCCESS <==> Queued(r.ev) == (if len == 0 then [] else [RecvCmd(len)]) && |Stored(r.ev)| == len
    ensures r.code != SUCCESS ==> WaitFailure(r.code) && u <= w < r.tick && FailedAt(h, h.clock(w), r)
    ensures u < from && ByteTicks(h, from, h.clock(u), at) && Stored(r.ev) == RxData(h, at)
    ensures Queued(r.ev) != [] ==> TxReady(h, u + 1, from)
  {
    var c, f, a := Receive(h, u, len);
    w := if Queued(c.ev) == [] then u + 1 else u;
    return c, w, f, a;
  }

  /** bus_i2c_write: a start with the write bit for the low byte of the chip
      address, then a send of `data`. It succeeds exactly when the start
      word and every byte were queued; whatever else happens, what was
      queued is a prefix of that, and nothing is stored. Its codes are as
      the hardware says, at the ticks of mk (OnBus). */
  method BusWrite(h: Hw, t: nat, chip: bv32, data: seq<u8>) returns (r: Step, ghost mk: Mark)
    requires Monotone(h)
    ensures r.tick > t
    ensures OnBus(h, false, t, r, mk)
    ensures Routines(r.ev) == if Stuck(h.load(t, MSR)) then [InitRoutine] else []
    ensures Stored(r.ev) == [] && Queued(r.ev) <= WriteWords(chip, data)
    ensures r.code == SUCCESS <==> Queued(r.ev) == WriteWords(chip, data)
  {
    var s, k := Start(h, t, LowByte(chip), 0);
    if s.code != SUCCESS {
      StartFailedOnBus(h, false, t, k, s);
      return s, Mark(k, k + 2, k + 1, k + 2, []);
    }
    var d, w := Send(h, s.tick, data);
    r := Step(d.code, d.tick, s.ev + d.ev);
    WriteJoin(h, t, chip, data, k, s, d, w, r);
    mk := Mark(k, w, s.tick, s.tick + 1, []);
  }

  /** A write whose start s succeeded, followed by the send d: together
      they keep the promises of BusWrite. */
  lemma WriteJoin(h: Hw, t: nat, chip: bv32, data: seq<u8>, k: nat, s: Step, d: Step, w: nat, r: Step)
    requires Started(h, t, k, s) && s.code == SUCCESS
    requires Stored(s.ev) == [] && Queued(s.ev) == [StartWord(LowByte(chip), 0)]
    requires Routines(s.ev) == if Stuck(h.load(t, MSR)) then [InitRoutine] else []
    requires d.tick >= s.tick && Stored(d.ev) == [] && Routines(d.ev) == []
    requires Queued(d.ev) <= Bytes(data)
    requires d.code == SUCCESS <==> Queued(d.ev) == Bytes(data)
    requires d.code != SUCCESS ==> WaitFailure(d.code)
    requires d.code != SUCCESS ==> s.tick <= w && w + 4 <= d.tick && FailedAt(h, h.clock(w), d)
    requires r == Step(d.code, d.tick, s.ev + d.ev)
    ensures r.tick > t
    ensures OnBus(h, false, t, r, Mark(k, w, s.tick, s.tick + 1, []))
    ensures Routines(r.ev) == if Stuck(h.load(t, MSR)) then [InitRoutine] else []
    ensures Stored(r.ev) == [] && Queued(r.ev) <= WriteWords(chip, data)
    ensures r.code == SUCCESS <==> Queued(r.ev) == WriteWords(chip, data)
  {
    AfterStart(s.ev, d.ev, StartWord(LowByte(chip), 0), Bytes(data));
    if d.code != SUCCESS {
      FailedWith(h, h.clock(w), d, r.ev);
    }
    OnBusAfterStart(h, false, t, k, s, r, w, s.tick + 1, []);
  }

  /** A start that queued word w, followed by traffic that queued a prefix
      of `rest` and entered no routine: together they queued a prefix of
      w and `rest`, all of it exactly when the traffic queued all of
      `rest`. */
  lemma AfterStart(pre: seq<Event>, ev: seq<Event>, w: bv32, rest: seq<bv32>)
    requires Queued(pre) == [w] && Stored(pre) == [] && Routines(ev) == []
    requires Queued(ev) <= rest
    ensures Queued(pre + ev) == [w] + Queued(ev) && Queued(pre + ev) <= [w] + rest
    ensures Queued(pre + ev) == [w] + rest <==> Queued(ev) == rest
    ensures Stored(pre + ev) == Stored(ev) && Routines(pre + ev) == Routines(pre)
  {
    TraceAppend(pre, ev);
    if Queued(pre + ev) == [w] + rest {
      assert Queued(ev) == ([w] + Queued(ev))[1..];
    }
  }

  /** The MTDR words a message queues when it succeeds. */
  function MsgWords(m: Msg): seq<bv32>
    requires m.len <= INT_MAX
  {
    if m.IsRead() then ReadWords(m.addr as bv32, m.len) else WriteWords(m.addr as bv32, m.buf)
  }

  /** The bytes a message stores when it succeeds. */
  function Wanted(m: Msg): nat
  {
    if m.IsRead() then m.len else 0
  }

  /** A message's run in a transfer: the tick it started at and its Step. */
  datatype Run = Run(from: nat, step: Step)

  /** What a message of lpi2c_xfer promises of its run's trace, by its
      direction: the queued, stored and entered parts of the contracts of
      bus_i2c_read and bus_i2c_write. What the hardware says of its code is
      OnBus. */
  predicate MsgDone(h: Hw, m: Msg, x: Run)
  {
    && m.len <= INT_MAX
    && x.step.tick > x.from
    && Routines(x.step.ev) == (if Stuck(h.load(x.from, MSR)) then [InitRoutine] else [])
    && Queued(x.step.ev) <= MsgWords(m) && |Stored(x.step.ev)| <= Wanted(m)
    && (x.step.code == SUCCESS <==> Queued(x.step.ev) == MsgWords(m) && |Stored(x.step.ev)| == Wanted(m))
  }

  /** Each run starts where the one before it ended, the first at t. */
  predicate Chained(t: nat, runs: seq<Run>)
  {
    && (|runs| > 0 ==> runs[0].from == t)
    && (forall k :: 0 < k < |runs| ==> runs[k].from == runs[k - 1].step.tick)
  }

  /** The tick after the last run, t when there is none. */
  function EndOf(t: nat, runs: seq<Run>): nat
  {
    if |runs| == 0 then t else runs[|runs| - 1].step.tick
  }

  /** The events of the runs, in order. */
  function Concat(runs: seq<Run>): seq<Event>
  {
    if |runs| == 0 then [] else runs[0].step.ev + Concat(runs[1..])
  }

  /** The return code of the last run, 0 when there is none. */
  function LastCode(runs: seq<Run>): bv32
  {
    if |runs| == 0 then SUCCESS else runs[|runs| - 1].step.code
  }

  /** A run of a write message that failed: the runs after which
      lpi2c_xfer's loop ends early. */
  predicate FailedWrite(m: Msg, x: Run)
  {
    !m.IsRead() && x.step.code != SUCCESS
  }

  /** The loop of lpi2c_xfer ran exactly the messages of `runs`: no run
      before the last was a failed write, and the loop stopped short of the
      end only after one. A failed read does not stop it. */
  predicate RanUntilWriteFailed(msgs: seq<Msg>, runs: seq<Run>)
  {
    && |runs| <= |msgs|
    && (forall k :: 0 <= k < |runs| - 1 ==> !FailedWrite(msgs[k], runs[k]))
    && (|runs| < |msgs| ==> |runs| > 0 && FailedWrite(msgs[|runs| - 1], runs[|runs| - 1]))
  }

  /** What Stop promises of its Step, tick aside. */
  predicate Stopped(s: Step)
  {
    && Stored(s.ev) == [] && Routines(s.ev) == [StopRoutine]
    && (Queued(s.ev) == [] || Queued(s.ev) == [STOP_CMD])
    && (Queued(s.ev) == [] ==> WaitFailure(s.code))
    && (Queued(s.ev) == [STOP_CMD] ==> s.code == SUCCESS || IsError(s.code) || s.code == NEG_ETIMEDOUT)
  }

  /** Every message names at most INT_MAX bytes and a write carries its
      bytes. */
  predicate Sendable(msgs: seq<Msg>)
  {
    forall k :: 0 <= k < |msgs| ==> msgs[k].WellFormed() && msgs[k].len <= INT_MAX
  }

  /** lpi2c_xfer: the messages in order, each a bus_i2c_read or a
      bus_i2c_write by its direction; a failed write ends the loop, a failed
      read does not. A stop always follows. The result is the last message's
      code ORed with the stop's code, so it is 0 exactly when both are; an
      earlier failed read does not show in it. Each run's code and bytes are
      as the hardware says at the ticks of its Mark, and so is the stop's
      code, for its wait ending at tick q and its poll last reading MSR at
      tick `seen`. */
  method Xfer(h: Hw, t: nat, msgs: seq<Msg>)
    returns (r: Step, runs: seq<Run>, stop: Step, ghost marks: seq<Mark>, ghost q: nat, ghost seen: nat)
    requires Monotone(h) && Sendable(msgs)
    ensures RanUntilWriteFailed(msgs, runs) && (|msgs| > 0 ==> |runs| > 0)
    ensures Chained(t, runs) && forall k :: 0 <= k < |runs| ==> MsgDone(h, msgs[k], runs[k])
    ensures Marked(h, msgs, runs, marks)
    ensures Stopped(stop) && stop.tick > EndOf(t, runs)
    ensures StopEnded(h, EndOf(t, runs), q, seen, stop)
    ensures r == Step(LastCode(runs) | stop.code, stop.tick, Concat(runs) + stop.ev)
    ensures r.code == SUCCESS <==> LastCode(runs) == SUCCESS && stop.code == SUCCESS
  {
    runs, marks := XferMessages(h, t, msgs);
    stop, q, seen := Stop(h, EndOf(t, runs));
    OrZero(LastCode(runs), stop.code);
    r := Step(LastCode(runs) | stop.code, stop.tick, Concat(runs) + stop.ev);
  }

  /** Each run of the messages is as the hardware says at the ticks of its
      Mark (OnBus), by the message's direction. */
  predicate Marked(h: Hw, msgs: seq<Msg>, runs: seq<Run>, marks: seq<Mark>)
  {
    && |runs| <= |msgs| && |marks| == |runs|
    && forall k :: 0 <= k < |runs| ==> OnBus(h, msgs[k].IsRead(), runs[k].from, runs[k].step, marks[k])
  }

  /** Marked runs and one more run with its Mark. */
  lemma MarkedAppend(h: Hw, msgs: seq<Msg>, runs: seq<Run>, marks: seq<Mark>, x: Run, mk: Mark)
    requires Marked(h, msgs, runs, marks) && |runs| < |msgs|
    requires OnBus(h, msgs[|runs|].IsRead(), x.from, x.step, mk)
    ensures Marked(h, msgs, runs + [x], marks + [mk])
  {
    forall k | 0 <= k < |runs| + 1
      ensures OnBus(h, msgs[k].IsRead(), (runs + [x])[k].from, (runs + [x])[k].step, (marks + [mk])[k])
    {
      if k < |runs| {
        assert (runs + [x])[k] == runs[k] && (marks + [mk])[k] == marks[k];
      }
    }
  }

  /** The message loop of lpi2c_xfer, from tick t. */
  method XferMessages(h: Hw, t: nat, msgs: seq<Msg>) returns (runs: seq<Run>, ghost marks: seq<Mark>)
    requires Monotone(h) && Sendable(msgs)
    ensures RanUntilWriteFailed(msgs, runs) && (|msgs| > 0 ==> |runs| > 0)
    ensures Chained(t, runs) && forall k :: 0 <= k < |runs| ==> MsgDone(h, msgs[k], runs[k])
    ensures Marked(h, msgs, runs, marks)
  {
    runs, marks := [], [];
    var u := t;
    while |runs| < |msgs| && (|runs| == 0 || !FailedWrite(msgs[|runs| - 1], runs[|runs| - 1]))
      invariant |runs| <= |msgs| && u == EndOf(t, runs) && Chained(t, runs)
      invariant forall k :: 0 <= k < |runs| ==> MsgDone(h, msgs[k], runs[k])
      invariant forall k :: 0 <= k < |runs| - 1 ==> !FailedWrite(msgs[k], runs[k])
      invariant Marked(h, msgs, runs, marks)
      decreases |msgs| - |runs|
    {
      var s, mk := RunMsg(h, u, msgs[|runs|]);
      RunsExtend(h, t, msgs, runs, Run(u, s));
      MarkedAppend(h, msgs, runs, marks, Run(u, s), mk);
      runs, marks := runs + [Run(u, s)], marks + [mk];
      u := s.tick;
    }
    XferExit(msgs, runs);
  }

  /** Where the loop of lpi2c_xfer ends. */
  lemma XferExit(msgs: seq<Msg>, runs: seq<Run>)
    requires |runs| <= |msgs| && forall k :: 0 <= k < |runs| - 1 ==> !FailedWrite(msgs[k], runs[k])
    requires !(|runs| < |msgs| && (|runs| == 0 || !FailedWrite(msgs[|runs| - 1], runs[|runs| - 1])))
    ensures RanUntilWriteFailed(msgs, runs) && (|msgs| > 0 ==> |runs| > 0)
  {
  }

  /** One message of lpi2c_xfer: bus_i2c_read or bus_i2c_write by its
      direction, for its address and length, as the hardware says at the
      ticks of mk. */
  method RunMsg(h: Hw, t: nat, m: Msg) returns (s: Step, ghost mk: Mark)
    requires Monotone(h) && m.WellFormed() && m.len <= INT_MAX
    ensures MsgDone(h, m, Run(t, s))
    ensures OnBus(h, m.IsRead(), t, s, mk)
  {
    if m.IsRead() {
      s, mk := BusRead(h, t, m.addr as bv32, m.len);
    } else {
      s, mk := BusWrite(h, t, m.addr as bv32, m.buf);
    }
  }

  /** A message's run added after those before it, started where they
      ended. */
  lemma RunsExtend(h: Hw, t: nat, msgs: seq<Msg>, runs: seq<Run>, x: Run)
    requires |runs| < |msgs| && Chained(t, runs) && x.from == EndOf(t, runs)
    requires forall k :: 0 <= k < |runs| ==> MsgDone(h, msgs[k], runs[k])
    requires forall k :: 0 <= k < |runs| - 1 ==> !FailedWrite(msgs[k], runs[k])
    requires |runs| > 0 ==> !FailedWrite(msgs[|runs| - 1], runs[|runs| - 1])
    requires MsgDone(h, msgs[|runs|], x)
    ensures Chained(t, runs + [x]) && EndOf(t, runs + [x]) == x.step.tick
    ensures forall k :: 0 <= k < |runs| + 1 ==> MsgDone(h, msgs[k], (runs + [x])[k])
    ensures forall k :: 0 <= k < |runs| ==> !FailedWrite(msgs[k], (runs + [x])[k])
  {
    ChainAppend(t, runs, x);
    DoneAppend(h, msgs[..|runs| + 1], runs, x);
    assert forall k :: 0 <= k < |runs| + 1 ==> msgs[..|runs| + 1][k] == msgs[k];
    PrefixAppend(runs, x);
  }

  /** A run started where the chain ended extends the chain. */
  lemma ChainAppend(t: nat, runs: seq<Run>, x: Run)
    requires Chained(t, runs) && x.from == EndOf(t, runs)
    ensures Chained(t, runs + [x]) && EndOf(t, runs + [x]) == x.step.tick
  {
    var all := runs + [x];
    forall k | 0 < k < |all|
      ensures all[k].from == all[k - 1].step.tick
    {
      if k < |runs| {
        assert all[k] == runs[k] && all[k - 1] == runs[k - 1];
      }
    }
  }

  /** Runs that each did their message, and one more that did the next. */
  lemma DoneAppend(h: Hw, msgs: seq<Msg>, runs: seq<Run>, x: Run)
    requires |msgs| == |runs| + 1
    requires forall k :: 0 <= k < |runs| ==> MsgDone(h, msgs[k], runs[k])
    requires MsgDone(h, msgs[|runs|], x)
    ensures forall k :: 0 <= k < |msgs| ==> MsgDone(h, msgs[k], (runs + [x])[k])
  {
    forall k | 0 <= k < |msgs|
      ensures MsgDone(h, msgs[k], (runs + [x])[k])
    {
      if k < |runs| {
        assert (runs + [x])[k] == runs[k];
      }
    }
  }

  /** Appending leaves the earlier runs in place. */
  lemma PrefixAppend(runs: seq<Run>, x: Run)
    ensures forall k :: 0 <= k < |runs| ==> (runs + [x])[k] == runs[k]
  {
  }

  /** The MTDR words of the messages when each succeeds, in order. */
  function Words(msgs: seq<Msg>): seq<bv32>
    requires Sendable(msgs)
  {
    if |msgs| == 0 then [] else MsgWords(msgs[0]) + Words(msgs[1..])
  }

  /** The bytes the read messages ask for, in all. */
  function ReadTotal(msgs: seq<Msg>): nat
  {
    if |msgs| == 0 then 0 else Wanted(msgs[0]) + ReadTotal(msgs[1..])
  }

  /** The init entries of the runs: one for each run whose start found the
      bus held by another master. */
  function Recovered(h: Hw, runs: seq<Run>): seq<Routine>
  {
    if |runs| == 0 then []
    else (if Stuck(h.load(runs[0].from, MSR)) then [InitRoutine] else []) + Recovered(h, runs[1..])
  }

  /** Runs that all succeeded queued the words of every message in order and
      stored as many bytes as the reads asked for. */
  lemma {:induction false} RunsComplete(h: Hw, msgs: seq<Msg>, runs: seq<Run>)
    requires |runs| == |msgs| && Sendable(msgs)
    requires forall k :: 0 <= k < |runs| ==> MsgDone(h, msgs[k], runs[k]) && runs[k].step.code == SUCCESS
    ensures Queued(Concat(runs)) == Words(msgs) && |Stored(Concat(runs))| == ReadTotal(msgs)
  {
    if |runs| > 0 {
      assert MsgDone(h, msgs[0], runs[0]);
      RunsComplete(h, msgs[1..], runs[1..]);
      TraceAppend(runs[0].step.ev, Concat(runs[1..]));
    }
  }

  /** Each run enters init once if its start found the bus held, and no
      run enters stop. */
  lemma {:induction false} RunsRoutines(h: Hw, msgs: seq<Msg>, runs: seq<Run>)
    requires |runs| <= |msgs|
    requires forall k :: 0 <= k < |runs| ==> MsgDone(h, msgs[k], runs[k])
    ensures Routines(Concat(runs)) == Recovered(h, runs)
  {
    if |runs| > 0 {
      assert MsgDone(h, msgs[0], runs[0]);
      RunsRoutines(h, msgs[1..], runs[1..]);
      TraceAppend(runs[0].step.ev, Concat(runs[1..]));
    }
  }

  /** What a transfer did, read off its trace. Stop is entered exactly
      once, after everything else, and init once for each message whose
      start found the bus held. When every message and the stop
      succeeded, the words of all messages reached MTDR in order followed
      by the stop command, and every byte asked for was stored. */
  lemma XferTrace(h: Hw, t: nat, msgs: seq<Msg>, runs: seq<Run>, stop: Step)
    requires Sendable(msgs) && RanUntilWriteFailed(msgs, runs)
    requires forall k :: 0 <= k < |runs| ==> MsgDone(h, msgs[k], runs[k])
    requires Stopped(stop)
    ensures Routines(Concat(runs) + stop.ev) == Recovered(h, runs) + [StopRoutine]
    ensures (forall k :: 0 <= k < |runs| ==> runs[k].step.code == SUCCESS) && stop.code == SUCCESS ==>
      |runs| == |msgs|
      && Queued(Concat(runs) + stop.ev) == Words(msgs) + [STOP_CMD]
      && |Stored(Concat(runs) + stop.ev)| == ReadTotal(msgs)
  {
    RunsRoutines(h, msgs, runs);
    TraceAppend(Concat(runs), stop.ev);
    if (forall k :: 0 <= k < |runs| ==> runs[k].step.code == SUCCESS) && stop.code == SUCCESS {
      assert |runs| > 0 ==> !FailedWrite(msgs[|runs| - 1], runs[|runs| - 1]);
      RunsComplete(h, msgs, runs);
    }
  }

  /** Two return codes ORed give 0 exactly when both are 0. */
  lemma OrZero(a: bv32, b: bv32)
    ensures a | b == 0 <==> a == 0 && b == 0
  {
  }

  /** bus_i2c_start for writing, then bus_i2c_stop: when the start fails the
      stop still runs and the controller is reinitialised, and the start's
      code is returned; otherwise the stop's code is, with a reinitialisation
      when it is not 0. So init runs after the stop exactly when the probe
      fails, and a probe that succeeds queued the start word and the stop
      command. The start's Step is s, its last busy check at tick k, and
      the stop's Step is p, its wait ending at tick q and its poll last
      reading MSR at tick `seen`. */
  method Probe(h: Hw, t: nat, chip: bv32)
    returns (r: Step, ghost s: Step, ghost k: nat, ghost p: Step, ghost q: nat, ghost seen: nat)
    requires Monotone(h)
    ensures Started(h, t, k, s) && Stopped(p) && StopEnded(h, s.tick, q, seen, p)
    ensures t < s.tick < p.tick <= r.tick
    ensures r.code == if s.code != SUCCESS then s.code else p.code
    ensures r.tick > t && Stored(r.ev) == []
    ensures Routines(r.ev) ==
      (if Stuck(h.load(t, MSR)) then [InitRoutine] else []) + [StopRoutine]
      + (if r.code == SUCCESS then [] else [InitRoutine])
    ensures r.code == SUCCESS ==> Queued(r.ev) == [StartWord(LowByte(chip), 0), STOP_CMD]
    ensures r.code == BUSY ==> Stuck(h.load(t, MSR))
  {
    var st, sk := Start(h, t, LowByte(chip), 0);
    var sp, sq, sseen := Stop(h, st.tick);
    s, k, p, q, seen := st, sk, sp, sq, sseen;
    r := ProbeEnd(h, st, sp, StartWord(LowByte(chip), 0), if Stuck(h.load(t, MSR)) then [InitRoutine] else []);
  }

  /** The end of a probe after its start s, which queued the word w when it
      succeeded and entered the routines `pre`, and its stop p: the code is
      the start's when the start failed and the stop's otherwise, and the
      controller is reinitialised when that code is not 0. */
  method ProbeEnd(h: Hw, s: Step, p: Step, w: bv32, pre: seq<Routine>) returns (r: Step)
    requires Stored(s.ev) == [] && Routines(s.ev) == pre
    requires Queued(s.ev) == if s.code == SUCCESS then [w] else []
    requires Stopped(p)
    ensures r.tick >= p.tick && Stored(r.ev) == []
    ensures r.code == if s.code != SUCCESS then s.code else p.code
    ensures r.code == BUSY ==> s.code == BUSY
    ensures Routines(r.ev) == pre + [StopRoutine] + (if r.code == SUCCESS then [] else [InitRoutine])
    ensures r.code == SUCCESS ==> Queued(r.ev) == [w, STOP_CMD]
  {
    var code := if s.code != SUCCESS then s.code else p.code;
    ProbeCode(s.code, p.code, Queued(p.ev));
    if code != SUCCESS {
      var i := Reinit(h, p.tick);
      Joined(s.ev, p.ev, i.ev);
      return Step(code, i.tick, s.ev + p.ev + i.ev);
    }
    Joined(s.ev, p.ev, []);
    assert s.ev + p.ev + [] == s.ev + p.ev;
    return Step(SUCCESS, p.tick, s.ev + p.ev);
  }

  /** The code a probe reports: the start's when it failed, else the
      stop's; only a start reports BUSY. */
  lemma ProbeCode(start: bv32, stop: bv32, queued: seq<bv32>)
    requires queued == [] ==> WaitFailure(stop)
    requires queued == [STOP_CMD] ==> stop == SUCCESS || IsError(stop) || stop == NEG_ETIMEDOUT
    requires queued == [] || queued == [STOP_CMD]
    ensures (if start != SUCCESS then start else stop) == BUSY ==> start == BUSY
    ensures (if start != SUCCESS then start else stop) == SUCCESS ==> start == SUCCESS && queued == [STOP_CMD]
  {
  }

  /** The trace of three pieces run one after the other. */
  lemma Joined(a: seq<Event>, b: seq<Event>, c: seq<Event>)
    ensures Queued(a + b + c) == Queued(a) + Queued(b) + Queued(c)
    ensures Stored(a + b + c) == Stored(a) + Stored(b) + Stored(c)
    ensures Routines(a + b + c) == Routines(a) + Routines(b) + Routines(c)
  {
    TraceAppend(a, b);
    TraceAppend(a + b, c);
  }
}

=== FILE: lpi2c_hw.dfy ===
/** The LPI2C controller as the driver in source/utils/lpi2c.c sees it: the
    registers it touches and their bits, the status codes it returns, and an
    oracle standing for the hardware and the microsecond timer.

    The hardware is not modelled: every register read and every timer read
    is a query to the oracle, numbered by a running "tick". A read of
    register `reg` at tick t delivers `load(t, reg)`, a timer read at tick t
    delivers `clock(t)`, and each consumes one tick. What the driver does to
    the hardware is the list of events it produces: register writes, bytes
    stored into the caller's receive buffer, and markers for entry into the
    controller (re-)initialisation and the stop sequence. */
module Lpi2cHw {
  import opened Bits

  datatype Reg = MCR | MSR | MCFGR0 | MCFGR1 | MCCR0 | MTDR | MRDR | MFSR

  /** Register contents and timer readings, by query number. */
  datatype Hw = Hw(load: (nat, Reg) -> bv32, clock: nat -> nat)

  /** The microsecond timer advances between any two reads. Every poll loop
      of the driver terminates under this assumption and no other. */
  ghost predicate Monotone(h: Hw)
  {
    forall j: nat, k: nat :: Ordered(h, j, k)
  }

  /** The timer reads of ticks j and k are in order. */
  ghost predicate Ordered(h: Hw, j: nat, k: nat)
  {
    j < k ==> h.clock(j) < h.clock(k)
  }

  lemma Later(h: Hw, j: nat, k: nat)
    requires Monotone(h) && j < k
    ensures h.clock(j) < h.clock(k)
  {
    assert Ordered(h, j, k);
  }

  datatype Routine = InitRoutine | StopRoutine

  datatype Event =
    | Wr(reg: Reg, val: bv32)   // a register write
    | Rx(b: bv8)                // a byte stored into the receive buffer
    | Begin(r: Routine)         // entry into bus_i2c_init or bus_i2c_stop

  /** The outcome of one driver routine: its return code, the tick after its
      last query, and its events in order. */
  datatype Step = Step(code: bv32, tick: nat, ev: seq<Event>)

  /* What an event list amounts to for a transfer: the words queued to MTDR
     and the bytes stored into the receive buffer, both in order, and the
     routines entered, in order. */

  /** The words an event list queues to MTDR. */
  function Queued(ev: seq<Event>): seq<bv32>
  {
    if |ev| == 0 then []
    else (if ev[0].Wr? && ev[0].reg == MTDR then [ev[0].val] else []) + Queued(ev[1..])
  }

  /** The bytes an event list stores into the receive buffer. */
  function Stored(ev: seq<Event>): seq<bv8>
  {
    if |ev| == 0 then [] else (if ev[0].Rx? then [ev[0].b] else []) + Stored(ev[1..])
  }

  /** The routines an event list enters. */
  function Routines(ev: seq<Event>): seq<Routine>
  {
    if |ev| == 0 then [] else (if ev[0].Begin? then [ev[0].r] else []) + Routines(ev[1..])
  }

  /** Event lists that neither queue a word to MTDR, nor store a byte, nor
      enter a routine: plain register traffic. */
  predicate Plain(ev: seq<Event>)
  {
    Queued(ev) == [] && Stored(ev) == [] && Routines(ev) == []
  }

  /** Queueing one word to MTDR. */
  lemma QueueOne(w: bv32)
    ensures Queued([Wr(MTDR, w)]) == [w] && Stored([Wr(MTDR, w)]) == [] && Routines([Wr(MTDR, w)]) == []
  {
    assert [Wr(MTDR, w)][1..] == [];
  }

  /** Storing one byte. */
  lemma StoreOne(b: bv8)
    ensures Stored([Rx(b)]) == [b] && Queued([Rx(b)]) == [] && Routines([Rx(b)]) == []
  {
    assert [Rx(b)][1..] == [];
  }

  /** What a concatenation does is what its parts do, in order. */
  lemma TraceAppend(a: seq<Event>, b: seq<Event>)
    ensures Queued(a + b) == Queued(a) + Queued(b)
    ensures Stored(a + b) == Stored(a) + Stored(b)
    ensures Routines(a + b) == Routines(a) + Routines(b)
  {
    QueuedAppend(a, b);
    StoredAppend(a, b);
    RoutinesAppend(a, b);
  }

  lemma {:induction false} QueuedAppend(a: seq<Event>, b: seq<Event>)
    ensures Queued(a + b) == Queued(a) + Queued(b)
  {
    if |a| > 0 {
      assert (a + b)[0] == a[0];
      assert (a + b)[1..] == a[1..] + b;
      QueuedAppend(a[1..], b);
      var q := if a[0].Wr? && a[0].reg == MTDR then [a[0].val] else [];
      assert q + (Queued(a[1..]) + Queued(b)) == (q + Queued(a[1..])) + Queued(b);
    } else {
      assert a + b == b;
    }
  }

  lemma {:induction false} StoredAppend(a: seq<Event>, b: seq<Event>)
    ensures Stored(a + b) == Stored(a) + Stored(b)
  {
    if |a| > 0 {
      assert (a + b)[0] == a[0];
      assert (a + b)[1..] == a[1..] + b;
      StoredAppend(a[1..], b);
      var s := if a[0].Rx? then [a[0].b] else [];
      assert s + (Stored(a[1..]) + Stored(b)) == (s + Stored(a[1..])) + Stored(b);
    } else {
      assert a + b == b;
    }
  }

  lemma {:induction false} RoutinesAppend(a: seq<Event>, b: seq<Event>)
    ensures Routines(a + b) == Routines(a) + Routines(b)
  {
    if |a| > 0 {
      assert (a + b)[0] == a[0];
      assert (a + b)[1..] == a[1..] + b;
      RoutinesAppend(a[1..], b);
      var e := if a[0].Begin? then [a[0].r] else [];
      assert e + (Routines(a[1..]) + Routines(b)) == (e + Routines(a[1..])) + Routines(b);
    } else {
      assert a + b == b;
    }
  }

  /** The events of `a` followed by a plain list do what `a` does. */
  lemma AppendPlain(a: seq<Event>, b: seq<Event>)
    requires Plain(b)
    ensures Queued(a + b) == Queued(a) && Stored(a + b) == Stored(a) && Routines(a + b) == Routines(a)
  {
    TraceAppend(a, b);
    assert Queued(a) + [] == Queued(a);
    assert Stored(a) + [] == Stored(a);
    assert Routines(a) + [] == Routines(a);
  }

  /** A plain list followed by the events of `b` does what `b` does. */
  lemma PlainAppend(a: seq<Event>, b: seq<Event>)
    requires Plain(a)
    ensures Queued(a + b) == Queued(b) && Stored(a + b) == Stored(b) && Routines(a + b) == Routines(b)
  {
    TraceAppend(a, b);
    assert [] + Queued(b) == Queued(b);
    assert [] + Stored(b) == Stored(b);
    assert [] + Routines(b) == Routines(b);
  }

  /** Plain lists joined are plain. */
  lemma PlainJoin(a: seq<Event>, b: seq<Event>)
    requires Plain(a) && Plain(b)
    ensures Plain(a + b)
  {
    PlainAppend(a, b);
  }

  /** Entering a routine that then does plain register traffic: the list
      enters that routine and does nothing else a transfer can see. */
  lemma EnterPlain(routine: Routine, body: seq<Event>)
    requires Plain(body)
    ensures Queued([Begin(routine)] + body) == [] && Stored([Begin(routine)] + body) == []
    ensures Routines([Begin(routine)] + body) == [routine]
  {
    assert [Begin(routine)][1..] == [];
    AppendPlain([Begin(routine)], body);
  }

  /** One register write other than to MTDR is plain. */
  lemma WritePlain(reg: Reg, val: bv32)
    requires reg != MTDR
    ensures Plain([Wr(reg, val)])
  {
    assert [Wr(reg, val)][1..] == [];
  }

  /** Register writes other than to MTDR are plain. */
  lemma {:induction false} ConfigPlain(ev: seq<Event>)
    requires forall i :: 0 <= i < |ev| ==> ev[i].Wr? && ev[i].reg != MTDR
    ensures Plain(ev)
  {
    if |ev| > 0 {
      assert ev[0].Wr? && ev[0].reg != MTDR;
      ConfigPlain(ev[1..]);
      assert Queued(ev) == [] + Queued(ev[1..]);
      assert Stored(ev) == [] + Stored(ev[1..]);
      assert Routines(ev) == [] + Routines(ev[1..]);
    }
  }

  /** Time budget left to a poll loop that started its clock at `ts`, seen
      from tick t: the loop's termination measure. */
  function Left(h: Hw, t: nat, ts: nat, budget: nat): nat
  {
    if h.clock(t) > ts + budget then 0 else ts + budget + 1 - h.clock(t)
  }

  // MSR bits
  const MSR_SDF: bv32 := 0x200
  const MSR_NDF: bv32 := 0x400
  const MSR_ALF: bv32 := 0x800
  const MSR_FEF: bv32 := 0x1000
  const MSR_PLTF: bv32 := 0x2000
  const MSR_MBF: bv32 := 0x100_0000
  const MSR_BBF: bv32 := 0x200_0000
  /** The error flags the driver checks. */
  const MSR_ERRORS: bv32 := 0x3c00
  /** Written to MSR to clear every status flag. */
  const MSR_CLEAR_ALL: bv32 := 0x7f00

  // MCR bits
  const MCR_MEN: bv32 := 0x1
  const MCR_RST: bv32 := 0x2
  const MCR_DOZEN: bv32 := 0x4
  const MCR_RTF: bv32 := 0x100
  const MCR_RRF: bv32 := 0x200

  /** An MCR word with master mode switched off, the other bits kept. */
  function MasterOff(mcr: bv32): bv32
  {
    mcr & !MCR_MEN
  }

  /** An MCR word with master mode switched on, the other bits kept, as
      the driver computes it: clear the enable bit, then set it. */
  function MasterOn(mcr: bv32): bv32
  {
    MasterOff(mcr) | MCR_MEN
  }

  // MCFGR0 bits
  const MCFGR0_HREN: bv32 := 0x1
  const MCFGR0_HRPOL: bv32 := 0x2
  const MCFGR0_HRSEL: bv32 := 0x4
  /** The three host-request bits. */
  const MCFGR0_HOST: bv32 := 0x7

  // MCFGR1 bits
  const MCFGR1_PRESCALE: bv32 := 0x7
  const MCFGR1_AUTOSTOP: bv32 := 0x100
  const MCFGR1_IGNACK: bv32 := 0x200
  const MCFGR1_PINCFG: bv32 := 0x700_0000

  // MRDR and MFSR
  const MRDR_RXEMPTY: bv32 := 0x4000
  const MFSR_TXCOUNT: bv32 := 0x7
  const FIFO_SIZE: bv32 := 4

  // Poll budgets in microseconds
  const TIMEOUT: nat := 100_000
  const NACK_TIMEOUT: nat := 1_000

  /** The bus rate bus_i2c_init is called with. */
  const STANDARD_RATE: nat := 100_000

  // lpi2c_status_t values
  const NAK_ERR: bv32 := 3
  const ARB_LOST_ERR: bv32 := 4
  const FIFO_ERR: bv32 := 5
  const PIN_LOW_TIMEOUT_ERR: bv32 := 6
  const BUSY: bv32 := 8

  /** The priority table: entry i is the i-th error flag decoded and the
      code it yields. */
  function PriorityFlag(i: nat): bv32
  {
    if i == 0 then MSR_PLTF else if i == 1 then MSR_ALF else if i == 2 then MSR_NDF else MSR_FEF
  }

  function PriorityCode(i: nat): bv32
  {
    if i == 0 then PIN_LOW_TIMEOUT_ERR else if i == 1 then ARB_LOST_ERR else if i == 2 then NAK_ERR
    else FIFO_ERR
  }

  /** The code of the first flag of the priority table from entry i on set
      in `status`, 0 if none is. */
  function FirstFlagged(status: bv32, i: nat): bv32
    decreases 4 - i
  {
    if i >= 4 then 0
    else if status & PriorityFlag(i) != 0 then PriorityCode(i)
    else FirstFlagged(status, i + 1)
  }

  /** The status code of a status word, as lpci2c_check_clear_error decodes
      it: the first error flag set in the order PLTF, ALF, NDF, FEF. */
  function ErrorCode(status: bv32): bv32
  {
    if status & MSR_PLTF != 0 then PIN_LOW_TIMEOUT_ERR
    else if status & MSR_ALF != 0 then ARB_LOST_ERR
    else if status & MSR_NDF != 0 then NAK_ERR
    else if status & MSR_FEF != 0 then FIFO_ERR
    else 0
  }

  /** One of the four error codes. */
  predicate IsError(code: bv32)
  {
    code == PIN_LOW_TIMEOUT_ERR || code == ARB_LOST_ERR || code == NAK_ERR || code == FIFO_ERR
  }

  /** "Busy": another master holds the bus (busy flag set, master-busy flag
      clear). */
  predicate Stuck(status: bv32)
  {
    status & MSR_BBF != 0 && status & MSR_MBF == 0
  }

  /** MTDR command words: a command code in bits 8 .. 10 and a data byte. */
  function Command(cmd: bv32, data: bv32): bv32
  {
    ((cmd << 8) & 0x700) | (data & 0xff)
  }

  function CmdField(w: bv32): bv32
  {
    (w >> 8) & 7
  }

  function DataField(w: bv32): bv32
  {
    w & 0xff
  }

  /** The start word: command 4, the 7-bit address shifted left, the
      direction in bit 0. */
  function StartWord(addr: bv8, dir: bv8): bv32
  {
    0x400 | ((addr as bv32) << 1) | (dir as bv32)
  }

  /** The receive command for `len` bytes: command 1 with data len - 1. */
  function RecvCmd(len: nat): bv32
    requires 1 <= len <= 0x1_0000_0000
  {
    Command(1, (len - 1) as bv32)
  }

  /** The stop command. */
  const STOP_CMD: bv32 := 0x200

  /** A start word for a 7-bit address decodes as command 4 with the address
      and direction bit. */
  lemma StartWordFields(addr: bv8, dir: bv8)
    requires addr < 0x80 && dir <= 1
    ensures CmdField(StartWord(addr, dir)) == 4
    ensures (StartWord(addr, dir) >> 1) & 0x7f == addr as bv32
    ensures StartWord(addr, dir) & 1 == dir as bv32
  {
  }

  /** The receive command asks for len - 1 (modulo 256) further bytes. */
  lemma RecvCmdFields(len: nat)
    requires 1 <= len <= 0x1_0000_0000
    ensures CmdField(RecvCmd(len)) == 1
    ensures DataField(RecvCmd(len)) == ((len - 1) as bv32) & 0xff
    ensures CmdField(STOP_CMD) == 2 && DataField(STOP_CMD) == 0
  {
  }

  /** The decode agrees with the priority table: the code of the first
      flag of the table set in the status word, 0 when none is. */
  lemma ErrorCodeByPriority(status: bv32)
    ensures ErrorCode(status) == FirstFlagged(status, 0)
  {
    FirstFlaggedTail(status, 3, MSR_FEF, FIFO_ERR, 0);
    FirstFlaggedTail(status, 2, MSR_NDF, NAK_ERR, FirstFlagged(status, 3));
    FirstFlaggedTail(status, 1, MSR_ALF, ARB_LOST_ERR, FirstFlagged(status, 2));
    FirstFlaggedTail(status, 0, MSR_PLTF, PIN_LOW_TIMEOUT_ERR, FirstFlagged(status, 1));
  }

  lemma FirstFlaggedTail(status: bv32, i: nat, flag: bv32, code: bv32, rest: bv32)
    requires i < 4 && PriorityFlag(i) == flag && PriorityCode(i) == code
    requires rest == FirstFlagged(status, i + 1)
    ensures FirstFlagged(status, i) == if status & flag != 0 then code else rest
  {
  }

  /** The decode is total over the four flags: 0 exactly when no flag of
      MSR_ERRORS is set, otherwise one of the four error codes. */
  lemma ErrorCodeCases(status: bv32)
    ensures ErrorCode(status) == 0 <==> status & MSR_ERRORS == 0
    ensures ErrorCode(status) != 0 ==> IsError(ErrorCode(status))
  {
    assert status & MSR_ERRORS == 0 <==>
      status & MSR_PLTF == 0 && status & MSR_ALF == 0 && status & MSR_NDF == 0 && status & MSR_FEF == 0;
  }
}
